=== FILE: README.md ===
# A named-service supervisor, modelled in Dafny

The library supervises named services of a subtype (a `Service`, a
`Container`, …). Each service lives in a directory under the subtype's
root. A command line such as `service start --now web db` is resolved into
a command, flags and target names. Each target gets the lifecycle
commands `Start`, `Stop`, `Restart`, `Status`, `Ps` and `List`. Its
configuration calls user-level operations such as `Run`, `Env` and
`Workdir`.

The library comes in three generations, and the model keeps them apart:

- `utils/__init__.py` (newest):
  - the service class keeps its state in a JSON lock file under a
    per-service temporary directory;
  - `__getattribute__` runs user-facing calls inside the service directory
    and saves state after user-level ones;
  - `Stop` drains auxiliary processes and then runs exit commands.
- `utils.py` (older): a helper class derives status from a log file and a
  visible or hidden `<type>.py` configuration. `enable`/`disable` rename
  that configuration.
- `duolabs_utils/__init__.py` (oldest): its `List`, `flatten`,
  `split_by_char` and `default_value`.

The operating system is reduced to state:

- a `Host.Disk` (files with their content, directories, current
  directory);
- a `Host.ProcessTable` (lock holders, auxiliary processes, replacements
  that start when an auxiliary process is terminated, the processes
  terminated so far).

The pure helpers are functions with lemmas: the quote-aware split,
flattening, the root directory, the name/file-name substitution, and the
working-directory join and normalisation. The imperative parts are methods
proved against those functions:

- the argument loops;
- `list_items_in_root` working on the caller's lists;
- the service classes, whose fields the operations update.

Modules, one file each:

| module | contents |
|---|---|
| `Common` | `Option`, `Result` |
| `Text` | prefixes, ASCII case mapping, `str.join`, `os.path.join`, `export` strings |
| `Sorting` | Python string order, `sorted` |
| `QuoteSplit` | the quote-aware splitter |
| `Flatten` | the flatteners |
| `Roots` | `get_value`, `default_value`, the root directory, the item listing |
| `Cli` | the three argument parsers and name expanders |
| `Paths` | names and file names; the older `workdir` |
| `Persistence` | `update_lockfile` as written and as intended |
| `Lockfile` | the newest entity's paths and lock-file document |
| `Dispatch` | the `__getattribute__` rule |
| `Host` | disk and processes |
| `Lifecycle` | the newest service class |
| `Legacy` | the older helper class |

## Model

| member | source | states |
|---|---|---|
| `Text.Title` | utils/__init__.py:170 | `str.title` on ASCII: same length; a non-letter is kept; a letter that starts a word becomes the upper-case form of that letter, a letter after a letter its lower-case form |
| `Text.UpperString` | utils.py:32 | `str.upper` on ASCII: same length; each lower-case letter becomes its upper-case form, and every other character is kept |
| `Text.ReplaceChar` | utils/__init__.py:156 | every occurrence of the old character, and only those, becomes the new one |
| `Text.Join` | utils/__init__.py:61 | joining nothing gives `""`, joining one string gives that string |
| `Text.PathJoin` | utils/__init__.py:274-275 | `os.path.join`: an absolute component replaces the path; a relative one is appended after at most one added `/` |
| `Text.PathJoinEnds` | utils/__init__.py:275 | the joined path always ends with the component joined on |
| `Text.PathJoinRelative` | utils/__init__.py:275 | a relative join is the path, a `/` unless the path is empty or already ends in `/`, then the component |
| `Text.PathJoinAssociative` | utils/__init__.py:274-275 | two successive `Workdir` steps equal one step by the joined tail: `join(join(a, b), c) == join(a, join(b, c))` |
| `Text.EnvListToString` | utils/__init__.py:60-61 | no variables give `""`; one gives `export v`; the result starts with the first export |
| `Text.Exports` | utils/__init__.py:61 | one `export v` per variable, in order |
| `Text.AddEnvironmentVariable` | utils.py:116-117 | the prefix is kept and the result ends with `export v`, exactly `; export ` plus `v` longer |
| `Text.EnvGenerationsAgree` | utils.py:116-117 | adding a variable to the newest prefix of a non-empty list gives the newest prefix of the longer list |
| `Sorting.Insert` | utils/__init__.py:269 | inserting into a sorted list keeps it sorted and adds exactly the element |
| `Sorting.StrLessEqTotal` | utils/__init__.py:269 | Python's string order compares any two strings |
| `Sorting.StrLessEqTransitive` | utils/__init__.py:269 | Python's string order is transitive |
| `Sorting.StrLessEqAntisymmetric` | utils/__init__.py:269 | two strings ordered both ways are equal, so the sorted listing is unique |
| `Sorting.Sort` | utils/__init__.py:269 | `sorted`: the result is sorted in Python's string order and is a permutation of the input |
| `QuoteSplit.NextIndex` | utils/__init__.py:22 | the first position at or after `i` holding the character, or none |
| `QuoteSplit.AtomEnd` | utils/__init__.py:22 | an atom is one character other than the separator and the quotes, or a complete quoted segment; no atom starts at the separator or at an unclosed quote |
| `QuoteSplit.TokenEnd` | utils/__init__.py:22 | a match is a run of atoms, empty exactly where no atom starts, and maximal: no atom starts where it ends |
| `QuoteSplit.MatchStart` | utils/__init__.py:22 | the search finds the first position where an atom starts, with no atom before it |
| `QuoteSplit.PiecesFrom` | utils/__init__.py:22-23 | `re.split` with one capture group: an odd number of pieces, gap and match alternating |
| `QuoteSplit.Keep` | utils/__init__.py:23 | no kept piece is `""` or the lone separator |
| `QuoteSplit.KeepMembers` | utils/__init__.py:23 | a piece is kept iff it is neither `""` nor the lone separator |
| `QuoteSplit.SplitByChar` | utils/__init__.py:21-23 | `split_string_by_char`: no element is empty or a lone separator |
| `QuoteSplit.PiecesConcat` | utils/__init__.py:22 | the pieces of the split put back together give the input |
| `QuoteSplit.PiecesAlternate` | utils/__init__.py:22 | even pieces are gaps and odd pieces are matches; read at their places in the input, each gap holds only separators and quotes that the rest of the input never closes, and each match is a maximal run of atoms from its start to the next cut |
| `QuoteSplit.CutsSlices` | utils/__init__.py:22 | each piece is the slice of the input between one cut and the next; the cuts are in order and end at the input's end |
| `QuoteSplit.QuotedSegmentInOneMatch` | utils/__init__.py:22 | a quote the scan reaches, and that the input closes later, lies in one match together with its closing quote |
| `QuoteSplit.QuotedSegmentKept` | utils/__init__.py:21-23 | such a quoted segment lies, with its closing quote, inside one element of the split, a slice of the input |
| `QuoteSplit.SplitPiecesCharacterised` | utils.py:85-87 | the pieces concatenate to the input; every match is kept; every kept element is a match or a gap other than `""` and the lone separator; a quoted segment the scan opens and the input closes is never cut, but lies inside one element |
| `QuoteSplit.DoubledSeparatorSurvives` | utils.py:87 | `a::b` splits to `a`, `::`, `b` |
| `QuoteSplit.QuotedExamplePieces` | utils/__init__.py:22 | the exact pieces of `a:'b:c':d` |
| `QuoteSplit.QuotedSegmentKeptWhole` | duolabs_utils/__init__.py:46-48 | `a:'b:c':d` splits to `a`, `'b:c'`, `d`: the separator inside quotes does not split |
| `Flatten.ListLeaves` | utils/__init__.py:69-74 | the newest flattener yields no list: only nested lists are descended into |
| `Flatten.ListLeavesNested` | utils/__init__.py:70-72 | a nested list is descended into: it yields exactly its own leaves |
| `Flatten.ListLeavesSplice` | utils/__init__.py:69-74 | wherever a nested list stands, its leaves take its place, between the leaves before and after it |
| `Flatten.FlattenList` | utils/__init__.py:63-74 | a top-level string is yielded whole; a list or tuple yields the leaves of its items; a number or `None` raises (`None` result) |
| `Flatten.ListLeavesAppend` | utils/__init__.py:69-74 | leaves come out left to right: flattening distributes over concatenation |
| `Flatten.ListLeavesOfFlat` | utils/__init__.py:69-74 | a sequence without nested lists is its own flattening |
| `Flatten.ListLeavesIdempotent` | utils/__init__.py:63-74 | flattening twice is flattening once |
| `Flatten.IterableLeaves` | duolabs_utils/__init__.py:30-37 | the older flattener yields no list or tuple: every non-string iterable is descended into |
| `Flatten.IterableLeavesNested` | utils.py:72-74 | a nested list or tuple is descended into: it yields exactly its own leaves |
| `Flatten.IterableLeavesSplice` | utils.py:71-76 | wherever a nested list or tuple stands, its leaves take its place |
| `Flatten.Characters` | utils.py:71-76 | iterating a string yields its one-character strings in order |
| `Flatten.FlattenIterable` | utils.py:69-76 | a string yields its characters; a list or tuple yields the leaves of its items; raises exactly for a number or `None` |
| `Flatten.IterableLeavesAppend` | duolabs_utils/__init__.py:30-37 | left-to-right order: flattening distributes over concatenation |
| `Flatten.IterableLeavesOfFlat` | duolabs_utils/__init__.py:30-37 | a sequence of leaves is its own flattening |
| `Flatten.IterableLeavesIdempotent` | duolabs_utils/__init__.py:30-37 | flattening twice is flattening once |
| `Flatten.GenerationsAgreeWithoutTuples` | utils.py:69-76 | without tuples, the older and newest flatteners yield the same leaves |
| `Flatten.StringsKeptWhole` | utils/__init__.py:65-67 | a nested string is kept whole by both generations; a top-level string only by the newest |
| `Roots.GetValue` | utils.py:25-29 | `get_value` gives the default iff the variable is falsy, else the variable |
| `Roots.DefaultValue` | duolabs_utils/__init__.py:57-61 | `default_value` gives its third argument iff the first is falsy, else its second |
| `Roots.DefaultValueGeneralisesGetValue` | duolabs_utils/__init__.py:57-61 | `default_value(v, v, d)` is `get_value(v, d)` |
| `Roots.StripTrailingSlashes` | utils.py:34 | `rstrip('/')`: a prefix of the path that does not end in `/`, and everything it drops is `/` |
| `Roots.ExpandUser` | utils.py:34 | a path not starting with `~`, or starting with `~user`, is unchanged; `~` and `~/…` become the home directory without its trailing `/`, followed by the rest of the path (`/` when both are empty) |
| `Roots.RootDirectory` | utils.py:31-34 | raises `KeyError` exactly when `HOME` is unset, even with a default given |
| `Roots.RootResolution` | utils.py:31-34 | `<CLASS>_ROOT` from the environment wins when set; otherwise the root is `$HOME/<Class>s` |
| `Roots.GetRoot` | utils/__init__.py:233-239 | the cached class root, else `~/<Class>s` |
| `Roots.DropHidden` | utils/__init__.py:269 | no kept entry starts with `.` |
| `Roots.DropHiddenCounts` | utils/__init__.py:269 | every entry not starting with `.` is kept as often as listed; dot entries never |
| `Roots.DropHiddenSorted` | utils/__init__.py:269 | dropping entries keeps a sorted listing sorted |
| `Roots.AllItems` | utils/__init__.py:267-269 | `get_all_items`: sorted, and exactly the listing's non-dot entries with their counts |
| `Paths.NameToFilename` | utils/__init__.py:155-156 | every `/` becomes the platform separator; nothing else changes |
| `Paths.FilenameToName` | utils/__init__.py:158-159 | every platform separator becomes `/`; nothing else changes |
| `Paths.NameRoundTrip` | utils/__init__.py:155-159 | a name survives name→file name→name iff the separator is `/` or does not occur in it |
| `Paths.FilenameRoundTrip` | utils/__init__.py:155-159 | a file name survives the reverse trip iff the separator is `/` or it holds no `/` |
| `Paths.CollapseSlashes` | utils.py:198 | the result has no run of two `/`, is no longer, and keeps the first character |
| `Paths.CollapseIdentity` | utils.py:198 | a path without a run of `/` is unchanged |
| `Paths.CollapseIdempotent` | utils.py:198 | collapsing twice is collapsing once |
| `Paths.LegacyWorkdir` | utils.py:187-198 | no run of `/` in the result; a trailing `/` is stripped unless the path is `/`; then an absolute path replaces the directory and a relative one is appended after `/` |
| `Paths.RelativeWorkdirExtends` | utils.py:194-198 | a relative step keeps the collapsed current directory as the beginning of the new one |
| `Persistence.SaveAsWritten` | utils/__init__.py:252-259 | as written: the document comes back unchanged, and `NameError` is raised exactly for an attribute named `""` that is not callable |
| `Persistence.Save` | utils/__init__.py:245-262 | as intended: every persistable attribute is stored under its name; other entries stay; nothing else appears |
| `Persistence.Load` | utils/__init__.py:183-188 | every document key becomes an attribute with its value; other attributes stay |
| `Persistence.SaveLoadRoundTrip` | utils/__init__.py:183-188 | a persistable attribute saved and loaded into any fresh entity comes back equal |
| `Persistence.SaveIdempotent` | utils/__init__.py:245-262 | saving twice is saving once |
| `Persistence.AsWrittenLosesAttributes` | utils/__init__.py:253 | as written, a `workdir` is not saved and so not reloaded; the intended save keeps it |
| `Lockfile.MakeLayout` | utils/__init__.py:168-172 | the layout carries the service's name and the kind's root |
| `Lockfile.LayoutFiles` | utils/__init__.py:168-172 | log and lock are two different files inside the temporary directory; the directory is named after the service |
| `Lockfile.EncodeStrings` | utils/__init__.py:249-262 | a JSON list holding each string in order |
| `Lockfile.DecodeStrings` | utils/__init__.py:183-188 | a list of strings is read back element by element; any other shape is rejected |
| `Lockfile.StringsRoundTrip` | utils/__init__.py:183-188 | decoding an encoded `env` list gives it back |
| `Lockfile.EncodeFlags` | utils/__init__.py:249-262 | a JSON object with the same keys, each value a string |
| `Lockfile.DecodeFlags` | utils/__init__.py:183-188 | an object of strings is read back key by key; any other shape is rejected |
| `Lockfile.FlagsRoundTrip` | utils/__init__.py:183-188 | decoding encoded flags gives them back |
| `Lockfile.Snapshot` | utils/__init__.py:252 | what `dir(self)` yields: every extra attribute as it is, and no other unmodelled name |
| `Lockfile.Restore` | utils/__init__.py:183-188 | each of `flags`, `setup`, `fork`, `env` and `workdir` that the document holds in its JSON shape replaces the default; one that is missing, or stored in another shape, keeps the default |
| `Lockfile.Extra` | utils/__init__.py:183-188 | exactly the document's unmodelled keys, with their values |
| `Lockfile.SettingsRoundTrip` | utils/__init__.py:245-262 | saving an entity into any document and building a new entity over it restores its settings exactly, whatever the defaults |
| `Lockfile.ExtraRoundTrip` | utils/__init__.py:245-262 | storable extra attributes are read back as written, over those the document held |
| `Dispatch.Resolve` | utils/__init__.py:191-195 | the name itself if defined, else `command_<name>` if defined, else `AttributeError` |
| `Dispatch.DecideCharacterised` | utils/__init__.py:190-208 | wrapped iff the resolved member is callable and upper-case or a command; a wrapped call saves afterwards iff it is not a command; errors exactly as the lookup raises them |
| `Dispatch.CommandsAreScopedWithoutSaving` | utils/__init__.py:193-206 | `Start` resolves to `command_Start`, is wrapped, and saves nothing |
| `Dispatch.UserLevelCallsSave` | utils/__init__.py:197-206 | an upper-case callable is wrapped and saves state afterwards |
| `Dispatch.InternalsAreRaw` | utils/__init__.py:197-198 | data and lower-case helpers come back unwrapped |
| `Host.Disk.Append` | utils/__init__.py:316-322 | `open(p, "a+")` (here and at line 349) then write: the file is created if absent and keeps its lines, with the new lines after them |
| `Host.Disk.WriteDoc` | utils/__init__.py:355-356 | the file holds exactly the document |
| `Host.Disk.Remove` | utils/__init__.py:395-399 | the file is gone; absence is reported, not raised |
| `Host.Disk.Rename` | utils.py:223 | the content moves to the new name; a missing source fails and changes nothing |
| `Host.Disk.MakeDirs` | utils/__init__.py:347 | the directory exists afterwards (`exist_ok`) |
| `Host.Disk.EnterDirectory` | utils/__init__.py:147-150 | the origin is returned; the directory is entered only if it exists |
| `Host.Disk.LeaveDirectory` | utils/__init__.py:152-153 | back to the origin whatever happened |
| `Host.ProcessTable.Terminate` | utils/__init__.py:48-58 | the process is gone from the holders and auxiliaries and recorded as terminated; one already gone is passed over; an auxiliary's replacement starts |
| `Host.ProcessTable.HoldLock` | utils/__init__.py:353 | the started process becomes a lock holder |
| `Host.UpTo` | utils/__init__.py:388-389 | the holders a kill loop reaches before and including a given process: a prefix of the list ending at its first occurrence, or the whole list when absent |
| `Host.UpToLast` | utils/__init__.py:388-389 | a process appended as the newest holder (line 353) is reached last, after all the others |
| `Lifecycle.Marker` | utils/__init__.py:320-323 | at most one line, present iff tracked and not blank under Python's `str.strip` (which also strips the separator controls 0x1C-0x1F and the Unicode spaces); the line is exactly `Command: ` followed by the command |
| `Lifecycle.MarkerExamples` | utils/__init__.py:320-323 | a command of separator controls or of mixed spaces is not announced; `ls -l` tracked is announced as `Command: ls -l`, untracked not at all |
| `Lifecycle.Reverse` | utils/__init__.py:400 | `reversed`: element `i` is element `n-1-i` |
| `Lifecycle.ThroughExit` | utils/__init__.py:400-401 | the commands run up to and including the first `exit`, all of them without one |
| `Lifecycle.ThroughExitAt` | utils/__init__.py:400-401 | when the first `exit` is at position `j`, exactly the commands up to `j` run |
| `Lifecycle.ReverseMembers` | utils/__init__.py:400 | reversing keeps exactly the registered commands |
| `Lifecycle.ExitOrderCharacterised` | utils/__init__.py:400-401 | exit commands run last-registered first; the run ends at the first `exit`, which is included; without `exit` every command runs |
| `Lifecycle.MembersDispatch` | utils/__init__.py:190-208 | `Start`/`Stop` run in the directory without saving, `Env`/`Run` save afterwards, `update_lockfile`/`lockfile` come back raw |
| `Lifecycle.Service.constructor` | utils/__init__.py:162-188 | paths from the kind and the name; exit commands `exit` then the hook; setup not run; the settings are `Restore` of the lock document over the class defaults, so each one the document holds in its JSON shape replaces the default |
| `Lifecycle.Service.Open` | utils/__init__.py:183-188 | a lock file that is not JSON raises a decode error; otherwise a new entity over the lock document, or over nothing without a lock |
| `Lifecycle.Service.Status` | utils/__init__.py:409-413 | `["Started"]` iff the lock file exists, else `["Stopped"]` |
| `Lifecycle.Service.Ps` | utils/__init__.py:374-382 | `main`: no processes without a lock file, else the lock holders; `auxiliary`: the auxiliary processes; the `main` flag takes precedence; neither gives `None` |
| `Lifecycle.Service.List` | utils/__init__.py:406-407 | exactly the service name, the one its directory is named after |
| `Lifecycle.Service.Saved` | utils/__init__.py:245-262 | nothing without `fork`; a missing lock raises `FileNotFoundError`; otherwise only the lock file changes |
| `Lifecycle.Service.SavedReloads` | utils/__init__.py:183-188 | what a save leaves in the lock file, a new entity reads back: the settings exactly, the extras over the old ones |
| `Lifecycle.Service.UpdateLockfile` | utils/__init__.py:245-262 | the disk becomes the saved files, or the error is returned and nothing changes |
| `Lifecycle.Service.Enter` | utils/__init__.py:202 | the wrapper enters the service directory if it exists and remembers the origin |
| `Lifecycle.Service.Leave` | utils/__init__.py:203-206 | a user-level call saves first; the origin directory is restored in any case |
| `Lifecycle.Service.Env` | utils/__init__.py:271-272 | the variable is appended after the others, the state saved, the directory restored |
| `Lifecycle.Service.Workdir` | utils/__init__.py:274-275 | the working directory becomes `os.path.join(old, p)`, the state saved |
| `Lifecycle.Service.Run` | utils/__init__.py:306-334 | `_setup` runs on the first call only; a callable's value is returned without logging; a forked shell command opens the log and is announced per `Marker`; when `Popen` (line 26) cannot start the program, `LaunchFailed` comes back with only the marker written and nothing saved; otherwise output comes back only when piped and the state is saved |
| `Lifecycle.Service.RunAsWritten` | utils/__init__.py:306-334 | `Run` as written: a callable's value still comes back and is saved, but a shell command is logged per `Marker` and then fails because `utils` is unbound, before any program starts, with nothing saved |
| `Lifecycle.Service.Execute` | utils/__init__.py:307-334 | `_setup` has run exactly once by the end; the disk gains just what `Logged` says; a callable's value or the piped output comes back, or `LaunchFailed` when the program cannot be started |
| `Lifecycle.Service.Perform` | utils/__init__.py:311-334 | only the log file may change, as `Logged` says; a callable's value or the piped output comes back, or `LaunchFailed` when the program cannot be started |
| `Lifecycle.Service.Stop` | utils/__init__.py:384-401 | nothing happens to a stopped service; otherwise the lock holders are terminated, auxiliaries are drained (unless the `main` flag is set), log and lock are removed so the status becomes Stopped, and the exit commands run in `ExitOrder` |
| `Lifecycle.Service.Halt` | utils/__init__.py:388-401 | for a started service: no lock holder survives and each was terminated; without `main` no auxiliary survives; log and lock are gone; the exit commands ran in `ExitOrder` |
| `Lifecycle.Service.KillMains` | utils/__init__.py:388-389 | every lock holder is terminated and none remains; an auxiliary process is either kept or terminated |
| `Lifecycle.Service.DrainAuxiliary` | utils/__init__.py:391-393 | the loop ends only when `Ps("auxiliary")` is empty, so respawned auxiliaries are killed too; with `main` set nothing changes |
| `Lifecycle.Service.RunExitCommands` | utils/__init__.py:400-401 | the commands executed are exactly `ExitOrder`; the process exits iff `exit` is registered |
| `Lifecycle.Service.Launch` | utils/__init__.py:347-356 | the temporary directory is made, the log created, the lock held by the worker and written with `{}` |
| `Lifecycle.Service.KillUpTo` | utils/__init__.py:388-389 | the worker's kill loop: every lock holder up to and including the worker itself is terminated, the holders after it are left, since the worker's own `SIGTERM` reaches the handler of line 360 and ends the loop |
| `Lifecycle.Service.Abort` | utils/__init__.py:347-366 | a forked start whose configuration raises: the service's process is terminated by its own `Stop` (lines 388-389), with every earlier lock holder; the log and the lock file holding `{}` remain, so the status stays Started |
| `Lifecycle.Service.Start` | utils/__init__.py:336-371 | a started service is untouched; a forked start leaves the service Started, with the log, the temporary directory and the lock holding `{}`; with a good configuration the worker stays a holder and the closing `Run()` raises `LaunchFailed` after setup; with a failing one the worker is terminated by its own `Stop` (`KilledItself`) before setup; a non-forked start changes no file and raises `LaunchFailed` |
| `Lifecycle.Service.Boot` | utils/__init__.py:340-369 | the start path of a stopped service, as in `Start`; a forked failing configuration also terminates every lock holder that was there before |
| `Lifecycle.Service.Serve` | utils/__init__.py:369 | the final `Run()` writes no marker for the blank command, only opens the log of a forked service, and raises `LaunchFailed` because `Popen` (line 26) has no program named `""` to start; nothing is saved |
| `Lifecycle.Service.Restart` | utils/__init__.py:403-404 | with `exit` registered, restarting a started service ends in its `Stop`; otherwise a new entity starts, never reporting "already started"; a forked one leaves the service Started, ending in `LaunchFailed` or, with a failing configuration, `KilledItself` |
| `Lifecycle.Service.StopThenStart` | utils/__init__.py:404 | the `Stop` then `Start` pair: the same outcomes as `Restart` |
| `Lifecycle.Service.StartAnew` | utils/__init__.py:404 | the new entity starts from the class defaults; forked, the lock file is left and the start ends in `LaunchFailed` or `KilledItself`; otherwise no lock is written and it ends in `LaunchFailed` |
| `Legacy.MovedBack` | utils.py:219-248 | renaming the configuration to a free name and back restores the files: `disable` undoes `enable` |
| `Legacy.Service.constructor` | utils.py:138-155 | the helper wraps the subtype's name and the service's name, flags and working directory |
| `Legacy.Service.Status` | utils.py:206-217 | exactly two words: `Started` iff the log file exists (not the lock), `Enabled` iff the visible configuration exists |
| `Legacy.Service.Enable` | utils.py:219-226 | an enabled service gets `<type> is already enabled`; otherwise the hidden configuration is renamed to the visible one, the service becomes enabled, started/stopped is unchanged, `--now` asks for a start; exactly one configuration stays |
| `Legacy.Service.Disable` | utils.py:241-248 | a disabled service gets `<name> is already disabled`; otherwise the visible configuration is hidden, the service becomes disabled, `--now` asks for a stop; exactly one configuration stays |
| `Legacy.Service.MainProcesses` | utils.py:178-182 | no main processes without a lock file |
| `Legacy.Service.Stop` | utils.py:157-166 | a stopped service gets a message; otherwise every main process and every auxiliary process listed after them is terminated once, with no draining |
| `Legacy.Service.KillAll` | utils.py:162-166 | each listed process that was alive is terminated; no listed process stays a main process; nothing is revived |
| `Legacy.Service.CleanupAfterStop` | utils.py:168-173 | log and lock are removed where present, so the status reads Stopped; enabled/disabled is unchanged |
| `Legacy.Service.Workdir` | utils.py:187-198 | the working directory becomes `LegacyWorkdir(old, p)` |
| `Cli.FlagCount` | utils/__init__.py:85-93 | the leading tokens that start with `--`: every earlier token does, the next one does not |
| `Cli.SplitAtEquals` | utils/__init__.py:98 | `split('=', 1)`: the key part has no `=`; the token is key, `=`, value when there is one |
| `Cli.SplitAtEqualsNone` | utils/__init__.py:98-100 | a token without `=` is the whole key, padded with no value |
| `Cli.SplitAtEqualsFirst` | utils/__init__.py:98 | a token is split at its first `=`: the value keeps any later `=` |
| `Cli.FlagTokenRoundTrip` | utils/__init__.py:97-103 | a flag token is `--key=value`, or `--key` with value `""` |
| `Cli.FlagMapKeys` | utils/__init__.py:97-103 | a key is in the dictionary iff some flag token carries it |
| `Cli.FlagMapLastWins` | utils/__init__.py:97-103 | a key's value is that of its last token: later duplicates overwrite |
| `Cli.FilterNamesMatch` | utils/__init__.py:107-110 | a filter adds exactly the listed items whose status holds the title-cased flag |
| `Cli.NoFilterNoNames` | utils/__init__.py:107-110 | without filter flags nothing is added |
| `Cli.Parse` | utils/__init__.py:80-83 | an empty argument list raises "No command specified!"; otherwise the command is the first argument |
| `Cli.SplitTokens` | utils/__init__.py:85-93 | the split loop: flags up to the first non-`--` token, the rest as names |
| `Cli.BuildFlags` | utils/__init__.py:97-103 | the dictionary loop builds `FlagMap` |
| `Cli.ExpandFilters` | utils/__init__.py:107-114 | each present filter adds its matching items and is deleted; `all` adds every item and is deleted |
| `Cli.ExpandStatusFilters` | utils/__init__.py:107-110 | the four status filters: the names gain the items whose status carries each given filter, and those filters leave the flags |
| `Cli.ParseArguments` | utils/__init__.py:76-117 | the parsing half of `parse_and_call_and_return` computes `Parse` |
| `Cli.NamesFollowFirstName` | utils/__init__.py:85-93 | every token from the first name on is a name, even one starting with `--` |
| `Cli.LeadingFlagsParsed` | utils/__init__.py:97-103 | a non-filter key is a flag iff a leading token carries it, with its last value |
| `Cli.FlagExample` | utils/__init__.py:102 | `--foo=bar --baz` gives foo→bar, baz→`""` |
| `Cli.ParseSplit` | utils/__init__.py:85-114 | for command, flag tokens, then names: the flags are the tokens' dictionary minus the filters; the names include the rest, and are exactly the rest without filters |
| `Cli.ParseAt` | utils/__init__.py:85-114 | for any split into flag tokens and names, the invocation has the tokens' dictionary minus the filter keys, and the names the filters expand to |
| `Cli.NoFiltersGiven` | utils/__init__.py:107-114 | with no filter among the flags, the names are exactly the given ones |
| `Cli.FilterExample` | utils/__init__.py:107-110 | `--stopped` over A (started), B and C (stopped) selects B and C |
| `Cli.ZeroNamesAccepted` | utils/__init__.py:116-117 | as written: `start` with no targets is accepted with no names |
| `Cli.ResolveTargets` | utils/__init__.py:116-117 | as intended: an invocation without targets is rejected; any other is what the parser gives |
| `Cli.Extract` | utils.py:98-114 | no arguments: the print-and-exit path; otherwise names, raw flag tokens and command, split at the first non-`--` token |
| `Cli.ExtractArguments` | utils.py:98-114 | the index loop computes `Extract` |
| `Cli.GenerationsSplitAlike` | utils.py:98-114 | the older and newest parsers agree on the command, the names and the flags |
| `Cli.Select` | utils.py:48 | exactly the listed items whose status holds the word (all of them for `--all`) |
| `Cli.RemoveFirst` | utils.py:49 | `list.remove`: one element fewer, the same elements less one copy of `x` |
| `Cli.RemoveFirstAt` | utils.py:49 | the copy removed is the first: the result is the list with its first `x` cut out |
| `Cli.ApplyFilters` | utils.py:47-63 | the filter blocks applied in order to the names and flags lists |
| `Cli.ApplyFilter` | utils.py:47-49 | one block updates the caller's lists in place as `ApplyFilters` says |
| `Cli.ListItemsInRoot` | utils.py:45-67 | the caller's `names` and `flags` lists end as `ApplyFilters` says; the exit is taken iff no name results |
| `Cli.ApplyListFilters` | utils.py:47-63 | the two lists the caller passes end as `ApplyFilters` says, filter by filter |
| `Cli.ApplyFiltersAdds` | utils.py:47-63 | the names grow by each present filter's matching items, in filter order, duplicates kept |
| `Cli.ApplyFiltersRemoves` | utils.py:47-63 | each present filter token loses exactly one occurrence; other flags stay |
| `Cli.OldestFilter` | duolabs_utils/__init__.py:11-13 | one block of the oldest `List`, rebinding `flags` to `None` |
| `Cli.OldestList` | duolabs_utils/__init__.py:8-28 | the oldest `List` on the caller's lists, with its `TypeError` |
| `Cli.OldestReturnsIff` | duolabs_utils/__init__.py:8-28 | it returns iff no filter token but the last (`--all`) is present |
| `Cli.OldestAgreesWhenReturning` | duolabs_utils/__init__.py:8-28 | whenever it returns, the lists are as the in-place version leaves them |
| `Cli.StartedFilterRaises` | duolabs_utils/__init__.py:11-14 | `--started` adds its names, then the next test raises `TypeError` |
| `Cli.OldestAllOnly` | duolabs_utils/__init__.py:25-28 | with `--all` the only filter, the sorted listing is added and `flags` comes back `None` |
| `Cli.OldestNoFilters` | duolabs_utils/__init__.py:8-28 | with no filter token, `(names, flags)` come back unchanged |
| `Cli.ListFiltersDistinct` | utils.py:47-63 | the five filter tokens `--started`, `--stopped`, `--enabled`, `--disabled`, `--all`, in that order and distinct |
| `Cli.OldestListIntended` | duolabs_utils/__init__.py:8-28 | as intended: every present filter adds its items; each filter token present loses one occurrence |

## Left out

- Process control is not modelled. This covers `shell_command`, `Shell`, `os.fork` (double fork), `signal.signal`, `wait_until_pid_exits` and `lsof`. Process ids are an oracle (`Host.ProcessTable`). Killing and waiting is one atomic step.
- `Loop`, `Wait`, `loop`: threads and timed waits. The `Wait()` and `exit()` that end `command_Start` are never reached, because the `Run()` before them raises.
- `_exec`, `export_methods_globally`, `execute_class_method`: they run arbitrary code through `exec`/`eval`. In `Start`, running the configuration is a parameter `configFails`, and its own effects are not modelled.
- `command_Log`/`Watch`/`Delete`, `edit`, `log`, `watch`, `delete`: pagers, editors, `shutil.rmtree`.
- The printing loops, `print_list` and `print_result`. Output written to the console by a non-forked `Run` is not modelled either.
- `get_tempdir`, `_get_root`'s home directory, and the platform separator are not computed. They are fields of `Lockfile.Kind`. The environment of `get_root_directory` is a map parameter.
- `parse_and_call_and_return` after parsing (the loop that calls and reports) is not modelled. Its line 124 uses an undefined `function`.
- `Lifecycle.Service.Start`: line 338 raises `AttributeError` (a class has no `title`), so `AlreadyStarted` stands for the message that line evidently means.
- `Lifecycle.Service.Stop`: line 386 raises (`class_name` does not exist), so `AlreadyStopped` stands for the message it evidently means. Because of that, a failing configuration in a non-forked `Start` goes on to `Run` in the model.
- `Lifecycle.Service.DrainAuxiliary`: the loop of lines 391-393 has no bound; it ends only when the subtype's auxiliary listing comes back empty. A listing that keeps reporting a process that has already exited (whose `ProcessLookupError` lines 57-58 swallow), or a subtype that respawns without end, makes `command_Stop` loop forever. The model assumes finitely many respawns and a listing of live processes only, so the loop always ends.
- `Lifecycle.Service.Stop`: always ends in the model, because its drain does (see `Lifecycle.Service.DrainAuxiliary`). The source's `Stop` can loop forever.
- `Lifecycle.Service.Halt`: always ends in the model, for the same reason as `Lifecycle.Service.Stop`.
- `Lifecycle.Service.Stop`: with `main` among the flags, `Ps("auxiliary")` reports the (by then empty) lock holders, so auxiliary processes are not drained. The contract states this and drops the drain.
- `Lifecycle.Service.Restart`: `self.__class__(self.name)` passes one argument to a constructor that takes three. The model builds the new entity with the current flags.
- `Lifecycle.Service.Restart`: `Stop` runs `exit` whenever it is registered, so a restart from the command line ends during `Stop`. The contract states this.
- `Lifecycle.Service.constructor`: the paths, `exit_commands` and `attributes` keep their computed values even when the lock document holds entries under those names. Such entries are kept as extras. A setting stored in the wrong JSON shape keeps its default.
- `Lifecycle.Service.Env`: the class-level `env` list that `append` mutates, shared between instances, is modelled as a per-entity value.
- `Lifecycle.Service.Run`: the `shell` argument and the command's exit status are not modelled. `output` stands for what the command prints. `launches` stands for whether `Popen` finds the program the command names; the search path is not modelled.
- `Lifecycle.Service.Run`: line 334 calls `shell_command` through the name `utils`, which the module never binds. The model calls the module's own `shell_command` (line 26), as evidently intended. `Lifecycle.Service.RunAsWritten` models the `NameError` (see Findings).
- `Lifecycle.Service.Execute`: builds on the corrected `Run`; as written, every shell command raises `NameError` after its marker is logged.
- `Lifecycle.Service.Perform`: builds on the corrected `Run`; as written, every shell command raises `NameError` after its marker is logged.
- `Lifecycle.Service.Serve`: the final `self.Run()` of line 369 uses the corrected `Run`, where `Popen("")` raises because no program is named `""`. As written, `NameError` is raised at line 334 instead. The files end the same either way: nothing is saved, and `Wait` is never reached. A subtype that overrides `Run` is not modelled.
- `Lifecycle.Service.Start`: the exception of line 369 (see `Serve`) is reported as `Raised(LaunchFailed)`. The traceback and the end of the process it causes are not modelled.
- `Lifecycle.Service.Start`: when a forked configuration fails, the worker holds the lock (line 353), so the kill loop of line 389 sends `SIGTERM` to the worker itself. The handler of line 360 is the wrapped `Stop`, called with two signal arguments it does not take. The worker ends there, whether by the `TypeError` or by the signal, and the model reports `KilledItself`. The lines after the kill loop never run, so the log and the lock file stay, and no exit command runs.
- `Lifecycle.Service.Boot`: ends as `Start` does, in the exception of line 369 or in the worker's own `SIGTERM`.
- `Lifecycle.Service.Abort`: how the worker dies (the `TypeError` in the handler, or the signal itself) is not told apart.
- `Lifecycle.Service.Restart`: its start half ends as `Start` does. It never reaches `Wait`.
- `Lifecycle.Service.StopThenStart`: its start half ends as `Start` does. It never reaches `Wait`.
- `Lifecycle.Service.StartAnew`: ends as `Start` does. It never reaches `Wait`.
- `Cli.FilterNamesMatch`: line 109 builds `cls(_,{})` with two arguments, but the constructor of line 161 takes three. As written, any status filter raises `TypeError`. The model takes each item's status as a parameter, the status that line evidently means.
- `Cli.ExpandFilters`: a status filter reaches line 109, which raises `TypeError` as written (see `Cli.FilterNamesMatch`). Only `--all` and the absence of filters work as written.
- `Cli.ExpandStatusFilters`: line 109 raises `TypeError` as written (see `Cli.FilterNamesMatch`). The contract is about the statuses that line evidently means.
- `Cli.FilterExample`: with `--stopped`, line 109 raises `TypeError` as written (see `Cli.FilterNamesMatch`).
- `Cli.ParseArguments`: with a status filter, line 109 raises `TypeError` as written (see `Cli.FilterNamesMatch`). Line 121, `cls(name,FLAGS)`, has the same two-for-three mismatch. It belongs to the calling half, which is not modelled.
- `Cli.ParseSplit`: with a status filter, line 109 raises `TypeError` as written (see `Cli.FilterNamesMatch`).
- `Cli.ParseAt`: with a status filter, line 109 raises `TypeError` as written (see `Cli.FilterNamesMatch`).
- `Cli.OldestList`: line 9, `sorted(os.listdir(ROOT))`, raises `NameError` as written. The module imports no `os`, and the parameter is `root`, not `ROOT`. The model takes the sorted listing of `root` as a parameter, as evidently intended.
- `Cli.OldestFilter`: only reachable once line 9 is read as intended (see `Cli.OldestList`).
- `Cli.OldestReturnsIff`: holds once line 9 is read as intended (see `Cli.OldestList`). As written, the oldest `List` never returns.
- `Cli.OldestAgreesWhenReturning`: holds once line 9 is read as intended (see `Cli.OldestList`).
- `Cli.StartedFilterRaises`: the `TypeError` comes after line 9, which raises `NameError` first as written (see `Cli.OldestList`).
- `Cli.OldestAllOnly`: holds once line 9 is read as intended (see `Cli.OldestList`).
- `Cli.OldestNoFilters`: holds once line 9 is read as intended (see `Cli.OldestList`).
- `Cli.OldestListIntended`: also reads line 9 as the listing of `root` (see `Cli.OldestList`).
- `Flatten.IterableLeaves`: the oldest `flatten` tests `typing.Iterable` at duolabs_utils/__init__.py:33, but that module does not import `typing`. As written, it raises `NameError` on the first element. The model follows utils.py's `flatten_list` (lines 69-76), which imports `typing` and is otherwise the same.
- `Flatten.IterableLeavesAppend`: for the oldest `flatten`, holds only once `typing` is imported (see `Flatten.IterableLeaves`).
- `Flatten.IterableLeavesOfFlat`: for the oldest `flatten`, holds only once `typing` is imported (see `Flatten.IterableLeaves`).
- `Flatten.IterableLeavesIdempotent`: for the oldest `flatten`, holds only once `typing` is imported (see `Flatten.IterableLeaves`).
- `Legacy.Service.Stop`: line 158 tests `self.self.Status()`, the subtype's own status, which is not in these files. The model uses the helper's `status()` (lines 206-217), as a subtype that delegates to it would.
- `Legacy.Service.Enable`: line 220 tests `self.self.Status()`, the subtype's own status. The model uses the helper's `status()` (lines 206-217).
- `Legacy.Service.Disable`: line 242 tests `self.self.Status()`, the subtype's own status. The model uses the helper's `status()` (lines 206-217).
- `Lifecycle.Service.Saved`: saves through the corrected `Persistence.Save`. As written (line 253), the lock document is rewritten with no attributes, as `Persistence.AsWrittenLosesAttributes` shows.
- `Lifecycle.Service.SavedReloads`: the reload round trip holds for the corrected save only. As written, a reload sees none of the saved settings.
- `Lifecycle.Service.UpdateLockfile`: stores the settings as the corrected `Persistence.Save` does, not the empty set of attributes that line 253 saves.
- `Lifecycle.Service.Leave`: its save after a user-level call is the corrected one, not the one line 253 performs.
- `Lifecycle.Service.Env`: the variable it adds reaches the lock file only through the corrected save. As written, line 253 drops it.
- `Lifecycle.Service.Workdir`: the directory it sets reaches the lock file only through the corrected save. As written, line 253 drops it.
- `Lifecycle.Service.constructor`: the exit commands list `self._exit` (line 176), which the class does not define. Building an entity of a subtype that does not supply `_exit` raises `AttributeError`; the model assumes the subtype supplies it.
- `Roots.ExpandUser`: `~user` and `~user/…` are left unchanged; the password database is not modelled.
- `Persistence.Save`: the as-intended save stores each value itself rather than its `json.dumps` text. Storing the text would make every setting read back as a string.
- `Legacy.Service.Disable`: a directory under the configuration's name is not renamed. The model's rename moves files only.
- `Legacy.Service.Enable`, `Legacy.Service.Disable`: the `Start`/`Stop` that `--now` calls belong to the subtype and are not in these files. The outcome only records that they are called.
- `Legacy.Service.Stop`: the subtype's `Ps` is not part of this model. Main processes come from `get_main_process` and auxiliary ones from the process table.
- `restart`, `list` and `class_init` of `utils.py` delegate to the subtype or only change directory. They are not modelled.
- Strings are sequences of characters. Case mapping covers ASCII letters only. Whitespace is the set Python's `str.isspace` accepts.
- `split_string_by_char` is modelled for separators that a regular-expression character class takes literally after `\` (not letters or digits).

## Findings

| source | as written | input that shows it | evidently intended | confidence | as-written member | corrected member |
|---|---|---|---|---|---|---|
| duolabs_utils/__init__.py:13 | `flags=flags.remove("--started")` rebinds `flags` to `None`, so the next `"--stopped" in flags` raises `TypeError` | `flags == ["--started"]`, once line 9 lists `root` | remove the token in place and go on with the other filters | not executed | `Cli.StartedFilterRaises` | `Cli.OldestListIntended` |
| utils/__init__.py:116-117 | `ValueError(...)` is built but not raised, so an invocation without targets goes on with no names | `argv[1:] == ["start"]` | raise the "no names specified" error | not executed | `Cli.ZeroNamesAccepted` | `Cli.ResolveTargets` |
| utils/__init__.py:253 | the skip condition ends in `or attr`, true for every non-empty name, so no attribute is ever saved | an entity with `workdir == "/srv"` saves `{}` | save every non-callable, non-dunder, serialisable attribute | not executed | `Persistence.AsWrittenLosesAttributes` | `Persistence.Save` |
| utils/__init__.py:334 | `utils.shell_command(...)` names a module `utils` that is never bound, so after the marker is logged the call raises `NameError` and the save that would follow is skipped | `Run("ls")` in a forked service, with `ls` on the search path | call the module's own `shell_command` (line 26) | not executed | `Lifecycle.Service.RunAsWritten` | `Lifecycle.Service.Run` |

=== FILE: Cli.dfy ===
/**
 * Turning the command line into a command, flags and target names, in the
 * three generations of the library:
 *  - the parsing half of `parse_and_call_and_return` (newest): a flag map,
 *    a set of names, filter flags expanded through a status oracle;
 *  - `extract_arguments` and `list_items_in_root` (older): raw flag tokens
 *    and name lists, updated in place;
 *  - `List` (oldest).
 * `status(name)` stands for `cls(name, {}).Status()`, and `listing` for
 * `os.listdir` of the services' root.
 */
module Cli {
  import opened Common
  import opened Text
  import opened Sorting
  import opened Roots

  // ------------------------------------------------------------ token split

  /** The number of leading tokens that start with `--`: where flags end and names begin. */
  function FlagCount(tokens: seq<string>): (n: nat)
    ensures n <= |tokens|
    ensures forall k :: 0 <= k < n ==> StartsWith(tokens[k], "--")
    ensures n < |tokens| ==> !StartsWith(tokens[n], "--")
  {
    if tokens == [] || !StartsWith(tokens[0], "--") then 0 else 1 + FlagCount(tokens[1..])
  }

  /** `token.split('=', 1)`: the text before the first `=`, and the text after it when there is one. */
  function SplitAtEquals(t: string): (r: (string, Option<string>))
    ensures '=' !in r.0
    ensures r.1.None? ==> r.0 == t
    ensures r.1.Some? ==> t == r.0 + "=" + r.1.value
  {
    if t == [] then ("", None)
    else if t[0] == '=' then ("", Some(t[1..]))
    else
      var (before, after) := SplitAtEquals(t[1..]);
      assert after.Some? ==> t == [t[0]] + (before + "=" + after.value);
      ([t[0]] + before, after)
  }

  /** The key of a flag token: the text before the first `=`, without its first two characters. */
  function FlagKey(t: string): string
  {
    var before := SplitAtEquals(t).0;
    if |before| >= 2 then before[2..] else ""
  }

  /** The value of a flag token: the text after the first `=`, or `""` without one. */
  function FlagValue(t: string): string
  {
    match SplitAtEquals(t).1
    case Some(v) => v
    case None => ""
  }

  /** A flag token is recovered from its key and value: `--key=value`, or `--key` when it had no `=`. */
  lemma FlagTokenRoundTrip(t: string)
    requires StartsWith(t, "--")
    ensures '=' !in FlagKey(t)
    ensures SplitAtEquals(t).1.Some? ==> t == "--" + FlagKey(t) + "=" + FlagValue(t)
    ensures SplitAtEquals(t).1.None? ==> t == "--" + FlagKey(t) && FlagValue(t) == ""
  {
    var (before, after) := SplitAtEquals(t);
    assert t[..2] == "--";
    if after.Some? {
      assert t[..|before|] == before && t[|before|] == '=';
      assert t[0] == '-' && t[1] == '-';
      assert |before| >= 2;
      assert before == "--" + before[2..];
    } else {
      assert before == "--" + before[2..];
    }
  }

  /** The dictionary built from flag tokens: later tokens overwrite earlier ones with the same key. */
  function FlagMap(tokens: seq<string>): map<string, string>
  {
    if tokens == [] then map[]
    else
      var last := tokens[|tokens| - 1];
      FlagMap(tokens[..|tokens| - 1])[FlagKey(last) := FlagValue(last)]
  }

  /** A key is in the flag map iff some flag token carries it. */
  lemma {:induction false} FlagMapKeys(tokens: seq<string>, key: string)
    ensures key in FlagMap(tokens) <==> exists k :: 0 <= k < |tokens| && FlagKey(tokens[k]) == key
  {
    if tokens != [] {
      var init := tokens[..|tokens| - 1];
      FlagMapKeys(init, key);
      assert forall k :: 0 <= k < |init| ==> init[k] == tokens[k];
      if key in FlagMap(init) {
        var k :| 0 <= k < |init| && FlagKey(init[k]) == key;
        assert FlagKey(tokens[k]) == key;
      }
    }
  }

  /** The value under a key is that of the last token carrying the key: later duplicates win. */
  lemma {:induction false} FlagMapLastWins(tokens: seq<string>, k: nat)
    requires k < |tokens|
    requires forall j :: k < j < |tokens| ==> FlagKey(tokens[j]) != FlagKey(tokens[k])
    ensures FlagKey(tokens[k]) in FlagMap(tokens)
    ensures FlagMap(tokens)[FlagKey(tokens[k])] == FlagValue(tokens[k])
  {
    var init := tokens[..|tokens| - 1];
    if k < |init| {
      assert init[k] == tokens[k];
      forall j | k < j < |init|
        ensures FlagKey(init[j]) != FlagKey(init[k])
      {
        assert init[j] == tokens[j];
      }
      FlagMapLastWins(init, k);
    }
  }

  // ------------------------------------------------------------ newest: parse_and_call_and_return

  datatype Invocation = Invocation(command: string, flags: map<string, string>, names: set<string>)

  datatype CliError = NoCommand | NoNames

  /** The filter flags that expand into the names whose status contains the title-cased flag. */
  const StatusFilters: seq<string> := ["started", "stopped", "enabled", "disabled"]

  function ItemSet(items: seq<string>): set<string>
  {
    set x | x in items
  }

  function Matching(items: seq<string>, status: string -> seq<string>, word: string): set<string>
  {
    set x | x in items && word in status(x)
  }

  /** The names that the filter flags among `filters` present in `flags` add. */
  function FilterNames(filters: seq<string>, flags: map<string, string>, items: seq<string>,
                       status: string -> seq<string>): set<string>
  {
    if filters == [] then {}
    else
      var last := filters[|filters| - 1];
      FilterNames(filters[..|filters| - 1], flags, items, status)
        + (if last in flags then Matching(items, status, Title(last)) else {})
  }

  /** Every name a filter adds is a listed item whose status carries that filter's word. */
  lemma {:induction false} FilterNamesMatch(filters: seq<string>, flags: map<string, string>, items: seq<string>,
                                            status: string -> seq<string>, x: string)
    ensures x in FilterNames(filters, flags, items, status) <==>
      x in items && exists f :: f in filters && f in flags && Title(f) in status(x)
  {
    if filters != [] {
      var init := filters[..|filters| - 1];
      FilterNamesMatch(init, flags, items, status, x);
      assert filters == init + [filters[|filters| - 1]];
    }
  }

  /** Without filter flags, filtering adds nothing. */
  lemma {:induction false} NoFilterNoNames(filters: seq<string>, flags: map<string, string>, items: seq<string>,
                                           status: string -> seq<string>)
    requires forall f :: f in filters ==> f !in flags
    ensures FilterNames(filters, flags, items, status) == {}
  {
    if filters != [] {
      NoFilterNoNames(filters[..|filters| - 1], flags, items, status);
    }
  }

  /** The flags that expand into names and are then deleted. */
  const FilterKeys: set<string> := {"started", "stopped", "enabled", "disabled", "all"}

  /** The targets: the explicit names, those the status filters add, and every item for `all`. */
  function ParsedNames(names: seq<string>, flags: map<string, string>, items: seq<string>,
                       status: string -> seq<string>): set<string>
  {
    ItemSet(names) + FilterNames(StatusFilters, flags, items, status) + (if "all" in flags then ItemSet(items) else {})
  }

  /** What the newest parser produces before it calls anything. */
  function Parse(args: seq<string>, listing: seq<string>, status: string -> seq<string>): (r: Result<Invocation, CliError>)
    ensures r.Err? <==> args == []
    ensures r.Ok? ==> r.value.command == args[0]
  {
    if args == [] then Err(NoCommand)
    else
      var tokens := args[1..];
      var n := FlagCount(tokens);
      var flags := FlagMap(tokens[..n]);
      Ok(Invocation(args[0], flags - FilterKeys, ParsedNames(tokens[n..], flags, AllItems(listing), status)))
  }

  /** The split loop: flag tokens up to the first token that does not start with `--`, the rest as a set of names. */
  method SplitTokens(arguments: seq<string>) returns (flagTokens: seq<string>, names: set<string>)
    ensures flagTokens == arguments[..FlagCount(arguments)]
    ensures names == ItemSet(arguments[FlagCount(arguments)..])
  {
    names := {};
    flagTokens := arguments;
    var i := 0;
    while i < |arguments|
      invariant i <= |arguments|
      invariant forall k :: 0 <= k < i ==> StartsWith(arguments[k], "--")
      invariant flagTokens == arguments && names == {}
    {
      if !StartsWith(arguments[i], "--") {
        flagTokens := arguments[..i];
        names := ItemSet(arguments[i..]);
        assert FlagCount(arguments) == i;
        return;
      }
      i := i + 1;
    }
    assert FlagCount(arguments) == |arguments|;
    assert arguments[..|arguments|] == arguments;
    assert ItemSet(arguments[|arguments|..]) == {};
  }

  /** The dictionary loop: each flag token's key is set to its value, in order. */
  method BuildFlags(flagTokens: seq<string>) returns (flags: map<string, string>)
    ensures flags == FlagMap(flagTokens)
  {
    flags := map[];
    var k := 0;
    while k < |flagTokens|
      invariant k <= |flagTokens|
      invariant flags == FlagMap(flagTokens[..k])
    {
      var flag := flagTokens[k];
      assert flagTokens[..k + 1][..k] == flagTokens[..k];
      flags := flags[FlagKey(flag) := FlagValue(flag)];
      k := k + 1;
    }
    assert flagTokens[..k] == flagTokens;
  }

  /** The four status filters are different words. */
  lemma StatusFiltersDistinct()
    ensures forall i, j :: 0 <= i < j < |StatusFilters| ==> StatusFilters[i] != StatusFilters[j]
    ensures ItemSet(StatusFilters) + {"all"} == FilterKeys && "all" !in ItemSet(StatusFilters)
  {
    assert StatusFilters[0][1] == 't' && StatusFilters[1][1] == 't';
    assert StatusFilters[0][2] == 'a' && StatusFilters[1][2] == 'o';
    assert StatusFilters[2][0] == 'e' && StatusFilters[3][0] == 'd';
  }

  /** One more status filter: it adds its matching names when present, and joins the deleted keys. */
  lemma StatusFilterStep(j: nat, parsed: map<string, string>, items: seq<string>, status: string -> seq<string>)
    requires j < |StatusFilters|
    ensures FilterNames(StatusFilters[..j + 1], parsed, items, status) == FilterNames(StatusFilters[..j], parsed, items, status)
      + (if StatusFilters[j] in parsed then Matching(items, status, Title(StatusFilters[j])) else {})
    ensures ItemSet(StatusFilters[..j + 1]) == ItemSet(StatusFilters[..j]) + {StatusFilters[j]}
    ensures StatusFilters[j] !in ItemSet(StatusFilters[..j])
  {
    StatusFiltersDistinct();
    assert StatusFilters[..j + 1][..j] == StatusFilters[..j] && StatusFilters[..j + 1][j] == StatusFilters[j];
  }

  /** Deleting one more key, whether or not it is present. */
  lemma DeleteStep(m: map<string, string>, deleted: set<string>, f: string)
    ensures (m - deleted) - {f} == m - (deleted + {f})
    ensures f !in m - deleted ==> m - deleted == m - (deleted + {f})
  {
  }

  /** The filter loop: each status filter present adds its matching names and is deleted. */
  method ExpandStatusFilters(parsed: map<string, string>, names0: set<string>, items: seq<string>,
                             status: string -> seq<string>)
    returns (flags: map<string, string>, names: set<string>)
    ensures names == names0 + FilterNames(StatusFilters, parsed, items, status)
    ensures flags == parsed - ItemSet(StatusFilters)
  {
    flags, names := parsed, names0;
    for j := 0 to |StatusFilters|
      invariant names == names0 + FilterNames(StatusFilters[..j], parsed, items, status)
      invariant flags == parsed - ItemSet(StatusFilters[..j])
    {
      var filter := StatusFilters[j];
      StatusFilterStep(j, parsed, items, status);
      DeleteStep(parsed, ItemSet(StatusFilters[..j]), filter);
      if filter in flags {
        names := names + Matching(items, status, Title(filter));
        flags := flags - {filter};
      }
    }
    assert StatusFilters[..|StatusFilters|] == StatusFilters;
  }

  /** The filter loop and the `all` flag: matching names are added and the filter flags deleted. */
  method ExpandFilters(parsed: map<string, string>, names0: set<string>, items: seq<string>, status: string -> seq<string>)
    returns (flags: map<string, string>, names: set<string>)
    ensures names == names0 + FilterNames(StatusFilters, parsed, items, status)
      + (if "all" in parsed then ItemSet(items) else {})
    ensures flags == parsed - FilterKeys
  {
    flags, names := ExpandStatusFilters(parsed, names0, items, status);
    StatusFiltersDistinct();
    if "all" in flags {
      names := names + ItemSet(items);
      flags := flags - {"all"};
    }
  }

  /**
   * The parsing half of `parse_and_call_and_return`, with `args` for
   * `sys.argv[1:]`: split at the first token that does not start with `--`,
   * build the flag dictionary, expand and delete the filter flags. A missing
   * target only builds a `ValueError` without raising it, so nothing happens
   * for it here.
   */
  method ParseArguments(args: seq<string>, listing: seq<string>, status: string -> seq<string>)
    returns (r: Result<Invocation, CliError>)
    ensures r == Parse(args, listing, status)
  {
    if |args| == 0 {
      return Err(NoCommand);
    }
    var command := args[0];
    var flagTokens, names := SplitTokens(args[1..]);
    var flags := BuildFlags(flagTokens);
    var items := AllItems(listing);
    flags, names := ExpandFilters(flags, names, items, status);
    return Ok(Invocation(command, flags, names));
  }

  /** Flag parsing stops at the first name: every later token is a name, even one that starts with `--`. */
  lemma NamesFollowFirstName(args: seq<string>, listing: seq<string>, status: string -> seq<string>, k: nat)
    requires 0 < k < |args|
    requires exists j :: 0 < j <= k && !StartsWith(args[j], "--")
    ensures args[k] in Parse(args, listing, status).value.names
  {
    var tokens := args[1..];
    var j :| 0 < j <= k && !StartsWith(args[j], "--");
    assert !StartsWith(tokens[j - 1], "--");
    var n := FlagCount(tokens);
    assert n <= j - 1;
    assert tokens[n..][k - 1 - n] == args[k];
  }

  /** Every leading flag token that is not a filter contributes its key, with the value of its last occurrence. */
  lemma LeadingFlagsParsed(args: seq<string>, listing: seq<string>, status: string -> seq<string>, key: string)
    requires args != []
    requires key !in FilterKeys
    ensures key in Parse(args, listing, status).value.flags <==>
      key in FlagMap(args[1..][..FlagCount(args[1..])])
    ensures key in Parse(args, listing, status).value.flags ==>
      Parse(args, listing, status).value.flags[key] == FlagMap(args[1..][..FlagCount(args[1..])])[key]
  {
  }

  /** A token without `=` is not split. */
  lemma {:induction false} SplitAtEqualsNone(t: string)
    requires '=' !in t
    ensures SplitAtEquals(t) == (t, None)
  {
    if t != [] {
      assert t[0] != '=' && '=' !in t[1..];
      SplitAtEqualsNone(t[1..]);
      assert [t[0]] + t[1..] == t;
    }
  }

  /** A token is split at its first `=`, and only there. */
  lemma {:induction false} SplitAtEqualsFirst(a: string, b: string)
    requires '=' !in a
    ensures SplitAtEquals(a + "=" + b) == (a, Some(b))
  {
    var t := a + "=" + b;
    if a == [] {
      assert t[0] == '=' && t[1..] == b;
    } else {
      assert t[0] == a[0] != '=' && t[1..] == a[1..] + "=" + b;
      assert '=' !in a[1..];
      SplitAtEqualsFirst(a[1..], b);
      assert [a[0]] + a[1..] == a;
    }
  }

  lemma ExampleFlagTokens(a: string, b: string)
    requires a == "--foo=bar" && b == "--baz"
    ensures FlagKey(a) == "foo" && FlagValue(a) == "bar"
    ensures FlagKey(b) == "baz" && FlagValue(b) == ""
  {
    assert a == "--foo" + "=" + "bar";
    SplitAtEqualsFirst("--foo", "bar");
    assert "--foo"[2..] == "foo";
    SplitAtEqualsNone(b);
    assert b[2..] == "baz";
  }

  /** The worked example: `--foo=bar --baz` gives foo set to bar and baz set to the empty string. */
  lemma FlagExample(ts: seq<string>)
    requires ts == ["--foo=bar", "--baz"]
    ensures FlagMap(ts) == map["foo" := "bar", "baz" := ""]
  {
    ExampleFlagTokens(ts[0], ts[1]);
    assert ts[..1][..0] == [];
    assert FlagMap(ts[..1]) == map["foo" := "bar"];
  }

  /**
   * A command line made of a command, flag tokens, then a first name and
   * anything after it: the flags are the flag tokens' dictionary, filters
   * removed, and everything from the first name on is a target.
   */
  lemma ParseSplit(args: seq<string>, listing: seq<string>, status: string -> seq<string>,
                   flagTokens: seq<string>, rest: seq<string>)
    requires args != [] && args[1..] == flagTokens + rest
    requires forall k :: 0 <= k < |flagTokens| ==> StartsWith(flagTokens[k], "--")
    requires rest != [] ==> !StartsWith(rest[0], "--")
    ensures Parse(args, listing, status).value.flags
      == FlagMap(flagTokens) - FilterKeys
    ensures ItemSet(rest) <= Parse(args, listing, status).value.names
    ensures (forall f :: f in FilterKeys ==> f !in FlagMap(flagTokens)) ==>
      Parse(args, listing, status).value.names == ItemSet(rest)
  {
    ParseAt(args, listing, status, flagTokens, rest);
    var flags := FlagMap(flagTokens);
    if forall f :: f in FilterKeys ==> f !in flags {
      NoFiltersGiven(flags, AllItems(listing), status);
    }
  }

  /** `Parse` of a command line already split into flag tokens and the rest. */
  lemma ParseAt(args: seq<string>, listing: seq<string>, status: string -> seq<string>,
                flagTokens: seq<string>, rest: seq<string>)
    requires args != [] && args[1..] == flagTokens + rest
    requires forall k :: 0 <= k < |flagTokens| ==> StartsWith(flagTokens[k], "--")
    requires rest != [] ==> !StartsWith(rest[0], "--")
    ensures Parse(args, listing, status) ==
      Ok(Invocation(args[0], FlagMap(flagTokens) - FilterKeys, ParsedNames(rest, FlagMap(flagTokens), AllItems(listing), status)))
  {
    var tokens := args[1..];
    FlagCountAt(tokens, flagTokens, rest);
    assert tokens[..|flagTokens|] == flagTokens && tokens[|flagTokens|..] == rest;
  }

  /** Without any filter flag, the targets are the explicit names. */
  lemma NoFiltersGiven(flags: map<string, string>, items: seq<string>, status: string -> seq<string>)
    requires forall f :: f in FilterKeys ==> f !in flags
    ensures forall names :: ParsedNames(names, flags, items, status) == ItemSet(names)
  {
    StatusFiltersDistinct();
    assert forall f :: f in StatusFilters ==> f in ItemSet(StatusFilters);
    NoFilterNoNames(StatusFilters, flags, items, status);
  }

  lemma {:induction false} FlagCountAt(tokens: seq<string>, flagTokens: seq<string>, rest: seq<string>)
    requires tokens == flagTokens + rest
    requires forall k :: 0 <= k < |flagTokens| ==> StartsWith(flagTokens[k], "--")
    requires rest != [] ==> !StartsWith(rest[0], "--")
    ensures FlagCount(tokens) == |flagTokens|
  {
    if flagTokens != [] {
      assert tokens[0] == flagTokens[0];
      assert tokens[1..] == flagTokens[1..] + rest;
      FlagCountAt(tokens[1..], flagTokens[1..], rest);
    } else {
      assert tokens == rest;
    }
  }

  /**
   * The filter example: A started and enabled, B stopped and enabled, C
   * stopped and disabled. `--stopped` selects B and C; together with the
   * explicit name A it gives all three.
   */
  lemma FilterExample(status: string -> seq<string>)
    requires status("A") == ["Started", "Enabled"]
    requires status("B") == ["Stopped", "Enabled"]
    requires status("C") == ["Stopped", "Disabled"]
    ensures Matching(["A", "B", "C"], status, Title("stopped")) == {"B", "C"}
    ensures ItemSet(["A"]) + Matching(["A", "B", "C"], status, Title("stopped")) == {"A", "B", "C"}
  {
    var t := Title("stopped");
    assert t == "Stopped";
    assert "Stopped" !in status("A");
  }

  /**
   * The newest parser never rejects an invocation without targets: the
   * `ValueError` for "no names" is built but not raised.
   */
  lemma ZeroNamesAccepted(args: seq<string>, status: string -> seq<string>)
    requires args == ["start"]
    ensures Parse(args, [], status) == Ok(Invocation("start", map[], {}))
  {
    var tokens := args[1..];
    assert tokens == [];
    assert FlagCount(tokens) == 0;
    var flags := FlagMap(tokens[..0]);
    assert flags == map[];
    var items := AllItems([]);
    var r := Parse(args, [], status);
    NoFilterNoNames(StatusFilters, flags, items, status);
    assert r.value.names == {};
    assert r.value.flags == map[];
  }

  /** The parser with the "no names" error raised, as the message built on that line intends. */
  function ResolveTargets(args: seq<string>, listing: seq<string>, status: string -> seq<string>): (r: Result<Invocation, CliError>)
    ensures r.Ok? ==> r.value.names != {}
    ensures r.Ok? <==> Parse(args, listing, status).Ok? && Parse(args, listing, status).value.names != {}
    ensures r.Ok? ==> r == Parse(args, listing, status)
    ensures args != [] && r.Err? ==> r.error == NoNames
  {
    match Parse(args, listing, status)
    case Err(e) => Err(e)
    case Ok(invocation) => if invocation.names == {} then Err(NoNames) else Ok(invocation)
  }

  // ------------------------------------------------------------ older: extract_arguments

  datatype Extracted = Extracted(names: seq<string>, flags: seq<string>, command: string)

  /** `extract_arguments()` as a value; `None` where it prints "No function specified!" and exits. */
  function Extract(args: seq<string>): (r: Option<Extracted>)
    ensures r.None? <==> args == []
  {
    if args == [] then None
    else
      var tokens := args[1..];
      var n := FlagCount(tokens);
      Some(Extracted(tokens[n..], tokens[..n], args[0]))
  }

  /** `extract_arguments()`, with `args` for `sys.argv[1:]`. */
  method ExtractArguments(args: seq<string>) returns (r: Option<Extracted>)
    ensures r == Extract(args)
  {
    if |args| == 0 {
      return None;
    }
    var command := args[0];
    var arguments := args[1..];
    var names: seq<string> := [];
    var flags := arguments;
    for i := 0 to |arguments|
      invariant forall k :: 0 <= k < i ==> StartsWith(arguments[k], "--")
      invariant flags == arguments && names == []
    {
      if !StartsWith(arguments[i], "--") {
        flags := arguments[..i];
        names := arguments[i..];
        assert FlagCount(arguments) == i;
        return Some(Extracted(names, flags, command));
      }
    }
    assert FlagCount(arguments) == |arguments|;
    assert arguments[..|arguments|] == arguments && arguments[|arguments|..] == [];
    return Some(Extracted(names, flags, command));
  }

  /** The older and the newest parser split the command line at the same place. */
  lemma GenerationsSplitAlike(args: seq<string>, listing: seq<string>, status: string -> seq<string>)
    requires args != []
    ensures Extract(args).value.command == Parse(args, listing, status).value.command
    ensures ItemSet(Extract(args).value.names) <= Parse(args, listing, status).value.names
    ensures Parse(args, listing, status).value.flags
      == FlagMap(Extract(args).value.flags) - FilterKeys
  {
  }

  // ------------------------------------------------------------ older: list_items_in_root

  /** A Python list of strings, shared by reference between caller and callee. */
  class StrList {
    var items: seq<string>

    constructor (items: seq<string>)
      ensures this.items == items
    {
      this.items := items;
    }
  }

  /** A filter token, and the status word it selects (`None`: every item, for `--all`). */
  datatype Filter = Filter(token: string, word: Option<string>)

  const ListFilters: seq<Filter> := [
    Filter("--started", Some("Started")), Filter("--stopped", Some("Stopped")),
    Filter("--enabled", Some("Enabled")), Filter("--disabled", Some("Disabled")),
    Filter("--all", None)]

  /** `[_ for _ in All if word in status(_)]`, or `All` itself for `--all`. */
  function Select(all: seq<string>, status: string -> seq<string>, word: Option<string>): (r: seq<string>)
    ensures |r| <= |all|
    ensures forall x :: x in r <==> x in all && (word.None? || word.value in status(x))
  {
    if word.None? || all == [] then all
    else (if word.value in status(all[0]) then [all[0]] else []) + Select(all[1..], status, word)
  }

  /** `xs.remove(x)`: one copy of `x` goes; `RemoveFirstAt` says which one. */
  function RemoveFirst(xs: seq<string>, x: string): (r: seq<string>)
    requires x in xs
    ensures |r| == |xs| - 1
    ensures multiset(r) == multiset(xs) - multiset{x}
  {
    assert xs == [xs[0]] + xs[1..];
    if xs[0] == x then xs[1..]
    else [xs[0]] + RemoveFirst(xs[1..], x)
  }

  /** `list.remove` takes out the first occurrence of `x`; the elements before and after it keep their order. */
  lemma {:induction false} RemoveFirstAt(xs: seq<string>, x: string)
    requires x in xs
    ensures exists i :: 0 <= i < |xs| && xs[i] == x && x !in xs[..i] && RemoveFirst(xs, x) == xs[..i] + xs[i + 1..]
  {
    if xs[0] == x {
      assert xs[..0] + xs[1..] == xs[1..];
    } else {
      assert x in xs[1..];
      RemoveFirstAt(xs[1..], x);
      var rest := RemoveFirst(xs[1..], x);
      var j :| 0 <= j < |xs| - 1 && xs[1..][j] == x && x !in xs[1..][..j] && rest == xs[1..][..j] + xs[1..][j + 1..];
      RemovedBehind(xs, x, j, rest);
    }
  }

  /** The first occurrence in the tail, one place further on, is the first occurrence in the whole. */
  lemma RemovedBehind(xs: seq<string>, x: string, j: nat, rest: seq<string>)
    requires xs != [] && xs[0] != x && j < |xs| - 1
    requires xs[1..][j] == x && x !in xs[1..][..j] && rest == xs[1..][..j] + xs[1..][j + 1..]
    ensures xs[j + 1] == x && x !in xs[..j + 1] && [xs[0]] + rest == xs[..j + 1] + xs[j + 2..]
  {
    assert xs[..j + 1] == [xs[0]] + xs[1..][..j];
    assert xs[j + 2..] == xs[1..][j + 1..];
  }

  /** The list state after the filters are applied in order; each present token is expanded and removed once. */
  function ApplyFilters(filters: seq<Filter>, names: seq<string>, flags: seq<string>,
                        all: seq<string>, status: string -> seq<string>): (r: (seq<string>, seq<string>))
    ensures |names| <= |r.0| && r.0[..|names|] == names
    ensures multiset(r.1) <= multiset(flags)
    decreases |filters|
  {
    if filters == [] then (names, flags)
    else if filters[0].token in flags then
      ApplyFilters(filters[1..], names + Select(all, status, filters[0].word),
                   RemoveFirst(flags, filters[0].token), all, status)
    else ApplyFilters(filters[1..], names, flags, all, status)
  }

  /** One of the five `if "--x" in flags:` blocks of `list_items_in_root`. */
  method ApplyFilter(names: StrList, flags: StrList, filter: Filter, all: seq<string>, status: string -> seq<string>)
    requires names != flags
    modifies names, flags
    ensures (names.items, flags.items) == ApplyFilters([filter], old(names.items), old(flags.items), all, status)
  {
    if filter.token in flags.items {
      names.items := names.items + Select(all, status, filter.word);
      flags.items := RemoveFirst(flags.items, filter.token);
    }
  }

  lemma ApplyFiltersCons(filters: seq<Filter>, names: seq<string>, flags: seq<string>,
                         all: seq<string>, status: string -> seq<string>)
    requires filters != []
    ensures ApplyFilters(filters, names, flags, all, status) ==
      var first := ApplyFilters([filters[0]], names, flags, all, status);
      ApplyFilters(filters[1..], first.0, first.1, all, status)
  {
    assert [filters[0]][1..] == [];
  }

  /** The filters from the `k`-th on: the `k`-th, then those after it. */
  lemma ApplyFiltersFrom(k: nat, names: seq<string>, flags: seq<string>, all: seq<string>, status: string -> seq<string>)
    requires k < |ListFilters|
    ensures ApplyFilters(ListFilters[k..], names, flags, all, status) ==
      var first := ApplyFilters([ListFilters[k]], names, flags, all, status);
      ApplyFilters(ListFilters[k + 1..], first.0, first.1, all, status)
  {
    assert ListFilters[k..][0] == ListFilters[k] && ListFilters[k..][1..] == ListFilters[k + 1..];
    ApplyFiltersCons(ListFilters[k..], names, flags, all, status);
  }

  /**
   * `list_items_in_root(names, flags, class_name)`: the caller's `names`
   * list grows by the matching items of each present filter token (in the
   * order started, stopped, enabled, disabled, all; an item can appear more
   * than once), and each such token leaves the caller's `flags` list.
   * `exited` is the `print` and `exit()` taken when no name results.
   */
  method ListItemsInRoot(names: StrList, flags: StrList, listing: seq<string>, status: string -> seq<string>)
    returns (exited: bool)
    requires names != flags
    modifies names, flags
    ensures (names.items, flags.items) == ApplyFilters(ListFilters, old(names.items), old(flags.items), AllItems(listing), status)
    ensures exited <==> names.items == []
  {
    var all := AllItems(listing);
    ApplyListFilters(names, flags, all, status);
    exited := names.items == [];
  }

  /** The five `if "--x" in flags:` blocks, in order, over the listing `all`. */
  method ApplyListFilters(names: StrList, flags: StrList, all: seq<string>, status: string -> seq<string>)
    requires names != flags
    modifies names, flags
    ensures (names.items, flags.items) == ApplyFilters(ListFilters, old(names.items), old(flags.items), all, status)
  {
    ghost var goal := ApplyFilters(ListFilters, names.items, flags.items, all, status);
    assert ListFilters[0..] == ListFilters;
    ApplyFiltersFrom(0, names.items, flags.items, all, status);
    ApplyFilter(names, flags, ListFilters[0], all, status);
    assert goal == ApplyFilters(ListFilters[1..], names.items, flags.items, all, status);
    ApplyFiltersFrom(1, names.items, flags.items, all, status);
    ApplyFilter(names, flags, ListFilters[1], all, status);
    assert goal == ApplyFilters(ListFilters[2..], names.items, flags.items, all, status);
    ApplyFiltersFrom(2, names.items, flags.items, all, status);
    ApplyFilter(names, flags, ListFilters[2], all, status);
    assert goal == ApplyFilters(ListFilters[3..], names.items, flags.items, all, status);
    ApplyFiltersFrom(3, names.items, flags.items, all, status);
    ApplyFilter(names, flags, ListFilters[3], all, status);
    assert goal == ApplyFilters(ListFilters[4..], names.items, flags.items, all, status);
    ApplyFiltersFrom(4, names.items, flags.items, all, status);
    ApplyFilter(names, flags, ListFilters[4], all, status);
    assert goal == ApplyFilters(ListFilters[5..], names.items, flags.items, all, status);
    assert ListFilters[5..] == [];
  }

  // ------------------------------------------------------------ reference: filters read off the original flags

  /** The tokens of a filter list. */
  function Tokens(filters: seq<Filter>): (r: seq<string>)
    ensures |r| == |filters|
    ensures forall i :: 0 <= i < |filters| ==> r[i] == filters[i].token
  {
    if filters == [] then [] else [filters[0].token] + Tokens(filters[1..])
  }

  predicate DistinctTokens(filters: seq<Filter>)
  {
    forall i, j :: 0 <= i < j < |filters| ==> filters[i].token != filters[j].token
  }

  /** The names the present filters add, each test made against the flags as passed in. */
  function Added(filters: seq<Filter>, flags: seq<string>, all: seq<string>, status: string -> seq<string>): seq<string>
  {
    if filters == [] then []
    else
      var selected := if filters[0].token in flags then Select(all, status, filters[0].word) else [];
      selected + Added(filters[1..], flags, all, status)
  }

  lemma RemoveFirstKeeps(xs: seq<string>, x: string, y: string)
    requires x in xs && y != x
    ensures y in RemoveFirst(xs, x) <==> y in xs
  {
    assert multiset(RemoveFirst(xs, x))[y] == multiset(xs)[y];
  }

  lemma DistinctTail(filters: seq<Filter>)
    requires filters != [] && DistinctTokens(filters)
    ensures DistinctTokens(filters[1..])
    ensures filters[0].token !in Tokens(filters[1..])
    ensures Tokens(filters) == [filters[0].token] + Tokens(filters[1..])
  {
    var rest := filters[1..];
    forall i, j | 0 <= i < j < |rest|
      ensures rest[i].token != rest[j].token
    {
      assert rest[i] == filters[i + 1] && rest[j] == filters[j + 1];
    }
    forall i | 0 <= i < |rest|
      ensures Tokens(rest)[i] != filters[0].token
    {
      assert rest[i] == filters[i + 1];
    }
  }

  /**
   * With distinct filter tokens, applying the filters one after the other
   * adds the same names as testing each against the flags as passed in.
   */
  lemma {:induction false} ApplyFiltersAdds(filters: seq<Filter>, names: seq<string>, flags: seq<string>,
                                            all: seq<string>, status: string -> seq<string>)
    requires DistinctTokens(filters)
    ensures ApplyFilters(filters, names, flags, all, status).0 == names + Added(filters, flags, all, status)
  {
    if filters != [] {
      var first := filters[0];
      var rest := filters[1..];
      DistinctTail(filters);
      var selected := if first.token in flags then Select(all, status, first.word) else [];
      assert Added(filters, flags, all, status) == selected + Added(rest, flags, all, status);
      if first.token in flags {
        var flags' := RemoveFirst(flags, first.token);
        var names' := names + selected;
        assert ApplyFilters(filters, names, flags, all, status) == ApplyFilters(rest, names', flags', all, status);
        ApplyFiltersAdds(rest, names', flags', all, status);
        AddedAgrees(rest, flags, flags', first.token, all, status);
        AppendAssociates(names, selected, Added(rest, flags, all, status));
      } else {
        assert ApplyFilters(filters, names, flags, all, status) == ApplyFilters(rest, names, flags, all, status);
        ApplyFiltersAdds(rest, names, flags, all, status);
      }
    }
  }

  /** With distinct filter tokens, each filter token present in the flags loses exactly one occurrence; other flags stay. */
  lemma {:induction false} ApplyFiltersRemoves(filters: seq<Filter>, names: seq<string>, flags: seq<string>,
                                               all: seq<string>, status: string -> seq<string>, t: string)
    requires DistinctTokens(filters)
    ensures multiset(ApplyFilters(filters, names, flags, all, status).1)[t]
      == if t in Tokens(filters) && t in flags then multiset(flags)[t] - 1 else multiset(flags)[t]
  {
    if filters != [] {
      var first := filters[0];
      var rest := filters[1..];
      DistinctTail(filters);
      if first.token in flags {
        var flags' := RemoveFirst(flags, first.token);
        ApplyFiltersRemoves(rest, names + Select(all, status, first.word), flags', all, status, t);
        if t != first.token {
          RemoveFirstKeeps(flags, first.token, t);
        }
      } else {
        ApplyFiltersRemoves(rest, names, flags, all, status, t);
      }
    }
  }

  lemma AppendAssociates(a: seq<string>, b: seq<string>, c: seq<string>)
    ensures (a + b) + c == a + (b + c)
  {
  }

  /** Removing a token no filter has does not change what the filters add. */
  lemma {:induction false} AddedAgrees(filters: seq<Filter>, flags: seq<string>, flags': seq<string>, gone: string,
                                       all: seq<string>, status: string -> seq<string>)
    requires gone in flags && flags' == RemoveFirst(flags, gone)
    requires gone !in Tokens(filters)
    ensures Added(filters, flags', all, status) == Added(filters, flags, all, status)
  {
    if filters != [] {
      assert Tokens(filters)[0] == filters[0].token;
      RemoveFirstKeeps(flags, gone, filters[0].token);
      assert Tokens(filters[1..]) == Tokens(filters)[1..];
      AddedAgrees(filters[1..], flags, flags', gone, all, status);
    }
  }

  // ------------------------------------------------------------ oldest: List

  datatype PyError = TypeError

  /**
   * What the oldest `List` does to the caller's lists: the same five
   * blocks, except that each present token rebinds the local `flags` to the
   * `None` that `list.remove` returns, so the next membership test raises
   * `TypeError`. `result` is the error, or whether `flags` was rebound.
   */
  datatype OldestOutcome = OldestOutcome(names: seq<string>, callerFlags: seq<string>, result: Result<bool, PyError>)

  function OldestFilters(filters: seq<Filter>, names: seq<string>, flags: seq<string>, rebound: bool,
                         all: seq<string>, status: string -> seq<string>): OldestOutcome
    decreases |filters|
  {
    if filters == [] then OldestOutcome(names, flags, Ok(rebound))
    else if rebound then OldestOutcome(names, flags, Err(TypeError))
    else if filters[0].token in flags then
      OldestFilters(filters[1..], names + Select(all, status, filters[0].word),
                    RemoveFirst(flags, filters[0].token), true, all, status)
    else OldestFilters(filters[1..], names, flags, false, all, status)
  }

  lemma OldestFiltersCons(filters: seq<Filter>, names: seq<string>, flags: seq<string>, rebound: bool,
                          all: seq<string>, status: string -> seq<string>)
    requires filters != []
    ensures var first := OldestFilters([filters[0]], names, flags, rebound, all, status);
      OldestFilters(filters, names, flags, rebound, all, status) ==
        if first.result.Err? then first
        else OldestFilters(filters[1..], first.names, first.callerFlags, first.result.value, all, status)
  {
    assert [filters[0]][1..] == [];
  }

  /** One `if "--x" in flags:` block of the oldest `List`, with `rebound` for "`flags` is now `None`". */
  method OldestFilter(names: StrList, flags: StrList, rebound: bool, filter: Filter,
                      all: seq<string>, status: string -> seq<string>)
    returns (rebound': bool, raised: bool)
    requires names != flags
    modifies names, flags
    ensures var o := OldestFilters([filter], old(names.items), old(flags.items), rebound, all, status);
      names.items == o.names && flags.items == o.callerFlags
      && (raised <==> o.result.Err?) && (!raised ==> rebound' == o.result.value)
  {
    if rebound {
      return rebound, true;
    }
    rebound', raised := false, false;
    if filter.token in flags.items {
      names.items := names.items + Select(all, status, filter.word);
      flags.items := RemoveFirst(flags.items, filter.token);
      rebound' := true;
    }
  }

  /**
   * `List(names, flags, root, class_name)` of the oldest generation, on
   * the sorted listing (hidden entries included). On return, `Some(flags)`
   * is the caller's list and `None` the rebound local.
   */
  method OldestList(names: StrList, flags: StrList, listing: seq<string>, status: string -> seq<string>)
    returns (r: Result<Option<StrList>, PyError>)
    requires names != flags
    modifies names, flags
    ensures var o := OldestFilters(ListFilters, old(names.items), old(flags.items), false, Sort(listing), status);
      names.items == o.names && flags.items == o.callerFlags
      && (r.Err? <==> o.result.Err?)
      && (r.Ok? ==> r.value == if o.result.value then None else Some(flags))
  {
    var all := Sort(listing);
    ghost var n0, f0 := names.items, flags.items;
    var rebound, raised := false, false;
    OldestFiltersCons(ListFilters[0..], names.items, flags.items, rebound, all, status);
    assert ListFilters[0..][1..] == ListFilters[1..];
    rebound, raised := OldestFilter(names, flags, rebound, ListFilters[0], all, status);
    if raised {
      return Err(TypeError);
    }
    OldestFiltersCons(ListFilters[1..], names.items, flags.items, rebound, all, status);
    assert ListFilters[1..][1..] == ListFilters[2..];
    rebound, raised := OldestFilter(names, flags, rebound, ListFilters[1], all, status);
    if raised {
      return Err(TypeError);
    }
    OldestFiltersCons(ListFilters[2..], names.items, flags.items, rebound, all, status);
    assert ListFilters[2..][1..] == ListFilters[3..];
    rebound, raised := OldestFilter(names, flags, rebound, ListFilters[2], all, status);
    if raised {
      return Err(TypeError);
    }
    OldestFiltersCons(ListFilters[3..], names.items, flags.items, rebound, all, status);
    assert ListFilters[3..][1..] == ListFilters[4..];
    rebound, raised := OldestFilter(names, flags, rebound, ListFilters[3], all, status);
    if raised {
      return Err(TypeError);
    }
    OldestFiltersCons(ListFilters[4..], names.items, flags.items, rebound, all, status);
    assert ListFilters[4..][1..] == ListFilters[5..];
    rebound, raised := OldestFilter(names, flags, rebound, ListFilters[4], all, status);
    if raised {
      return Err(TypeError);
    }
    return Ok(if rebound then None else Some(flags));
  }

  /** The as-written `List` returns only when no token but the last filter's is present: any other filter raises. */
  lemma {:induction false} OldestReturnsIff(filters: seq<Filter>, names: seq<string>, flags: seq<string>,
                                            all: seq<string>, status: string -> seq<string>)
    requires filters != []
    ensures OldestFilters(filters, names, flags, false, all, status).result.Ok? <==>
      forall i :: 0 <= i < |filters| - 1 ==> filters[i].token !in flags
  {
    if filters[0].token in flags {
      if |filters| > 1 {
        assert OldestFilters(filters[1..], names + Select(all, status, filters[0].word),
                             RemoveFirst(flags, filters[0].token), true, all, status).result.Err?;
      }
    } else if |filters| > 1 {
      OldestReturnsIff(filters[1..], names, flags, all, status);
      assert forall i :: 0 < i < |filters| - 1 ==> filters[1..][i - 1] == filters[i];
    }
  }

  /** Whenever the as-written `List` returns, it has done what the intended one does. */
  lemma {:induction false} OldestAgreesWhenReturning(filters: seq<Filter>, names: seq<string>, flags: seq<string>,
                                                     all: seq<string>, status: string -> seq<string>)
    requires OldestFilters(filters, names, flags, false, all, status).result.Ok?
    ensures OldestFilters(filters, names, flags, false, all, status).names == ApplyFilters(filters, names, flags, all, status).0
    ensures OldestFilters(filters, names, flags, false, all, status).callerFlags == ApplyFilters(filters, names, flags, all, status).1
  {
    if filters != [] && filters[0].token !in flags {
      OldestAgreesWhenReturning(filters[1..], names, flags, all, status);
    }
  }

  /** The filter `--started` alone: its names are added and the token removed, then `TypeError` is raised. */
  lemma StartedFilterRaises(names: seq<string>, flags: seq<string>, all: seq<string>, status: string -> seq<string>)
    requires flags == ["--started"]
    ensures OldestFilters(ListFilters, names, flags, false, all, status)
      == OldestOutcome(names + Select(all, status, Some("Started")), [], Err(TypeError))
  {
    assert ListFilters[0].token in flags;
    assert RemoveFirst(flags, "--started") == [];
  }

  /** With `--all` the only filter token, the sorted listing is added, the token removed, and `flags` comes back as `None`. */
  lemma OldestAllOnly(names: seq<string>, flags: seq<string>, all: seq<string>, status: string -> seq<string>)
    requires "--all" in flags
    requires forall i :: 0 <= i < |ListFilters| - 1 ==> ListFilters[i].token !in flags
    ensures OldestFilters(ListFilters, names, flags, false, all, status)
      == OldestOutcome(names + all, RemoveFirst(flags, "--all"), Ok(true))
  {
    assert ListFilters[1..][1..][1..][1..] == [ListFilters[4]];
    assert [ListFilters[4]][1..] == [];
  }

  /** With no filter token, the caller's lists are left as they are and `flags` comes back unchanged. */
  lemma OldestNoFilters(names: seq<string>, flags: seq<string>, all: seq<string>, status: string -> seq<string>)
    requires forall i :: 0 <= i < |ListFilters| ==> ListFilters[i].token !in flags
    ensures OldestFilters(ListFilters, names, flags, false, all, status) == OldestOutcome(names, flags, Ok(false))
  {
    assert ListFilters[1..][1..][1..][1..] == [ListFilters[4]];
    assert [ListFilters[4]][1..] == [];
  }

  lemma ListFiltersDistinct()
    ensures DistinctTokens(ListFilters)
    ensures Tokens(ListFilters) == ["--started", "--stopped", "--enabled", "--disabled", "--all"]
  {
    var f := ListFilters;
    assert f[0].token[2] == 's' && f[1].token[2] == 's' && f[2].token[2] == 'e' && f[3].token[2] == 'd' && f[4].token[2] == 'a';
    assert f[0].token[4] == 'a' && f[1].token[4] == 'o';
  }

  /**
   * The oldest `List` as intended: the flags list is updated in place
   * (`flags.remove(...)` without rebinding), so every present filter is
   * expanded, on the sorted listing with hidden entries kept.
   */
  function OldestListIntended(names: seq<string>, flags: seq<string>, listing: seq<string>,
                              status: string -> seq<string>): (r: (seq<string>, seq<string>))
    ensures r.0 == names + Added(ListFilters, flags, Sort(listing), status)
    ensures forall t :: multiset(r.1)[t] == (if t in Tokens(ListFilters) && t in flags then multiset(flags)[t] - 1 else multiset(flags)[t])
  {
    ListFiltersDistinct();
    ApplyFiltersAdds(ListFilters, names, flags, Sort(listing), status);
    forall t
      ensures multiset(ApplyFilters(ListFilters, names, flags, Sort(listing), status).1)[t]
        == if t in Tokens(ListFilters) && t in flags then multiset(flags)[t] - 1 else multiset(flags)[t]
    {
      ApplyFiltersRemoves(ListFilters, names, flags, Sort(listing), status, t);
    }
    ApplyFilters(ListFilters, names, flags, Sort(listing), status)
  }
}

=== FILE: Common.dfy ===
/** Failure-carrying values shared by every module of the model. */
module Common {

  /** A value that may be absent (Python's `None`). */
  datatype Option<T> = None | Some(value: T)

  /** The outcome of an operation that can raise: a value or the exception it raises. */
  datatype Result<T, E> = Ok(value: T) | Err(error: E)
}

=== FILE: Dispatch.dfy ===
/**
 * The attribute rule of the newest service class (`__getattribute__`):
 * which names are looked up, which are handed back as they are, and which
 * are wrapped so that they run inside the service's directory and, for
 * user-level operations, save the entity's state afterwards.
 */
module Dispatch {
  import opened Common
  import opened Text

  /** What `object.__getattribute__` finds under a name. */
  datatype Member = Callable | Value

  /** The attribute handed back: as it is, or wrapped (`persist`: the wrapper calls `update_lockfile` afterwards). */
  datatype Access = Raw(name: string) | Scoped(name: string, persist: bool)

  datatype DispatchError = AttributeError(name: string) | IndexError

  /** The prefix under which lifecycle commands are defined. */
  const CommandPrefix: string := "command_"

  /** A name that the lookup can reach: the name itself, or else the command of that name. */
  function Resolve(members: map<string, Member>, attr: string): (r: Result<string, DispatchError>)
    ensures r.Ok? ==> r.value in members
    ensures r.Ok? ==> r.value == attr || (attr !in members && r.value == CommandPrefix + attr)
    ensures r.Err? <==> attr !in members && CommandPrefix + attr !in members
  {
    if attr in members then Ok(attr)
    else if CommandPrefix + attr in members then Ok(CommandPrefix + attr)
    else Err(AttributeError(CommandPrefix + attr))
  }

  /** `__getattribute__(self, attr)`: the attribute raw, wrapped, or the error the lookup raises. */
  function Decide(members: map<string, Member>, attr: string): (r: Result<Access, DispatchError>)
  {
    match Resolve(members, attr)
    case Err(e) => Err(e)
    case Ok(name) =>
      if members[name] == Value then Ok(Raw(name))
      else if name == "" then Err(IndexError)
      else if IsAsciiUpper(name[0]) || StartsWith(name, CommandPrefix) then
        Ok(Scoped(name, !StartsWith(name, CommandPrefix)))
      else Ok(Raw(name))
  }

  /**
   * The rule in full: a name is wrapped iff it resolves to a callable whose
   * name starts with an upper-case letter or with `command_`, and a wrapped
   * call saves state afterwards iff the resolved name is not a command.
   */
  lemma DecideCharacterised(members: map<string, Member>, attr: string)
    ensures Decide(members, attr).Err? <==>
      Resolve(members, attr).Err? || (Resolve(members, attr).value == "" && members[""] == Callable)
    ensures Decide(members, attr).Ok? && Decide(members, attr).value.Scoped? <==>
      Resolve(members, attr).Ok? && var name := Resolve(members, attr).value;
      members[name] == Callable && name != "" && (IsAsciiUpper(name[0]) || StartsWith(name, CommandPrefix))
    ensures Decide(members, attr).Ok? ==> Decide(members, attr).value.name == Resolve(members, attr).value
    ensures Decide(members, attr).Ok? && Decide(members, attr).value.Scoped? ==>
      (Decide(members, attr).value.persist <==> !StartsWith(Decide(members, attr).value.name, CommandPrefix))
  {
  }

  /** A lifecycle command asked for by its bare name (`Start`, `Stop`, `Status`…) runs in the directory and saves nothing. */
  lemma CommandsAreScopedWithoutSaving(members: map<string, Member>, attr: string)
    requires attr !in members
    requires CommandPrefix + attr in members && members[CommandPrefix + attr] == Callable
    ensures Decide(members, attr) == Ok(Scoped(CommandPrefix + attr, false))
  {
    assert (CommandPrefix + attr)[..|CommandPrefix|] == CommandPrefix;
  }

  /** A user-level operation (`Run`, `Env`, `Workdir`…) runs in the directory and saves state afterwards. */
  lemma UserLevelCallsSave(members: map<string, Member>, attr: string)
    requires attr in members && members[attr] == Callable
    requires attr != "" && IsAsciiUpper(attr[0])
    ensures Decide(members, attr) == Ok(Scoped(attr, true))
  {
    assert !StartsWith(attr, CommandPrefix) by {
      if |CommandPrefix| <= |attr| {
        assert attr[0] == attr[..|CommandPrefix|][0];
      }
    }
  }

  /** Data and internal helpers (lower-case, not commands) come back as they are. */
  lemma InternalsAreRaw(members: map<string, Member>, attr: string)
    requires attr in members && attr != ""
    requires members[attr] == Value || (!IsAsciiUpper(attr[0]) && !StartsWith(attr, CommandPrefix))
    ensures Decide(members, attr) == Ok(Raw(attr))
  {
  }
}

=== FILE: Flatten.dfy ===
/**
 * Nested-result flattening, in its two generations:
 *  - `flatten_list` of the newest module: a top-level string is yielded whole,
 *    and only nested lists are descended into (a tuple is yielded whole);
 *  - `flatten_list` / `flatten` of the older modules: the top level is
 *    iterated (so a top-level string yields its characters) and every nested
 *    iterable other than a string is descended into.
 * Both yield leaves left to right. Iterating something that is not iterable
 * (a number, `None`) raises `TypeError`, modelled as `None`.
 */
module Flatten {
  import opened Common

  /** The Python values a command can return. */
  datatype Value = Text(s: string) | Number(n: int) | Null | List(items: seq<Value>) | Tuple(items: seq<Value>)

  // ---------------------------------------------------------------- newest

  /** The generator loop of the newest `flatten_list` over the elements of an iterable. */
  function ListLeaves(xs: seq<Value>): (r: seq<Value>)
    ensures forall k :: 0 <= k < |r| ==> !r[k].List?
  {
    if xs == [] then []
    else (if xs[0].List? then ListLeaves(xs[0].items) else [xs[0]]) + ListLeaves(xs[1..])
  }

  /** The newest `flatten_list(items)`; `None` when `items` is not iterable. */
  function FlattenList(v: Value): (r: Option<seq<Value>>)
    ensures r.None? <==> v.Number? || v.Null?
    ensures v.Text? ==> r == Some([v])
    ensures v.List? || v.Tuple? ==> r == Some(ListLeaves(v.items))
  {
    match v
    case Text(_) => Some([v])
    case List(xs) => Some(ListLeaves(xs))
    case Tuple(xs) => Some(ListLeaves(xs))
    case _ => None
  }

  /** Leaves come out in left-to-right order: flattening distributes over concatenation. */
  lemma {:induction false} ListLeavesAppend(xs: seq<Value>, ys: seq<Value>)
    ensures ListLeaves(xs + ys) == ListLeaves(xs) + ListLeaves(ys)
  {
    if xs == [] {
      assert xs + ys == ys;
    } else {
      assert (xs + ys)[0] == xs[0];
      assert (xs + ys)[1..] == xs[1..] + ys;
      ListLeavesAppend(xs[1..], ys);
    }
  }

  /** A sequence with no nested list is its own flattening. */
  lemma {:induction false} ListLeavesOfFlat(xs: seq<Value>)
    requires forall k :: 0 <= k < |xs| ==> !xs[k].List?
    ensures ListLeaves(xs) == xs
  {
    if xs != [] {
      ListLeavesOfFlat(xs[1..]);
    }
  }

  /** Flattening twice is flattening once. */
  lemma ListLeavesIdempotent(xs: seq<Value>)
    ensures ListLeaves(ListLeaves(xs)) == ListLeaves(xs)
  {
    ListLeavesOfFlat(ListLeaves(xs));
  }

  /** A nested list is descended into: it yields exactly its own leaves. */
  lemma ListLeavesNested(ys: seq<Value>)
    ensures ListLeaves([List(ys)]) == ListLeaves(ys)
  {
    assert [List(ys)][1..] == [];
  }

  /** Wherever a nested list stands, its leaves take its place, between the leaves before and after it. */
  lemma ListLeavesSplice(xs: seq<Value>, ys: seq<Value>, zs: seq<Value>)
    ensures ListLeaves(xs + [List(ys)] + zs) == ListLeaves(xs) + ListLeaves(ys) + ListLeaves(zs)
  {
    ListLeavesAppend(xs + [List(ys)], zs);
    ListLeavesAppend(xs, [List(ys)]);
    ListLeavesNested(ys);
  }

  // ---------------------------------------------------------------- older

  predicate IsNonStringIterable(v: Value) { v.List? || v.Tuple? }

  /** The generator loop of the older `flatten_list` / `flatten` over the elements of an iterable. */
  function IterableLeaves(xs: seq<Value>): (r: seq<Value>)
    ensures forall k :: 0 <= k < |r| ==> !IsNonStringIterable(r[k])
  {
    if xs == [] then []
    else (if IsNonStringIterable(xs[0]) then IterableLeaves(xs[0].items) else [xs[0]]) + IterableLeaves(xs[1..])
  }

  /** The characters a string yields when iterated, each a one-character string. */
  function Characters(s: string): (r: seq<Value>)
    ensures |r| == |s| && forall k :: 0 <= k < |s| ==> r[k] == Text([s[k]])
  {
    seq(|s|, k requires 0 <= k < |s| => Text([s[k]]))
  }

  /** The older `flatten_list(items)` / `flatten(items)`; `None` when `items` is not iterable. */
  function FlattenIterable(v: Value): (r: Option<seq<Value>>)
    ensures r.None? <==> v.Number? || v.Null?
    ensures v.Text? ==> r == Some(Characters(v.s))
    ensures IsNonStringIterable(v) ==> r == Some(IterableLeaves(v.items))
  {
    match v
    case Text(s) => Some(Characters(s))
    case List(xs) => Some(IterableLeaves(xs))
    case Tuple(xs) => Some(IterableLeaves(xs))
    case _ => None
  }

  lemma {:induction false} IterableLeavesAppend(xs: seq<Value>, ys: seq<Value>)
    ensures IterableLeaves(xs + ys) == IterableLeaves(xs) + IterableLeaves(ys)
  {
    if xs == [] {
      assert xs + ys == ys;
    } else {
      assert (xs + ys)[0] == xs[0];
      assert (xs + ys)[1..] == xs[1..] + ys;
      IterableLeavesAppend(xs[1..], ys);
    }
  }

  lemma {:induction false} IterableLeavesOfFlat(xs: seq<Value>)
    requires forall k :: 0 <= k < |xs| ==> !IsNonStringIterable(xs[k])
    ensures IterableLeaves(xs) == xs
  {
    if xs != [] {
      IterableLeavesOfFlat(xs[1..]);
    }
  }

  lemma IterableLeavesIdempotent(xs: seq<Value>)
    ensures IterableLeaves(IterableLeaves(xs)) == IterableLeaves(xs)
  {
    IterableLeavesOfFlat(IterableLeaves(xs));
  }

  /** A nested list or tuple is descended into: it yields exactly its own leaves. */
  lemma IterableLeavesNested(ys: seq<Value>)
    ensures IterableLeaves([List(ys)]) == IterableLeaves(ys)
    ensures IterableLeaves([Tuple(ys)]) == IterableLeaves(ys)
  {
    assert [List(ys)][1..] == [] && [Tuple(ys)][1..] == [];
  }

  /** Wherever a nested list or tuple stands, its leaves take its place. */
  lemma IterableLeavesSplice(xs: seq<Value>, v: Value, zs: seq<Value>)
    requires IsNonStringIterable(v)
    ensures IterableLeaves(xs + [v] + zs) == IterableLeaves(xs) + IterableLeaves(v.items) + IterableLeaves(zs)
  {
    IterableLeavesAppend(xs + [v], zs);
    IterableLeavesAppend(xs, [v]);
    IterableLeavesNested(v.items);
  }

  // ---------------------------------------------------------------- both

  /** No tuple occurs anywhere inside the value. */
  predicate NoTuple(v: Value)
  {
    match v
    case Tuple(_) => false
    case List(xs) => NoTupleIn(xs)
    case _ => true
  }

  predicate NoTupleIn(xs: seq<Value>)
  {
    forall k :: 0 <= k < |xs| ==> NoTuple(xs[k])
  }

  /** Without tuples, the two generations flatten a nested list to the same leaves. */
  lemma {:induction false} GenerationsAgreeWithoutTuples(xs: seq<Value>)
    requires NoTupleIn(xs)
    ensures ListLeaves(xs) == IterableLeaves(xs)
  {
    if xs != [] {
      if xs[0].List? {
        GenerationsAgreeWithoutTuples(xs[0].items);
      }
      GenerationsAgreeWithoutTuples(xs[1..]);
    }
  }

  /** A string inside a list is kept whole by both generations; at the top only the newest keeps it whole. */
  lemma StringsKeptWhole(s: string)
    requires |s| >= 2
    ensures FlattenList(List([Text(s)])) == Some([Text(s)])
    ensures FlattenIterable(List([Text(s)])) == Some([Text(s)])
    ensures FlattenList(Text(s)) == Some([Text(s)])
    ensures FlattenIterable(Text(s)) != Some([Text(s)])
  {
    ListLeavesOfFlat([Text(s)]);
    IterableLeavesOfFlat([Text(s)]);
    assert Characters(s)[1] == Text([s[1]]);
  }
}

=== FILE: Host.dfy ===
/**
 * The part of the operating system the service classes touch, reduced to
 * state: files and directories, the current directory, and the processes
 * a service can see and terminate.
 */
module Host {
  import opened Common
  import opened Persistence

  /** A file's content: a JSON document (the lock file) or lines of text (the log). */
  datatype Content = Doc(data: map<string, Json>) | Lines(lines: seq<string>)

  /** The lines a file holds for appending: those of a text file, none otherwise. */
  function LinesOf(files: map<string, Content>, p: string): seq<string>
  {
    if p in files && files[p].Lines? then files[p].lines else []
  }

  class Disk {
    var files: map<string, Content>
    var dirs: set<string>
    var cwd: string

    constructor (files: map<string, Content>, dirs: set<string>, cwd: string)
      ensures this.files == files && this.dirs == dirs && this.cwd == cwd
    {
      this.files, this.dirs, this.cwd := files, dirs, cwd;
    }

    /** `os.path.isfile(p)`. */
    predicate IsFile(p: string)
      reads this
    {
      p in files
    }

    /** `os.path.exists(p)`. */
    predicate Exists(p: string)
      reads this
    {
      p in files || p in dirs
    }

    /** `open(p, "a+")` and write `lines`: the file is created when absent and keeps what it held. */
    method Append(p: string, lines: seq<string>)
      modifies this
      ensures files == old(files)[p := Lines(LinesOf(old(files), p) + lines)]
      ensures dirs == old(dirs) && cwd == old(cwd)
    {
      files := files[p := Lines(LinesOf(files, p) + lines)];
    }

    /** `open(p, "w+")` and `json.dump(data)`: the file holds exactly `data`. */
    method WriteDoc(p: string, data: map<string, Json>)
      modifies this
      ensures files == old(files)[p := Doc(data)]
      ensures dirs == old(dirs) && cwd == old(cwd)
    {
      files := files[p := Doc(data)];
    }

    /** `os.remove(p)`; `existed` is false where it raises `FileNotFoundError`. */
    method Remove(p: string) returns (existed: bool)
      modifies this
      ensures existed <==> p in old(files)
      ensures files == old(files) - {p}
      ensures dirs == old(dirs) && cwd == old(cwd)
    {
      existed := p in files;
      files := files - {p};
    }

    /** `os.rename(src, dst)` of a file; `ok` is false where it raises `FileNotFoundError`, and nothing changes. */
    method Rename(src: string, dst: string) returns (ok: bool)
      modifies this
      ensures ok <==> src in old(files)
      ensures ok ==> files == (old(files) - {src})[dst := old(files)[src]]
      ensures !ok ==> files == old(files)
      ensures dirs == old(dirs) && cwd == old(cwd)
    {
      ok := src in files;
      if ok {
        files := (files - {src})[dst := files[src]];
      }
    }

    /** `os.makedirs(p, exist_ok=True)`. */
    method MakeDirs(p: string)
      modifies this
      ensures dirs == old(dirs) + {p}
      ensures files == old(files) && cwd == old(cwd)
    {
      dirs := dirs + {p};
    }

    /** Entering `change_directory(path)`: the directory is entered only if it exists; the origin is returned. */
    method EnterDirectory(path: string) returns (origin: string)
      modifies this
      ensures origin == old(cwd)
      ensures cwd == if path in old(dirs) then path else old(cwd)
      ensures files == old(files) && dirs == old(dirs)
    {
      origin := cwd;
      if path in dirs {
        cwd := path;
      }
    }

    /** Leaving `change_directory`: the `finally` goes back to the origin. */
    method LeaveDirectory(origin: string)
      modifies this
      ensures cwd == origin
      ensures files == old(files) && dirs == old(dirs)
    {
      cwd := origin;
    }
  }

  /** `xs` without any occurrence of `x`. */
  function Without(xs: seq<int>, x: int): (r: seq<int>)
    ensures |r| <= |xs|
    ensures x in xs ==> |r| < |xs|
    ensures forall y :: y in r <==> y in xs && y != x
  {
    if xs == [] then []
    else if xs[0] == x then Without(xs[1..], x)
    else [xs[0]] + Without(xs[1..], x)
  }

  /** `xs` up to and including the first `x`; all of `xs` when `x` does not occur. */
  function UpTo(xs: seq<int>, x: int): (r: seq<int>)
    ensures |r| <= |xs| && r == xs[..|r|]
    ensures x in xs ==> r != [] && r[|r| - 1] == x && x !in r[..|r| - 1]
    ensures x !in xs ==> r == xs
  {
    if xs == [] then []
    else if xs[0] == x then [x]
    else
      var rest := UpTo(xs[1..], x);
      assert ([xs[0]] + rest)[1..] == rest;
      [xs[0]] + rest
  }

  /** A process appended after the others, and not among them, is reached last: every earlier one comes before it. */
  lemma UpToLast(xs: seq<int>, x: int)
    requires x !in xs
    ensures UpTo(xs + [x], x) == xs + [x]
  {
    var r := UpTo(xs + [x], x);
    assert |r| > |xs| by {
      if |r| <= |xs| {
        assert false;
      }
    }
  }

  /**
   * The processes a service can see: the holders of its lock file (what
   * `lsof` reports), the auxiliary processes its subtype reports, and the
   * replacements that start, in order, each time an auxiliary process is
   * terminated. `terminated` records every process terminated so far.
   */
  class ProcessTable {
    var main: seq<int>
    var aux: seq<int>
    var respawns: seq<int>
    var terminated: seq<int>

    constructor (main: seq<int>, aux: seq<int>, respawns: seq<int>)
      ensures this.main == main && this.aux == aux && this.respawns == respawns && terminated == []
    {
      this.main, this.aux, this.respawns, terminated := main, aux, respawns, [];
    }

    /** How many more auxiliary processes can still be terminated. */
    function Pending(): nat
      reads this
    {
      |aux| + |respawns|
    }

    /**
     * `kill_process_gracefully(pid)`: the process is signalled and waited
     * for; one that no longer exists is passed over. Terminating an
     * auxiliary process starts the next replacement, if any is left.
     */
    method Terminate(pid: int)
      modifies this
      ensures main == Without(old(main), pid)
      ensures pid in old(aux) && old(respawns) != [] ==> aux == Without(old(aux), pid) + [old(respawns)[0]] && respawns == old(respawns)[1..]
      ensures !(pid in old(aux) && old(respawns) != []) ==> aux == Without(old(aux), pid) && respawns == old(respawns)
      ensures terminated == old(terminated) + if pid in old(main) || pid in old(aux) then [pid] else []
      ensures pid in old(aux) ==> Pending() < old(Pending())
      ensures Pending() <= old(Pending())
    {
      var alive := pid in main || pid in aux;
      var wasAux := pid in aux;
      main := Without(main, pid);
      aux := Without(aux, pid);
      if wasAux && respawns != [] {
        aux := aux + [respawns[0]];
        respawns := respawns[1..];
      }
      if alive {
        terminated := terminated + [pid];
      }
    }

    /** The started service's process opens the lock file and so becomes one of its holders. */
    method HoldLock(pid: int)
      modifies this
      ensures main == old(main) + [pid]
      ensures aux == old(aux) && respawns == old(respawns) && terminated == old(terminated)
    {
      main := main + [pid];
    }
  }
}

=== FILE: Legacy.dfy ===
/**
 * The service helper of the older generation (`Class` in `utils.py`): it
 * wraps one service of a subtype and derives everything from the paths
 * `<TEMPDIR>/<type>_<name>.log` / `.lock` and the configuration
 * `<ROOT>/<name>/<type>.py`, hidden as `<ROOT>/<name>/.<type>.py` while the
 * service is disabled.
 */
module Legacy {
  import opened Common
  import opened Text
  import opened Paths
  import opened Host

  /** The files after `os.rename(src, dst)` moved `src` to `dst`. */
  function Moved(files: map<string, Content>, src: string, dst: string): map<string, Content>
    requires src in files
  {
    (files - {src})[dst := files[src]]
  }

  /**
   * Renaming a file to a free name and back restores the files: enabling
   * then disabling (or the other way round) leaves the disk as it was.
   */
  lemma MovedBack(files: map<string, Content>, src: string, dst: string)
    requires src in files && dst !in files
    ensures var moved := Moved(files, src, dst);
      dst in moved && src !in moved && Moved(moved, dst, src) == files
  {
    var moved := Moved(files, src, dst);
    var back := Moved(moved, dst, src);
    assert back.Keys == files.Keys;
  }

  /** What `enable` and `disable` return. */
  datatype Toggle =
    | AlreadyDone(message: seq<string>)
      /** The configuration was renamed; `now` when `--now` then asked for a start or stop. */
    | Switched(now: bool)
      /** `os.rename` raised `FileNotFoundError`. */
    | RenameFailed

  class Service {
    /** `self.name`: the subtype's name, e.g. `service`. */
    const typeName: string
    /** `self.self.name`: the service's own name. */
    const name: string
    /** The module globals `ROOT` and `TEMPDIR`. */
    const root: string
    const tempRoot: string
    /** `self.self.flags`: the raw flag tokens of the command line. */
    var flags: seq<string>
    /** `self.self.workdir`. */
    var workdir: string
    const disk: Disk
    const procs: ProcessTable

    constructor (typeName: string, name: string, root: string, tempRoot: string,
                 flags: seq<string>, workdir: string, disk: Disk, procs: ProcessTable)
      ensures this.typeName == typeName && this.name == name && this.root == root && this.tempRoot == tempRoot
      ensures this.flags == flags && this.workdir == workdir && this.disk == disk && this.procs == procs
    {
      this.typeName, this.name, this.root, this.tempRoot := typeName, name, root, tempRoot;
      this.flags, this.workdir, this.disk, this.procs := flags, workdir, disk, procs;
    }

    function LogFile(): string
      reads this
    {
      tempRoot + "/" + typeName + "_" + name + ".log"
    }

    function LockFile(): string
      reads this
    {
      tempRoot + "/" + typeName + "_" + name + ".lock"
    }

    function ConfigFile(): string
      reads this
    {
      root + "/" + name + "/" + typeName + ".py"
    }

    function HiddenConfig(): string
      reads this
    {
      root + "/" + name + "/." + typeName + ".py"
    }

    /**
     * `status()`: exactly two words, `Started` when the log file exists
     * (the lock file plays no part) and `Enabled` when the visible
     * configuration exists.
     */
    function Status(): (r: seq<string>)
      reads this, disk
      ensures |r| == 2
      ensures r[0] == "Started" <==> LogFile() in disk.files
      ensures r[0] == "Stopped" <==> LogFile() !in disk.files
      ensures r[1] == "Enabled" <==> disk.Exists(ConfigFile())
      ensures r[1] == "Disabled" <==> !disk.Exists(ConfigFile())
    {
      (if disk.IsFile(LogFile()) then ["Started"] else ["Stopped"]) +
      (if disk.Exists(ConfigFile()) then ["Enabled"] else ["Disabled"])
    }

    /** One configuration file, visible or hidden, and no directory in the visible one's place. */
    predicate OneConfig()
      reads this, disk
    {
      (ConfigFile() in disk.files) != (HiddenConfig() in disk.files) && ConfigFile() !in disk.dirs
    }

    /** The four paths are distinct: the configurations differ in length, the others in their last letter. */
    lemma FileNamesDiffer()
      ensures ConfigFile() != HiddenConfig()
      ensures LogFile() != ConfigFile() && LogFile() != HiddenConfig()
      ensures LockFile() != ConfigFile() && LockFile() != HiddenConfig()
    {
      assert |HiddenConfig()| == |ConfigFile()| + 1;
      assert LogFile()[|LogFile()| - 1] == 'g' && LockFile()[|LockFile()| - 1] == 'k';
      assert ConfigFile()[|ConfigFile()| - 1] == 'y' && HiddenConfig()[|HiddenConfig()| - 1] == 'y';
    }

    /**
     * `enable()`: an enabled service is left alone; otherwise the hidden
     * configuration is renamed to the visible name, which makes the service
     * enabled, and `--now` asks for a start.
     */
    method Enable() returns (r: Toggle)
      modifies disk
      ensures disk.dirs == old(disk.dirs) && disk.cwd == old(disk.cwd)
      ensures old(Status())[1] == "Enabled" ==>
        r == AlreadyDone([typeName + " is already enabled"]) && disk.files == old(disk.files)
      ensures old(Status())[1] == "Disabled" && HiddenConfig() in old(disk.files) ==>
        disk.files == Moved(old(disk.files), HiddenConfig(), ConfigFile()) &&
        r == Switched("--now" in flags) && Status()[1] == "Enabled" && Status()[0] == old(Status())[0]
      ensures old(Status())[1] == "Disabled" && HiddenConfig() !in old(disk.files) ==>
        r == RenameFailed && disk.files == old(disk.files)
      ensures old(OneConfig()) ==> OneConfig() && r != RenameFailed
    {
      FileNamesDiffer();
      if "Enabled" in Status() {
        return AlreadyDone([typeName + " is already enabled"]);
      }
      var ok := disk.Rename(HiddenConfig(), ConfigFile());
      if !ok {
        return RenameFailed;
      }
      r := Switched("--now" in flags);
    }

    /**
     * `disable()`: a disabled service is left alone; otherwise the visible
     * configuration is renamed to the hidden name, which makes the service
     * disabled, and `--now` asks for a stop.
     */
    method Disable() returns (r: Toggle)
      modifies disk
      ensures disk.dirs == old(disk.dirs) && disk.cwd == old(disk.cwd)
      ensures old(Status())[1] == "Disabled" ==>
        r == AlreadyDone([name + " is already disabled"]) && disk.files == old(disk.files)
      ensures old(Status())[1] == "Enabled" && ConfigFile() in old(disk.files) ==>
        disk.files == Moved(old(disk.files), ConfigFile(), HiddenConfig()) &&
        r == Switched("--now" in flags) && Status()[0] == old(Status())[0] &&
        (ConfigFile() !in disk.dirs ==> Status()[1] == "Disabled")
      ensures old(Status())[1] == "Enabled" && ConfigFile() !in old(disk.files) ==>
        r == RenameFailed && disk.files == old(disk.files)
      ensures old(OneConfig()) ==> OneConfig() && r != RenameFailed
    {
      FileNamesDiffer();
      if "Disabled" in Status() {
        return AlreadyDone([name + " is already disabled"]);
      }
      var ok := disk.Rename(ConfigFile(), HiddenConfig());
      if !ok {
        return RenameFailed;
      }
      r := Switched("--now" in flags);
    }

    /** `get_main_process()`: the holders of the lock file, none when there is no lock file. */
    function MainProcesses(): (r: seq<int>)
      reads this, disk, procs
      ensures LockFile() !in disk.files ==> r == []
    {
      if disk.IsFile(LockFile()) then procs.main else []
    }

    /**
     * `stop()`: a stopped service gets a message. Otherwise every main
     * process, then every auxiliary process listed after that, is sent
     * `SIGTERM` once; auxiliary processes started meanwhile are not
     * looked for, and the files stay until `cleanup_after_stop`.
     */
    method Stop() returns (r: Option<string>)
      modifies procs
      ensures old(Status())[0] == "Stopped" ==>
        r == Some("Service " + name + " is already stopped") &&
        procs.main == old(procs.main) && procs.aux == old(procs.aux) && procs.terminated == old(procs.terminated)
      ensures old(Status())[0] == "Started" ==>
        r == None && (forall p :: p in old(MainProcesses()) ==> p !in procs.main && p in procs.terminated) &&
        (forall p :: p in old(procs.aux) ==> p in procs.terminated)
    {
      if "Stopped" in Status() {
        return Some("Service " + name + " is already stopped");
      }
      var mains := MainProcesses();
      KillAll(mains);
      var auxiliary := procs.aux;
      KillAll(auxiliary);
      r := None;
    }

    /**
     * `for pid in pids: kill_process_gracefully(pid)`: each listed process
     * that was alive is terminated, no main process remains among them, and
     * no process is revived.
     */
    method KillAll(pids: seq<int>)
      modifies procs
      ensures forall p :: p in pids && (p in old(procs.main) || p in old(procs.aux)) ==> p in procs.terminated
      ensures forall p :: p in old(procs.terminated) ==> p in procs.terminated
      ensures forall p :: p in old(procs.aux) ==> p in procs.aux || p in procs.terminated
      ensures forall p :: p in procs.main ==> p in old(procs.main) && p !in pids
    {
      for k := 0 to |pids|
        invariant forall p :: p in pids[..k] && (p in old(procs.main) || p in old(procs.aux)) ==> p in procs.terminated
        invariant forall p :: p in old(procs.terminated) ==> p in procs.terminated
        invariant forall p :: p in old(procs.main) ==> p in procs.main || p in procs.terminated
        invariant forall p :: p in old(procs.aux) ==> p in procs.aux || p in procs.terminated
        invariant forall p :: p in procs.main ==> p in old(procs.main) && p !in pids[..k]
      {
        assert pids[..k + 1] == pids[..k] + [pids[k]];
        procs.Terminate(pids[k]);
      }
      assert pids[..|pids|] == pids;
    }

    /** `cleanup_after_stop()`: the log and lock files are removed where they exist, so the service reads as stopped. */
    method CleanupAfterStop()
      modifies disk
      ensures disk.files == old(disk.files) - {LogFile(), LockFile()}
      ensures disk.dirs == old(disk.dirs) && disk.cwd == old(disk.cwd)
      ensures Status()[0] == "Stopped" && Status()[1] == old(Status())[1]
    {
      FileNamesDiffer();
      var _ := disk.Remove(LogFile());
      var _ := disk.Remove(LockFile());
    }

    /**
     * `workdir(p)`: a trailing `/` is dropped unless `p` is `/`; an absolute
     * path replaces the working directory and a relative one is appended
     * after `/`; then every run of `/` is collapsed.
     */
    method Workdir(p: string)
      modifies this
      ensures workdir == LegacyWorkdir(old(workdir), p)
      ensures flags == old(flags)
    {
      var step := p;
      if EndsWith(step, "/") && |step| > 1 {
        step := step[..|step| - 1];
      }
      if StartsWith(step, "/") {
        workdir := step;
      } else {
        workdir := workdir + "/" + step;
      }
      workdir := CollapseSlashes(workdir);
    }
  }
}

=== FILE: Lifecycle.dfy ===
/**
 * The newest service entity (`Class` in `utils/__init__.py`): one named
 * service of a supervisor subtype, with the files that say whether it is
 * running, the processes that belong to it, and the lifecycle commands
 * `Start`, `Stop`, `Restart`, `Status`, `Ps` and `List` next to the
 * user-level operations `Run`, `Env` and `Workdir` its configuration calls.
 */
module Lifecycle {
  import opened Common
  import opened Text
  import opened Paths
  import opened Persistence
  import opened Dispatch
  import opened Host
  import opened Lockfile

  /** An entry of `exit_commands`: the built-in `exit`, which ends the process, or a hook such as the subtype's `_exit`. */
  datatype ExitCommand = ExitProcess | Hook(id: nat)

  /** The subtype's `_exit`, registered by the constructor after `exit`. */
  const ExitHook: ExitCommand := Hook(0)

  /** What `Run` is given: a callable (with the value it returns) or a command line for the shell. */
  datatype Command = Function(result: string) | Shell(line: string)

  /** What `Run` returns: the callable's value, or what the command printed when `pipe` captured it. */
  datatype RunResult = Returned(value: string) | Finished(captured: Option<string>)

  datatype LockError = FileNotFound | DecodeError

  /**
   * Why `Run` raises: the module name `utils` it calls through is unbound
   * (as written), `Popen` cannot start the command's program, or the save
   * raised.
   */
  datatype RunError = UtilsUnbound | LaunchFailed | SaveFailed(error: LockError)

  /**
   * How `command_Start` ends: the service was already started; the
   * service's own process is terminated by the `Stop` it runs; or an
   * exception leaves it.
   */
  datatype StartOutcome = AlreadyStarted | KilledItself | Raised(error: RunError)

  datatype StopOutcome = AlreadyStopped | Stopped | ProcessExited

  datatype RestartOutcome = ExitedDuringStop | Restarted(stop: StopOutcome, start: StartOutcome) | NotLoaded

  /** The line `Run` writes before a command: only a tracked, non-blank command is announced, as `Command: ` and the command. */
  function Marker(line: string, track: bool): (r: seq<string>)
    ensures |r| <= 1
    ensures r != [] <==> track && !IsBlank(line)
    ensures r != [] ==> StartsWith(r[0], "Command: ") && EndsWith(r[0], line) && |r[0]| == |"Command: "| + |line|
  {
    if track && !IsBlank(line) then
      var m := "Command: " + line;
      assert m[..9] == "Command: " && m[|m| - |line|..] == line;
      [m]
    else []
  }

  /** Separator controls such as 0x1C count as blank, as `str.strip` has them; a real command is announced as written. */
  lemma MarkerExamples()
    ensures Marker("\U{1C}\U{1F}", true) == [] && Marker(" \t\U{A0}", true) == []
    ensures Marker("ls -l", true) == ["Command: ls -l"] && Marker("ls -l", false) == []
  {
    var controls, spaces, command := "\U{1C}\U{1F}", " \t\U{A0}", "ls -l";
    assert IsBlank(controls) by {
      assert controls[0] == '\U{1C}' && controls[1] == '\U{1F}';
    }
    assert IsBlank(spaces) by {
      assert spaces[0] == ' ' && spaces[1] == '\t' && spaces[2] == '\U{A0}';
    }
    assert !IsBlank(command) by {
      assert command[0] == 'l' && !IsWhitespace('l');
    }
    assert "Command: " + command == "Command: ls -l";
  }

  /** `reversed(cmds)`. */
  function Reverse(cmds: seq<ExitCommand>): (r: seq<ExitCommand>)
    ensures |r| == |cmds|
    ensures forall i :: 0 <= i < |cmds| ==> r[i] == cmds[|cmds| - 1 - i]
  {
    if cmds == [] then [] else [cmds[|cmds| - 1]] + Reverse(cmds[..|cmds| - 1])
  }

  /** The commands of a run that get to execute: all of them, up to and including the first `exit`. */
  function ThroughExit(run: seq<ExitCommand>): (r: seq<ExitCommand>)
    ensures |r| <= |run| && r == run[..|r|]
    ensures ExitProcess in r <==> ExitProcess in run
    ensures ExitProcess !in run ==> r == run
    ensures ExitProcess in run ==> r[|r| - 1] == ExitProcess && ExitProcess !in r[..|r| - 1]
  {
    if run == [] then []
    else if run[0] == ExitProcess then [ExitProcess]
    else
      var rest := ThroughExit(run[1..]);
      assert ([run[0]] + rest)[1..] == rest;
      [run[0]] + rest
  }

  lemma {:induction false} ThroughExitAt(run: seq<ExitCommand>, j: nat)
    requires j < |run| && run[j] == ExitProcess && ExitProcess !in run[..j]
    ensures ThroughExit(run) == run[..j + 1]
  {
    if j > 0 {
      assert run[0] in run[..j];
      assert run[1..][..j - 1] == run[1..j];
      assert ExitProcess !in run[1..][..j - 1];
      ThroughExitAt(run[1..], j - 1);
      assert [run[0]] + run[1..][..j] == run[..j + 1];
    }
  }

  /** The exit commands `Stop` runs, in order. */
  function ExitOrder(cmds: seq<ExitCommand>): seq<ExitCommand>
  {
    ThroughExit(Reverse(cmds))
  }

  lemma ReverseMembers(cmds: seq<ExitCommand>)
    ensures forall c :: c in cmds <==> c in Reverse(cmds)
  {
    var run := Reverse(cmds);
    forall c | c in cmds
      ensures c in run
    {
      var i :| 0 <= i < |cmds| && cmds[i] == c;
      assert run[|cmds| - 1 - i] == c;
    }
  }

  /**
   * `Stop` runs the exit commands last registered first, and the run ends
   * with the first `exit` it meets, which ends the process; without an
   * `exit` every command runs.
   */
  lemma ExitOrderCharacterised(cmds: seq<ExitCommand>)
    ensures var r := ExitOrder(cmds);
      |r| <= |cmds| && (forall i :: 0 <= i < |r| ==> r[i] == cmds[|cmds| - 1 - i]) &&
      (ExitProcess in r <==> ExitProcess in cmds) &&
      (ExitProcess in r ==> r[|r| - 1] == ExitProcess && ExitProcess !in r[..|r| - 1]) &&
      (ExitProcess !in cmds ==> |r| == |cmds|)
  {
    ReverseMembers(cmds);
  }

  /** The settings an entity of `kind` starts from before reading its lock file. */
  function Defaults(kind: Kind, flags: map<string, string>): Settings
  {
    Settings(flags, false, kind.fork, kind.env, kind.workdir)
  }

  /** The document a lock file holds, or the empty one when there is none. */
  function DocAt(files: map<string, Content>, p: string): map<string, Json>
  {
    if p in files && files[p].Doc? then files[p].data else map[]
  }

  /** The attribute table `__getattribute__` consults for an entity (the members the model keeps). */
  const Members: map<string, Member> := map[
    "name" := Member.Value, "directory" := Member.Value, "lockfile" := Member.Value, "fork" := Member.Value,
    "update_lockfile" := Member.Callable, "get_auxiliary_processes" := Member.Callable,
    "Env" := Member.Callable, "Workdir" := Member.Callable, "Run" := Member.Callable,
    "command_Start" := Member.Callable, "command_Stop" := Member.Callable, "command_Restart" := Member.Callable,
    "command_Status" := Member.Callable, "command_Ps" := Member.Callable, "command_List" := Member.Callable]

  /**
   * The wrappers the methods below put around their bodies are the ones
   * `__getattribute__` gives them: the lifecycle commands run in the
   * service directory without saving, the user-level operations save
   * afterwards, and internal helpers and data are handed back raw.
   */
  lemma MembersDispatch()
    ensures Decide(Members, "Start") == Ok(Scoped("command_Start", false))
    ensures Decide(Members, "Stop") == Ok(Scoped("command_Stop", false))
    ensures Decide(Members, "Env") == Ok(Scoped("Env", true))
    ensures Decide(Members, "Run") == Ok(Scoped("Run", true))
    ensures Decide(Members, "update_lockfile") == Ok(Raw("update_lockfile"))
    ensures Decide(Members, "lockfile") == Ok(Raw("lockfile"))
  {
    assert CommandPrefix + "Start" == "command_Start" && CommandPrefix + "Stop" == "command_Stop";
    CommandsAreScopedWithoutSaving(Members, "Start");
    CommandsAreScopedWithoutSaving(Members, "Stop");
    UserLevelCallsSave(Members, "Env");
    UserLevelCallsSave(Members, "Run");
    InternalsAreRaw(Members, "update_lockfile");
    InternalsAreRaw(Members, "lockfile");
  }

  class Service {
    const kind: Kind
    const layout: Layout
    var flags: map<string, string>
    var exitCommands: seq<ExitCommand>
    var setup: bool
    var fork: bool
    var env: seq<string>
    var workdir: string
    /** Attributes the lock file carried that the model gives no type of its own. */
    var extra: map<string, Json>
    /** The exit commands executed so far, in order. */
    var ran: seq<ExitCommand>
    /** How many times `_setup` has run. */
    ghost var setupRuns: nat
    const disk: Disk
    const procs: ProcessTable

    /** The paths are those of the kind and the name; `_setup` has run at most once, and only if `setup` records it. */
    ghost predicate Valid()
      reads this
    {
      layout == MakeLayout(kind, layout.name) && setupRuns <= 1 && (setupRuns == 1 ==> setup)
    }

    function Current(): Settings
      reads this
    {
      Settings(flags, setup, fork, env, workdir)
    }

    /**
     * `__init__` over the document the lock file held (`doc`, empty when
     * there is none): the paths come from the kind and the name, the
     * exit commands are `exit` then the subtype's hook, and every setting
     * the document holds replaces the class default.
     */
    constructor (kind: Kind, name: string, flags: map<string, string>, doc: map<string, Json>,
                 disk: Disk, procs: ProcessTable)
      ensures this.kind == kind && layout == MakeLayout(kind, name)
      ensures Current() == Restore(doc, Defaults(kind, flags))
      ensures extra == Extra(doc)
      ensures exitCommands == [ExitProcess, ExitHook] && ran == [] && setupRuns == 0
      ensures this.disk == disk && this.procs == procs
      ensures Valid()
    {
      var s := Restore(doc, Defaults(kind, flags));
      this.kind := kind;
      layout := MakeLayout(kind, name);
      this.flags, setup, fork, env, workdir := s.flags, s.setup, s.fork, s.env, s.workdir;
      extra := Extra(doc);
      exitCommands := [ExitProcess, ExitHook];
      ran := [];
      setupRuns := 0;
      this.disk, this.procs := disk, procs;
    }

    /**
     * Building an entity: a lock file that is present but holds no JSON
     * document makes `json.load` raise; otherwise the entity is built over
     * the document, or over nothing when there is no lock file.
     */
    static method Open(kind: Kind, name: string, flags: map<string, string>, disk: Disk, procs: ProcessTable)
      returns (r: Result<Service, LockError>)
      ensures var lock := MakeLayout(kind, name).lockfile;
        r.Err? <==> lock in disk.files && disk.files[lock].Lines?
      ensures r.Ok? ==> fresh(r.value) && r.value.layout == MakeLayout(kind, name) && r.value.kind == kind
      ensures r.Ok? ==> r.value.Current() == Restore(DocAt(disk.files, MakeLayout(kind, name).lockfile), Defaults(kind, flags))
      ensures r.Ok? ==> r.value.disk == disk && r.value.procs == procs && r.value.Valid()
      ensures r.Ok? ==> r.value.exitCommands == [ExitProcess, ExitHook] && r.value.ran == []
    {
      var lock := MakeLayout(kind, name).lockfile;
      if lock in disk.files && disk.files[lock].Lines? {
        return Err(DecodeError);
      }
      var s := new Service(kind, name, flags, DocAt(disk.files, lock), disk, procs);
      return Ok(s);
    }

    /** `command_Status`: started exactly when the lock file exists. */
    function Status(): (r: seq<string>)
      reads this, disk
      ensures r == ["Started"] <==> layout.lockfile in disk.files
      ensures r == ["Stopped"] <==> layout.lockfile !in disk.files
    {
      if disk.IsFile(layout.lockfile) then ["Started"] else ["Stopped"]
    }

    /**
     * `command_Ps(process)`: the lock holders for `main` (none without a
     * lock file), the subtype's auxiliary processes for `auxiliary`; either
     * word among the flags selects its branch too, `main` first.
     */
    function Ps(process: Option<string>): (r: Option<seq<int>>)
      reads this, disk, procs
      ensures r.None? <==> process != Some("main") && "main" !in flags && process != Some("auxiliary") && "auxiliary" !in flags
      ensures (process == Some("main") || "main" in flags) && layout.lockfile !in disk.files ==> r == Some([])
      ensures (process == Some("main") || "main" in flags) && layout.lockfile in disk.files ==> r == Some(procs.main)
      ensures (process == Some("auxiliary") || "auxiliary" in flags) && process != Some("main") && "main" !in flags ==>
        r == Some(procs.aux)
    {
      if process == Some("main") || "main" in flags then
        if !disk.IsFile(layout.lockfile) then Some([]) else Some(procs.main)
      else if process == Some("auxiliary") || "auxiliary" in flags then Some(procs.aux)
      else None
    }

    /** `command_List`: the service's name, the one its directory is named after. */
    function List(): (r: string)
      reads this
      ensures r == layout.name
      ensures layout == MakeLayout(kind, r) ==> EndsWith(layout.directory, NameToFilename(r, kind.sep))
    {
      LayoutFiles(kind, layout.name);
      layout.name
    }

    /**
     * `update_lockfile` as intended: nothing without `fork`; otherwise the
     * lock file is read (a missing one raises `FileNotFoundError`, one that
     * is not JSON a decode error) and rewritten with every persistable
     * attribute saved over it.
     */
    function Saved(files: map<string, Content>): (r: Result<map<string, Content>, LockError>)
      reads this
      ensures !fork ==> r == Ok(files)
      ensures fork && layout.lockfile !in files ==> r == Err(FileNotFound)
      ensures r.Ok? ==> r.value.Keys == files.Keys
      ensures r.Ok? ==> forall p :: p in files && p != layout.lockfile ==> r.value[p] == files[p]
    {
      if !fork then Ok(files)
      else if layout.lockfile !in files then Err(FileNotFound)
      else match files[layout.lockfile]
        case Lines(_) => Err(DecodeError)
        case Doc(data) => Ok(files[layout.lockfile := Doc(Save(data, Snapshot(layout, Current(), extra)))])
    }

    /**
     * What a save leaves in the lock file is what a new entity reads back:
     * the settings exactly, whatever its defaults, and the other
     * attributes over those the document held before.
     */
    lemma SavedReloads(files: map<string, Content>, defaults: Settings)
      requires Saved(files).Ok? && fork
      requires forall k :: k in extra ==> k !in ModelledKeys && Storable(k)
      ensures var doc := DocAt(Saved(files).value, layout.lockfile);
        Restore(doc, defaults) == Current() && Extra(doc) == Extra(DocAt(files, layout.lockfile)) + extra
    {
      var data := files[layout.lockfile].data;
      SettingsRoundTrip(layout, Current(), extra, data, defaults);
      ExtraRoundTrip(layout, Current(), extra, data);
    }

    /** `update_lockfile`, with the outcome of `Saved`. */
    method UpdateLockfile() returns (r: Result<(), LockError>)
      modifies disk
      ensures Saved(old(disk.files)).Ok? ==> r.Ok? && disk.files == Saved(old(disk.files)).value
      ensures Saved(old(disk.files)).Err? ==> r == Err(Saved(old(disk.files)).error) && disk.files == old(disk.files)
      ensures disk.dirs == old(disk.dirs) && disk.cwd == old(disk.cwd)
    {
      var saved := Saved(disk.files);
      if saved.Err? {
        return Err(saved.error);
      }
      disk.files := saved.value;
      return Ok(());
    }

    /** Entering `change_directory(self.directory)`. */
    method Enter() returns (origin: string)
      modifies disk
      ensures origin == old(disk.cwd)
      ensures disk.cwd == if layout.directory in old(disk.dirs) then layout.directory else origin
      ensures disk.files == old(disk.files) && disk.dirs == old(disk.dirs)
    {
      origin := disk.EnterDirectory(layout.directory);
    }

    /** Leaving the wrapper: a user-level call saves state first; the directory goes back either way. */
    method Leave(origin: string, persist: bool) returns (r: Result<(), LockError>)
      modifies disk
      ensures disk.cwd == origin && disk.dirs == old(disk.dirs)
      ensures !persist ==> r == Ok(()) && disk.files == old(disk.files)
      ensures persist && Saved(old(disk.files)).Ok? ==> r.Ok? && disk.files == Saved(old(disk.files)).value
      ensures persist && Saved(old(disk.files)).Err? ==> r == Err(Saved(old(disk.files)).error) && disk.files == old(disk.files)
    {
      r := Ok(());
      if persist {
        r := UpdateLockfile();
      }
      disk.LeaveDirectory(origin);
    }

    /** `Env(v)`, wrapped: the variable is added after the others and the state saved. */
    method Env(v: string) returns (r: Result<(), LockError>)
      modifies this, disk
      ensures env == old(env) + [v]
      ensures flags == old(flags) && setup == old(setup) && fork == old(fork) && workdir == old(workdir)
      ensures extra == old(extra) && exitCommands == old(exitCommands) && ran == old(ran) && setupRuns == old(setupRuns)
      ensures disk.cwd == old(disk.cwd) && disk.dirs == old(disk.dirs)
      ensures Saved(old(disk.files)).Ok? ==> r.Ok? && disk.files == Saved(old(disk.files)).value
      ensures Saved(old(disk.files)).Err? ==> r.Err? && disk.files == old(disk.files)
    {
      var origin := Enter();
      env := env + [v];
      r := Leave(origin, true);
    }

    /** `Workdir(p)`, wrapped: `os.path.join` onto the current working directory, then the state saved. */
    method Workdir(p: string) returns (r: Result<(), LockError>)
      modifies this, disk
      ensures workdir == PathJoin(old(workdir), p)
      ensures flags == old(flags) && setup == old(setup) && fork == old(fork) && env == old(env)
      ensures extra == old(extra) && exitCommands == old(exitCommands) && ran == old(ran) && setupRuns == old(setupRuns)
      ensures disk.cwd == old(disk.cwd) && disk.dirs == old(disk.dirs)
      ensures Saved(old(disk.files)).Ok? ==> r.Ok? && disk.files == Saved(old(disk.files)).value
      ensures Saved(old(disk.files)).Err? ==> r.Err? && disk.files == old(disk.files)
    {
      var origin := Enter();
      workdir := PathJoin(workdir, p);
      r := Leave(origin, true);
    }

    /** The files after `Run` opened the log (forked shell commands only) and wrote the marker. */
    function Logged(files: map<string, Content>, command: Command, track: bool): map<string, Content>
      reads this`fork
    {
      if fork && command.Shell? then
        files[layout.logfile := Lines(LinesOf(files, layout.logfile) + Marker(command.line, track))]
      else files
    }

    /**
     * `Run(command, pipe, track)`, wrapped: `_setup` runs on the first call
     * only; a callable's value comes back with nothing logged; a shell
     * command, in a forked service, opens the log (creating it) and is
     * announced there when tracked and not blank. Then `Popen` starts the
     * command's program, which `launches` says it can; when it cannot, the
     * exception leaves the wrapper before its save. Otherwise the command's
     * output comes back only when `pipe` captures it, and the state is
     * saved. `output` is what the command prints.
     */
    method Run(command: Command, pipe: bool, track: bool, output: string, launches: bool) returns (r: Result<RunResult, RunError>)
      requires Valid()
      modifies this, disk
      ensures Valid() && setup
      ensures setupRuns == if old(setup) then old(setupRuns) else old(setupRuns) + 1
      ensures flags == old(flags) && fork == old(fork) && env == old(env) && workdir == old(workdir)
      ensures extra == old(extra) && exitCommands == old(exitCommands) && ran == old(ran)
      ensures disk.cwd == old(disk.cwd) && disk.dirs == old(disk.dirs)
      ensures command.Shell? && !launches ==> r == Err(LaunchFailed) && disk.files == Logged(old(disk.files), command, track)
      ensures command.Function? || launches ==> var files := Logged(old(disk.files), command, track);
        (Saved(files).Ok? ==> disk.files == Saved(files).value && r.Ok?) &&
        (Saved(files).Err? ==> disk.files == files && r == Err(SaveFailed(Saved(files).error)))
      ensures r.Ok? && command.Function? ==> r.value == Returned(command.result)
      ensures r.Ok? && command.Shell? ==> r.value == Finished(if pipe then Some(output) else None)
    {
      var origin := Enter();
      r := Execute(command, pipe, output, track, launches);
      if r.Err? {
        disk.LeaveDirectory(origin);
        return;
      }
      var saved := Leave(origin, true);
      if saved.Err? {
        r := Err(SaveFailed(saved.error));
      }
    }

    /**
     * `Run` as written: the shell-command path ends in
     * `utils.shell_command(...)`, and the module binds no name `utils`, so
     * it raises `NameError` once the log is opened and the marker written,
     * before any program is started. The exception leaves the wrapper
     * before its save; `change_directory` still goes back to the origin. A
     * callable is not affected.
     */
    method RunAsWritten(command: Command, pipe: bool, track: bool) returns (r: Result<RunResult, RunError>)
      requires Valid()
      modifies this, disk
      ensures Valid() && setup
      ensures setupRuns == if old(setup) then old(setupRuns) else old(setupRuns) + 1
      ensures flags == old(flags) && fork == old(fork) && env == old(env) && workdir == old(workdir)
      ensures extra == old(extra) && exitCommands == old(exitCommands) && ran == old(ran)
      ensures disk.cwd == old(disk.cwd) && disk.dirs == old(disk.dirs)
      ensures command.Shell? ==> r == Err(UtilsUnbound) && disk.files == Logged(old(disk.files), command, track)
      ensures command.Function? && Saved(old(disk.files)).Ok? ==>
        r == Ok(Returned(command.result)) && disk.files == Saved(old(disk.files)).value
      ensures command.Function? && Saved(old(disk.files)).Err? ==>
        r == Err(SaveFailed(Saved(old(disk.files)).error)) && disk.files == old(disk.files)
    {
      var origin := Enter();
      r := Execute(command, pipe, "", track, true);
      if command.Shell? {
        disk.LeaveDirectory(origin);
        return Err(UtilsUnbound);
      }
      var saved := Leave(origin, true);
      if saved.Err? {
        r := Err(SaveFailed(saved.error));
      }
    }

    /** `Run` inside the wrapper, before the save: `_setup` on the first call, then the command itself. */
    method Execute(command: Command, pipe: bool, output: string, track: bool, launches: bool) returns (r: Result<RunResult, RunError>)
      requires Valid()
      modifies this, disk
      ensures Valid() && setup
      ensures setupRuns == if old(setup) then old(setupRuns) else old(setupRuns) + 1
      ensures flags == old(flags) && fork == old(fork) && env == old(env) && workdir == old(workdir)
      ensures extra == old(extra) && exitCommands == old(exitCommands) && ran == old(ran)
      ensures disk.cwd == old(disk.cwd) && disk.dirs == old(disk.dirs)
      ensures disk.files == Logged(old(disk.files), command, track)
      ensures command.Function? ==> r == Ok(Returned(command.result))
      ensures command.Shell? && launches ==> r == Ok(Finished(if pipe then Some(output) else None))
      ensures command.Shell? && !launches ==> r == Err(LaunchFailed)
    {
      SetUp();
      r := Perform(command, pipe, output, track, launches);
    }

    /** The guard at the head of `Run`: `_setup` runs unless `setup` records that it has. */
    method SetUp()
      requires Valid()
      modifies this`setup, this`setupRuns
      ensures Valid() && setup
      ensures setupRuns == if old(setup) then old(setupRuns) else old(setupRuns) + 1
    {
      if !setup {
        setupRuns := setupRuns + 1;
        setup := true;
      }
    }

    /**
     * The body of `Run` between `_setup` and the save: a callable's value,
     * or the log opened and the marker written, then the program started.
     */
    method Perform(command: Command, pipe: bool, output: string, track: bool, launches: bool) returns (r: Result<RunResult, RunError>)
      modifies disk
      ensures disk.files == Logged(old(disk.files), command, track)
      ensures disk.cwd == old(disk.cwd) && disk.dirs == old(disk.dirs)
      ensures command.Function? ==> r == Ok(Returned(command.result))
      ensures command.Shell? && launches ==> r == Ok(Finished(if pipe then Some(output) else None))
      ensures command.Shell? && !launches ==> r == Err(LaunchFailed)
    {
      if command.Function? {
        r := Ok(Returned(command.result));
      } else {
        if fork {
          disk.Append(layout.logfile, Marker(command.line, track));
        }
        r := if launches then Ok(Finished(if pipe then Some(output) else None)) else Err(LaunchFailed);
      }
    }

    /**
     * `command_Stop`, wrapped: nothing happens to a stopped service.
     * Otherwise every lock holder is terminated, then auxiliary processes
     * are terminated in rounds until the query comes back empty; the log
     * and lock files are removed; and the exit commands run last-registered
     * first, until `exit` ends the process. A `main` flag makes the
     * auxiliary query report the (by then empty) lock holders instead.
     */
    method Stop() returns (o: StopOutcome)
      requires Valid()
      modifies this, disk, procs
      ensures Valid()
      ensures flags == old(flags) && Current() == old(Current()) && extra == old(extra) && exitCommands == old(exitCommands)
      ensures disk.cwd == old(disk.cwd) && disk.dirs == old(disk.dirs)
      ensures old(Status()) == ["Stopped"] ==>
        o == AlreadyStopped && disk.files == old(disk.files) && ran == old(ran) &&
        procs.main == old(procs.main) && procs.aux == old(procs.aux) && procs.terminated == old(procs.terminated)
      ensures old(Status()) == ["Started"] ==>
        disk.files == old(disk.files) - {layout.logfile, layout.lockfile} && Status() == ["Stopped"] &&
        (forall p :: p !in procs.main) && (forall p :: p in old(procs.main) ==> p in procs.terminated) &&
        ran == old(ran) + ExitOrder(exitCommands) && (o == ProcessExited <==> ExitProcess in exitCommands) &&
        o != AlreadyStopped
      ensures old(Status()) == ["Started"] && "main" !in flags ==>
        procs.aux == [] && forall p :: p in old(procs.aux) ==> p in procs.terminated
    {
      var origin := Enter();
      if "Stopped" in Status() {
        o := AlreadyStopped;
        var _ := Leave(origin, false);
        return;
      }
      o := Halt();
      var _ := Leave(origin, false);
    }

    /** What `command_Stop` does to a started service: processes, then files, then exit commands. */
    method Halt() returns (o: StopOutcome)
      requires layout.lockfile in disk.files
      modifies this, disk, procs
      ensures flags == old(flags) && Current() == old(Current()) && extra == old(extra)
      ensures exitCommands == old(exitCommands) && setupRuns == old(setupRuns)
      ensures disk.cwd == old(disk.cwd) && disk.dirs == old(disk.dirs)
      ensures disk.files == old(disk.files) - {layout.logfile, layout.lockfile}
      ensures (forall p :: p !in procs.main) && (forall p :: p in old(procs.main) ==> p in procs.terminated)
      ensures "main" !in flags ==> procs.aux == [] && forall p :: p in old(procs.aux) ==> p in procs.terminated
      ensures ran == old(ran) + ExitOrder(exitCommands)
      ensures (o == ProcessExited <==> ExitProcess in exitCommands) && o != AlreadyStopped
    {
      KillMains();
      DrainAuxiliary();
      var _ := disk.Remove(layout.logfile);
      var _ := disk.Remove(layout.lockfile);
      o := RunExitCommands();
    }

    /** `for pid in self.Ps("main"): kill_process_gracefully(pid)`, with the lock file present. */
    method KillMains()
      requires layout.lockfile in disk.files
      modifies procs
      ensures forall p :: p !in procs.main
      ensures forall p :: p in old(procs.main) ==> p in procs.terminated
      ensures forall p :: p in old(procs.aux) ==> p in procs.aux || p in procs.terminated
    {
      var mains := Ps(Some("main")).value;
      for k := 0 to |mains|
        invariant forall p :: p in procs.main ==> p in mains[k..]
        invariant forall p :: p in old(procs.main) ==> p in procs.main || p in procs.terminated
        invariant forall p :: p in old(procs.aux) ==> p in procs.aux || p in procs.terminated
      {
        procs.Terminate(mains[k]);
      }
      assert mains[|mains|..] == [];
    }

    /**
     * `while self.Ps("auxiliary") != []`: rounds of terminations until the
     * auxiliary query comes back empty. Each round terminates a process that
     * can only be replaced from the finite supply of replacements. With
     * `main` among the flags the query reports the lock holders instead,
     * none of which is left, so no round runs.
     */
    method DrainAuxiliary()
      requires layout.lockfile in disk.files
      requires forall p :: p !in procs.main
      modifies procs
      ensures "main" in flags ==> procs.main == old(procs.main) && procs.aux == old(procs.aux) && procs.terminated == old(procs.terminated)
      ensures "main" !in flags ==> procs.aux == [] && Ps(Some("auxiliary")) == Some([])
      ensures forall p :: p !in procs.main
      ensures forall p :: p in old(procs.terminated) ==> p in procs.terminated
      ensures forall p :: p in old(procs.aux) ==> p in procs.aux || p in procs.terminated
    {
      if "main" in flags {
        return;
      }
      while Ps(Some("auxiliary")).value != []
        invariant forall p :: p !in procs.main
        invariant forall p :: p in old(procs.terminated) ==> p in procs.terminated
        invariant forall p :: p in old(procs.aux) ==> p in procs.aux || p in procs.terminated
        decreases procs.Pending()
      {
        var batch := Ps(Some("auxiliary")).value;
        KillEach(batch);
      }
    }

    /** `for pid in batch: kill_process_gracefully(pid)`, once the lock holders are gone. */
    method KillEach(batch: seq<int>)
      requires forall p :: p !in procs.main
      modifies procs
      ensures forall p :: p !in procs.main
      ensures forall p :: p in old(procs.terminated) ==> p in procs.terminated
      ensures forall p :: p in old(procs.aux) ==> p in procs.aux || p in procs.terminated
      ensures batch != [] && batch[0] in old(procs.aux) ==> procs.Pending() < old(procs.Pending())
      ensures procs.Pending() <= old(procs.Pending())
    {
      for k := 0 to |batch|
        invariant forall p :: p !in procs.main
        invariant forall p :: p in old(procs.terminated) ==> p in procs.terminated
        invariant forall p :: p in old(procs.aux) ==> p in procs.aux || p in procs.terminated
        invariant k == 0 ==> procs.aux == old(procs.aux) && procs.respawns == old(procs.respawns)
        invariant k > 0 && batch[0] in old(procs.aux) ==> procs.Pending() < old(procs.Pending())
        invariant procs.Pending() <= old(procs.Pending())
      {
        procs.Terminate(batch[k]);
      }
    }

    /**
     * `for pid in self.Ps("main"): kill_process_gracefully(pid)` run by the
     * service's own process `worker`, which holds the lock file: the
     * holders listed before it are terminated, then the worker signals
     * itself. The `SIGTERM` handler installed by `command_Start` is the
     * wrapped `Stop`, which takes no signal arguments and raises, so the
     * worker ends there and nothing after the loop runs.
     */
    method KillUpTo(worker: int)
      requires layout.lockfile in disk.files && worker in procs.main
      modifies procs
      ensures forall p :: p in UpTo(old(procs.main), worker) ==> p in procs.terminated && p !in procs.main
      ensures forall p :: p in old(procs.main) && p !in UpTo(old(procs.main), worker) ==> p in procs.main
      ensures forall p :: p in old(procs.terminated) ==> p in procs.terminated
    {
      var holders := UpTo(Ps(Some("main")).value, worker);
      for k := 0 to |holders|
        invariant forall p :: p in holders[..k] ==> p in procs.terminated && p !in procs.main
        invariant forall p :: p in old(procs.main) && p !in holders[..k] ==> p in procs.main
        invariant forall p :: p in old(procs.terminated) ==> p in procs.terminated
      {
        assert holders[..k + 1] == holders[..k] + [holders[k]];
        procs.Terminate(holders[k]);
      }
      assert holders[..|holders|] == holders;
    }

    /**
     * The forked start-up of `command_Start`: the temporary directory is
     * made, the log file created if absent, the lock file opened by the
     * service's process `worker` (which makes it a holder) and written with
     * the empty document.
     */
    method Launch(worker: int)
      modifies disk, procs
      ensures disk.dirs == old(disk.dirs) + {layout.tempdir} && disk.cwd == old(disk.cwd)
      ensures disk.files == old(disk.files)[layout.logfile := Lines(LinesOf(old(disk.files), layout.logfile))][layout.lockfile := Doc(map[])]
      ensures procs.main == old(procs.main) + [worker]
      ensures procs.aux == old(procs.aux) && procs.respawns == old(procs.respawns) && procs.terminated == old(procs.terminated)
    {
      disk.MakeDirs(layout.tempdir);
      disk.Append(layout.logfile, []);
      assert LinesOf(old(disk.files), layout.logfile) + [] == LinesOf(old(disk.files), layout.logfile);
      procs.HoldLock(worker);
      disk.WriteDoc(layout.lockfile, map[]);
    }

    /**
     * `command_Start`, wrapped: a started service is left alone. Otherwise
     * a forked service launches as the process `worker`, and the
     * configuration runs. When it raises (`configFails`), the service is
     * stopped; a forked worker holds the lock, so that `Stop` terminates
     * the worker itself. Otherwise the closing `Run()` raises, because
     * `Popen` cannot start the blank command, so `Wait` is never reached.
     */
    method Start(worker: int, configFails: bool) returns (o: StartOutcome)
      requires Valid()
      modifies this, disk, procs
      ensures Valid()
      ensures flags == old(flags) && fork == old(fork) && env == old(env) && workdir == old(workdir)
      ensures extra == old(extra) && exitCommands == old(exitCommands) && ran == old(ran)
      ensures disk.cwd == old(disk.cwd)
      ensures old(Status()) == ["Started"] ==>
        o == AlreadyStarted && disk.files == old(disk.files) && disk.dirs == old(disk.dirs) && setup == old(setup) &&
        procs.main == old(procs.main) && procs.aux == old(procs.aux) && procs.terminated == old(procs.terminated)
      ensures old(Status()) == ["Stopped"] && !fork ==>
        o == Raised(LaunchFailed) && setup && disk.files == old(disk.files) && disk.dirs == old(disk.dirs)
      ensures old(Status()) == ["Stopped"] && fork ==>
        Status() == ["Started"] && layout.logfile in disk.files && layout.tempdir in disk.dirs &&
        DocAt(disk.files, layout.lockfile) == map[]
      ensures old(Status()) == ["Stopped"] && fork && !configFails ==>
        o == Raised(LaunchFailed) && setup && procs.main == old(procs.main) + [worker]
      ensures old(Status()) == ["Stopped"] && fork && configFails ==>
        o == KilledItself && setup == old(setup) && worker in procs.terminated && worker !in procs.main
    {
      var origin := Enter();
      if "Started" in Status() {
        o := AlreadyStarted;
      } else {
        o := Boot(worker, configFails);
      }
      var _ := Leave(origin, false);
    }

    /** `command_Start` past its status check, on a stopped service. */
    method Boot(worker: int, configFails: bool) returns (o: StartOutcome)
      requires Valid() && layout.lockfile !in disk.files
      modifies this, disk, procs
      ensures Valid()
      ensures flags == old(flags) && fork == old(fork) && env == old(env) && workdir == old(workdir)
      ensures extra == old(extra) && exitCommands == old(exitCommands) && ran == old(ran)
      ensures disk.cwd == old(disk.cwd)
      ensures !fork ==> o == Raised(LaunchFailed) && setup && disk.files == old(disk.files) && disk.dirs == old(disk.dirs)
      ensures fork ==>
        Status() == ["Started"] && layout.logfile in disk.files && layout.tempdir in disk.dirs &&
        DocAt(disk.files, layout.lockfile) == map[]
      ensures fork && !configFails ==> o == Raised(LaunchFailed) && setup && procs.main == old(procs.main) + [worker]
      ensures fork && configFails ==>
        o == KilledItself && setup == old(setup) && worker in procs.terminated && worker !in procs.main &&
        (worker !in old(procs.main) ==> forall p :: p in old(procs.main) ==> p in procs.terminated)
    {
      LayoutFiles(kind, layout.name);
      if fork && configFails {
        o := Abort(worker);
        return;
      }
      if fork {
        Launch(worker);
      } else if configFails {
        var _ := Stop();
      }
      o := Serve();
    }

    /**
     * A forked start whose configuration raises: the worker launches, then
     * the `Stop` it runs terminates the lock holders up to the worker
     * itself, and the worker ends there, leaving the log and the lock file.
     */
    method Abort(worker: int) returns (o: StartOutcome)
      requires layout.lockfile !in disk.files
      modifies disk, procs
      ensures o == KilledItself
      ensures disk.cwd == old(disk.cwd) && disk.dirs == old(disk.dirs) + {layout.tempdir}
      ensures disk.files == old(disk.files)[layout.logfile := Lines(LinesOf(old(disk.files), layout.logfile))][layout.lockfile := Doc(map[])]
      ensures worker in procs.terminated && worker !in procs.main
      ensures worker !in old(procs.main) ==> forall p :: p in old(procs.main) ==> p in procs.terminated
    {
      Launch(worker);
      if worker !in old(procs.main) {
        UpToLast(old(procs.main), worker);
      }
      KillUpTo(worker);
      o := KilledItself;
    }

    /**
     * The `self.Run()` that ends `command_Start`: the blank command is not
     * announced and a forked service opens its log. Then `Popen` is asked
     * to start the program named `""`, which does not exist, so the call
     * raises before the save.
     */
    method Serve() returns (o: StartOutcome)
      requires Valid()
      modifies this, disk
      ensures Valid() && setup
      ensures flags == old(flags) && fork == old(fork) && env == old(env) && workdir == old(workdir)
      ensures extra == old(extra) && exitCommands == old(exitCommands) && ran == old(ran)
      ensures disk.cwd == old(disk.cwd) && disk.dirs == old(disk.dirs)
      ensures o == Raised(LaunchFailed)
      ensures !fork ==> disk.files == old(disk.files)
      ensures fork ==> disk.files == old(disk.files)[layout.logfile := Lines(LinesOf(old(disk.files), layout.logfile))]
    {
      assert Marker("", true) == [];
      assert LinesOf(disk.files, layout.logfile) + [] == LinesOf(disk.files, layout.logfile);
      var r := Run(Shell(""), false, true, "", false);
      o := Raised(r.error);
    }

    /**
     * `command_Restart`, wrapped: the service is stopped, which ends the
     * process when `exit` is among its exit commands; otherwise a new
     * entity of the same name is built over what the lock file now holds
     * and started as the process `worker`.
     */
    method Restart(worker: int, configFails: bool) returns (o: RestartOutcome)
      requires Valid()
      modifies this, disk, procs
      ensures disk.cwd == old(disk.cwd)
      ensures old(Status()) == ["Started"] && ExitProcess in exitCommands ==> o == ExitedDuringStop && Status() == ["Stopped"]
      ensures old(Status()) == ["Stopped"] ==> o.Restarted? && o.stop == AlreadyStopped && o.start != AlreadyStarted
      ensures old(Status()) == ["Started"] && ExitProcess !in exitCommands ==>
        o.Restarted? && o.stop == Stopped && o.start != AlreadyStarted
      ensures o.Restarted? && kind.fork ==> Status() == ["Started"]
      ensures o.Restarted? && kind.fork && !configFails ==> o.start == Raised(LaunchFailed)
      ensures o.Restarted? && kind.fork && configFails ==> o.start == KilledItself
    {
      var origin := Enter();
      o := StopThenStart(worker, configFails);
      var _ := Leave(origin, false);
    }

    /** The body of `command_Restart`: `Stop`, then a new entity's `Start` unless stopping ended the process. */
    method StopThenStart(worker: int, configFails: bool) returns (o: RestartOutcome)
      requires Valid()
      modifies this, disk, procs
      ensures disk.cwd == old(disk.cwd)
      ensures old(Status()) == ["Started"] && ExitProcess in exitCommands ==> o == ExitedDuringStop && Status() == ["Stopped"]
      ensures old(Status()) == ["Stopped"] ==> o.Restarted? && o.stop == AlreadyStopped && o.start != AlreadyStarted
      ensures old(Status()) == ["Started"] && ExitProcess !in exitCommands ==>
        o.Restarted? && o.stop == Stopped && o.start != AlreadyStarted
      ensures o.Restarted? && kind.fork ==> Status() == ["Started"]
      ensures o.Restarted? && kind.fork && !configFails ==> o.start == Raised(LaunchFailed)
      ensures o.Restarted? && kind.fork && configFails ==> o.start == KilledItself
    {
      var stopped := Stop();
      if stopped == ProcessExited {
        o := ExitedDuringStop;
      } else {
        var started := StartAnew(worker, configFails);
        o := Restarted(stopped, started);
      }
    }

    /** `self.__class__(self.name).Start()` once the lock file is gone: a new entity with the class defaults starts. */
    method StartAnew(worker: int, configFails: bool) returns (o: StartOutcome)
      requires Valid() && layout.lockfile !in disk.files
      modifies disk, procs
      ensures disk.cwd == old(disk.cwd)
      ensures o != AlreadyStarted
      ensures kind.fork && !configFails ==> o == Raised(LaunchFailed) && layout.lockfile in disk.files
      ensures kind.fork && configFails ==> o == KilledItself && layout.lockfile in disk.files
      ensures !kind.fork ==> o == Raised(LaunchFailed) && layout.lockfile !in disk.files
    {
      var next := Open(kind, layout.name, flags, disk, procs);
      assert DocAt(disk.files, layout.lockfile) == map[];
      o := next.value.Start(worker, configFails);
    }

    /** `for command in reversed(self.exit_commands): command()`. */
    method RunExitCommands() returns (o: StopOutcome)
      modifies this
      ensures flags == old(flags) && Current() == old(Current()) && extra == old(extra)
      ensures exitCommands == old(exitCommands) && setupRuns == old(setupRuns)
      ensures ran == old(ran) + ExitOrder(exitCommands)
      ensures o == ProcessExited <==> ExitProcess in exitCommands
      ensures o != AlreadyStopped
    {
      var run := Reverse(exitCommands);
      ReverseMembers(exitCommands);
      var done: seq<ExitCommand> := [];
      o := Stopped;
      var j := 0;
      while j < |run| && o == Stopped
        invariant 0 <= j <= |run|
        invariant done == run[..j]
        invariant o == Stopped ==> ExitProcess !in done
        invariant o != Stopped ==> o == ProcessExited && j > 0 && run[j - 1] == ExitProcess && ExitProcess !in run[..j - 1]
      {
        done := done + [run[j]];
        if run[j] == ExitProcess {
          o := ProcessExited;
        }
        j := j + 1;
      }
      if o == ProcessExited {
        ThroughExitAt(run, j - 1);
      } else {
        assert run[..|run|] == run;
      }
      ran := ran + done;
    }
  }
}

=== FILE: Lockfile.dfy ===
/**
 * What the newest service entity keeps in its lock file: its fixed paths,
 * the settings its user-level operations change, and whatever other plain
 * attributes the configuration gave it; and how a new entity reads them
 * back.
 */
module Lockfile {
  import opened Common
  import opened Text
  import opened Paths
  import opened Persistence

  /**
   * The class-level facts an entity is made from: the subtype's name, the
   * root of the service directories (`_get_root()`), the system temporary
   * directory (`get_tempdir()`), the platform's path separator, and the
   * subtype's class attributes `fork`, `env` and `workdir`.
   */
  datatype Kind = Kind(className: string, root: string, tempRoot: string, sep: char,
                       fork: bool, env: seq<string>, workdir: string)

  /** The paths `__init__` derives from the kind and the service name. */
  datatype Layout = Layout(name: string, root: string, directory: string, tempdir: string,
                           logfile: string, lockfile: string)

  /** `directory` is the service's directory under the root; `tempdir` is `<temp>/<Class>s/<name>`. */
  function MakeLayout(kind: Kind, name: string): (l: Layout)
    ensures l.name == name && l.root == kind.root
  {
    var tempdir := PathJoin(PathJoin(kind.tempRoot, Title(kind.className) + "s"), NameToFilename(name, kind.sep));
    Layout(name, kind.root, PathJoin(kind.root, NameToFilename(name, kind.sep)), tempdir,
           PathJoin(tempdir, "log"), PathJoin(tempdir, "lock"))
  }

  /**
   * The service's log and lock files are two different files inside its
   * temporary directory, and its directory is named after it.
   */
  lemma LayoutFiles(kind: Kind, name: string)
    ensures var l := MakeLayout(kind, name);
      StartsWith(l.logfile, l.tempdir) && EndsWith(l.logfile, "log") &&
      StartsWith(l.lockfile, l.tempdir) && EndsWith(l.lockfile, "lock") &&
      l.logfile != l.lockfile &&
      EndsWith(l.directory, NameToFilename(name, kind.sep))
  {
    var l := MakeLayout(kind, name);
    FilesInTempdir(l.tempdir);
    PathJoinEnds(kind.root, NameToFilename(name, kind.sep));
  }

  lemma FilesInTempdir(t: string)
    ensures StartsWith(PathJoin(t, "log"), t) && EndsWith(PathJoin(t, "log"), "log")
    ensures StartsWith(PathJoin(t, "lock"), t) && EndsWith(PathJoin(t, "lock"), "lock")
    ensures PathJoin(t, "log") != PathJoin(t, "lock")
  {
    assert "log"[..1][0] == 'l' && "lock"[..1][0] == 'l';
    PathJoinRelative(t, "log");
    PathJoinRelative(t, "lock");
    assert |PathJoin(t, "log")| + 1 == |PathJoin(t, "lock")|;
  }

  /** The attributes user-level operations change and the lock file carries between processes. */
  datatype Settings = Settings(flags: map<string, string>, setup: bool, fork: bool,
                               env: seq<string>, workdir: string)

  /** The attribute names the model gives a type of their own; every other entry of a document is kept as it is. */
  const ModelledKeys: set<string> :=
    {"name", "ROOT", "directory", "tempdir", "logfile", "lockfile", "flags", "setup",
     "fork", "env", "workdir", "exit_commands", "attributes"}

  function EncodeStrings(xs: seq<string>): (j: Json)
    ensures j.JList? && |j.items| == |xs|
    ensures forall i :: 0 <= i < |xs| ==> j.items[i] == JStr(xs[i])
  {
    JList(seq(|xs|, i requires 0 <= i < |xs| => JStr(xs[i])))
  }

  /** A JSON list of strings, or nothing when the value has another shape. */
  function DecodeStrings(j: Json): (r: Option<seq<string>>)
    ensures r.Some? ==> j.JList? && |r.value| == |j.items|
    ensures r.Some? ==> forall i :: 0 <= i < |j.items| ==> j.items[i] == JStr(r.value[i])
  {
    if j.JList? && forall i :: 0 <= i < |j.items| ==> j.items[i].JStr? then
      Some(seq(|j.items|, i requires 0 <= i < |j.items| && j.items[i].JStr? => j.items[i].s))
    else None
  }

  lemma StringsRoundTrip(xs: seq<string>)
    ensures DecodeStrings(EncodeStrings(xs)) == Some(xs)
  {
    var j := EncodeStrings(xs);
    assert forall i :: 0 <= i < |j.items| ==> j.items[i].JStr?;
    assert DecodeStrings(j).Some?;
    var back := DecodeStrings(j).value;
    assert |back| == |xs|;
    assert forall i :: 0 <= i < |xs| ==> j.items[i] == JStr(back[i]) && back[i] == xs[i];
    assert back == xs;
  }

  function EncodeFlags(m: map<string, string>): (j: Json)
    ensures j.JObject? && j.fields.Keys == m.Keys
    ensures forall k :: k in m ==> j.fields[k] == JStr(m[k])
  {
    JObject(map k | k in m :: JStr(m[k]))
  }

  /** A JSON object of strings, or nothing when the value has another shape. */
  function DecodeFlags(j: Json): (r: Option<map<string, string>>)
    ensures r.Some? ==> j.JObject? && r.value.Keys == j.fields.Keys
    ensures r.Some? ==> forall k :: k in r.value ==> j.fields[k] == JStr(r.value[k])
  {
    if j.JObject? && forall k :: k in j.fields ==> j.fields[k].JStr? then
      Some(map k | k in j.fields :: j.fields[k].s)
    else None
  }

  lemma FlagsRoundTrip(m: map<string, string>)
    ensures DecodeFlags(EncodeFlags(m)) == Some(m)
  {
    var j := EncodeFlags(m);
    assert forall k :: k in j.fields ==> j.fields[k].JStr?;
    assert DecodeFlags(j).Some?;
    var back := DecodeFlags(j).value;
    assert back.Keys == m.Keys;
    assert forall k :: k in m ==> j.fields[k] == JStr(back[k]) && back[k] == m[k];
    assert back == m;
  }

  /**
   * What `dir(self)` lists, as the lock file sees it: the paths and the
   * settings as plain JSON, the exit commands and the attribute-name set
   * as values `json.dumps` refuses, and every other attribute as it is.
   */
  function Snapshot(layout: Layout, s: Settings, extra: map<string, Json>): (attrs: map<string, AttrValue>)
    ensures forall k :: k in extra && k !in ModelledKeys ==> k in attrs && attrs[k] == Plain(extra[k])
    ensures forall k :: k in attrs && k !in ModelledKeys ==> k in extra
  {
    map k | k in extra.Keys + ModelledKeys :: if k in ModelledKeys then Attribute(layout, s, k) else Plain(extra[k])
  }

  /** The value `getattr(self, k)` has for a modelled attribute name. */
  function Attribute(layout: Layout, s: Settings, k: string): AttrValue
  {
    if k == "name" then Plain(JStr(layout.name))
    else if k == "ROOT" then Plain(JStr(layout.root))
    else if k == "directory" then Plain(JStr(layout.directory))
    else if k == "tempdir" then Plain(JStr(layout.tempdir))
    else if k == "logfile" then Plain(JStr(layout.logfile))
    else if k == "lockfile" then Plain(JStr(layout.lockfile))
    else if k == "flags" then Plain(EncodeFlags(s.flags))
    else if k == "setup" then Plain(JBool(s.setup))
    else if k == "fork" then Plain(JBool(s.fork))
    else if k == "env" then Plain(EncodeStrings(s.env))
    else if k == "workdir" then Plain(JStr(s.workdir))
    else Unserializable
  }

  /**
   * The settings of an entity built over a document (`setattr` for every
   * key): each setting the document holds in its JSON shape replaces the
   * default; a setting it lacks, or holds in another shape, keeps the
   * default.
   */
  function Restore(doc: map<string, Json>, defaults: Settings): (s: Settings)
    ensures "flags" !in doc ==> s.flags == defaults.flags
    ensures "env" !in doc ==> s.env == defaults.env
    ensures "workdir" in doc && doc["workdir"].JStr? ==> s.workdir == doc["workdir"].s
    ensures "setup" in doc && doc["setup"].JBool? ==> s.setup == doc["setup"].b
    ensures "flags" in doc && DecodeFlags(doc["flags"]).Some? ==> s.flags == DecodeFlags(doc["flags"]).value
    ensures !("flags" in doc && DecodeFlags(doc["flags"]).Some?) ==> s.flags == defaults.flags
    ensures !("setup" in doc && doc["setup"].JBool?) ==> s.setup == defaults.setup
    ensures "fork" in doc && doc["fork"].JBool? ==> s.fork == doc["fork"].b
    ensures !("fork" in doc && doc["fork"].JBool?) ==> s.fork == defaults.fork
    ensures "env" in doc && DecodeStrings(doc["env"]).Some? ==> s.env == DecodeStrings(doc["env"]).value
    ensures !("env" in doc && DecodeStrings(doc["env"]).Some?) ==> s.env == defaults.env
    ensures !("workdir" in doc && doc["workdir"].JStr?) ==> s.workdir == defaults.workdir
  {
    Settings(
      if "flags" in doc && DecodeFlags(doc["flags"]).Some? then DecodeFlags(doc["flags"]).value else defaults.flags,
      if "setup" in doc && doc["setup"].JBool? then doc["setup"].b else defaults.setup,
      if "fork" in doc && doc["fork"].JBool? then doc["fork"].b else defaults.fork,
      if "env" in doc && DecodeStrings(doc["env"]).Some? then DecodeStrings(doc["env"]).value else defaults.env,
      if "workdir" in doc && doc["workdir"].JStr? then doc["workdir"].s else defaults.workdir)
  }

  /** The entries of a document that are not modelled settings or paths. */
  function Extra(doc: map<string, Json>): (extra: map<string, Json>)
    ensures forall k :: k in extra <==> k in doc && k !in ModelledKeys
    ensures forall k :: k in extra ==> extra[k] == doc[k]
  {
    map k | k in doc && k !in ModelledKeys :: doc[k]
  }

  /** A name `update_lockfile` writes: every name but the dunder ones. */
  predicate Storable(k: string)
  {
    !StartsWith(k, "__")
  }

  lemma SettingsKeysStorable()
    ensures forall k :: k in ModelledKeys ==> Storable(k)
  {
    forall k | k in ModelledKeys
      ensures Storable(k)
    {
      assert |k| >= 2 && k[0] != '_';
      assert k[..2][0] == k[0];
    }
  }

  lemma SnapshotSettings(layout: Layout, s: Settings, extra: map<string, Json>)
    ensures var attrs := Snapshot(layout, s, extra);
      attrs["flags"] == Plain(EncodeFlags(s.flags)) && attrs["setup"] == Plain(JBool(s.setup)) &&
      attrs["fork"] == Plain(JBool(s.fork)) && attrs["env"] == Plain(EncodeStrings(s.env)) &&
      attrs["workdir"] == Plain(JStr(s.workdir))
  {
  }

  /**
   * Writing an entity's state into any existing document and building a
   * new entity over the result gives back exactly the settings written,
   * whatever the new entity's defaults.
   */
  lemma SettingsRoundTrip(layout: Layout, s: Settings, extra: map<string, Json>,
                          data: map<string, Json>, defaults: Settings)
    ensures Restore(Save(data, Snapshot(layout, s, extra)), defaults) == s
  {
    var attrs := Snapshot(layout, s, extra);
    SnapshotSettings(layout, s, extra);
    SettingsKeysStorable();
    SavedValue(data, attrs, "flags");
    SavedValue(data, attrs, "setup");
    SavedValue(data, attrs, "fork");
    SavedValue(data, attrs, "env");
    SavedValue(data, attrs, "workdir");
    FlagsRoundTrip(s.flags);
    StringsRoundTrip(s.env);
  }

  lemma SavedValue(data: map<string, Json>, attrs: map<string, AttrValue>, k: string)
    requires k in attrs && attrs[k].Plain? && Storable(k)
    ensures k in Save(data, attrs) && Save(data, attrs)[k] == attrs[k].value
  {
  }

  /**
   * The other attributes written are read back as they were, on top of
   * those the document already held.
   */
  lemma ExtraRoundTrip(layout: Layout, s: Settings, extra: map<string, Json>, data: map<string, Json>)
    requires forall k :: k in extra ==> k !in ModelledKeys && Storable(k)
    ensures Extra(Save(data, Snapshot(layout, s, extra))) == Extra(data) + extra
  {
    ExtraOfSave(data, Snapshot(layout, s, extra), extra);
  }

  lemma ExtraOfSave(data: map<string, Json>, attrs: map<string, AttrValue>, extra: map<string, Json>)
    requires forall k :: k in extra ==> k !in ModelledKeys && Storable(k) && k in attrs && attrs[k] == Plain(extra[k])
    requires forall k :: k in attrs && k !in ModelledKeys ==> k in extra
    ensures Extra(Save(data, attrs)) == Extra(data) + extra
  {
    var left := Extra(Save(data, attrs));
    var right := Extra(data) + extra;
    assert left.Keys == right.Keys;
    forall k | k in left
      ensures left[k] == right[k]
    {
    }
  }
}

=== FILE: Paths.dfy ===
/**
 * Service names and file names, and the working directory that a service's
 * commands run in.
 */
module Paths {
  import opened Text

  /** `name.replace("/", os.sep)`: a hierarchical service name as a relative file name. */
  function NameToFilename(name: string, sep: char): (r: string)
    ensures |r| == |name|
    ensures sep == '/' ==> r == name
    ensures forall i :: 0 <= i < |name| ==> r[i] == (if name[i] == '/' then sep else name[i])
  {
    ReplaceChar(name, '/', sep)
  }

  /** `filename.replace(os.sep, "/")`: the service name of a relative file name. */
  function FilenameToName(filename: string, sep: char): (r: string)
    ensures |r| == |filename|
    ensures sep == '/' ==> r == filename
    ensures forall i :: 0 <= i < |filename| ==> r[i] == (if filename[i] == sep then '/' else filename[i])
  {
    ReplaceChar(filename, sep, '/')
  }

  /** A name survives the trip to a file name and back iff the platform separator is `/` or does not occur in it. */
  lemma NameRoundTrip(name: string, sep: char)
    ensures FilenameToName(NameToFilename(name, sep), sep) == name <==> sep == '/' || sep !in name
  {
    var back := FilenameToName(NameToFilename(name, sep), sep);
    if sep != '/' && sep in name {
      var i :| 0 <= i < |name| && name[i] == sep;
      assert back[i] == '/';
    } else if sep != '/' {
      assert forall i :: 0 <= i < |name| ==> back[i] == name[i];
    }
  }

  /** A file name survives the trip to a name and back iff the separator is `/` or the file name holds no `/`. */
  lemma FilenameRoundTrip(filename: string, sep: char)
    ensures NameToFilename(FilenameToName(filename, sep), sep) == filename <==> sep == '/' || '/' !in filename
  {
    var back := NameToFilename(FilenameToName(filename, sep), sep);
    if sep != '/' && '/' in filename {
      var i :| 0 <= i < |filename| && filename[i] == '/';
      assert back[i] == sep;
    } else if sep != '/' {
      assert forall i :: 0 <= i < |filename| ==> back[i] == filename[i];
    }
  }

  /** `s` holds a run of two or more `/`. */
  predicate HasDoubleSlash(s: string)
  {
    exists i :: 0 <= i < |s| - 1 && s[i] == '/' && s[i + 1] == '/'
  }

  /** `re.sub(r'(/)\1+', r'\1', s)`: every run of `/` becomes a single `/`. */
  function CollapseSlashes(s: string): (r: string)
    ensures |r| <= |s|
    ensures s != [] ==> r != [] && r[0] == s[0]
    ensures !HasDoubleSlash(r)
  {
    if |s| < 2 then s
    else if s[0] == '/' && s[1] == '/' then CollapseSlashes(s[1..])
    else
      var rest := CollapseSlashes(s[1..]);
      assert forall i :: 0 < i < |rest| ==> ([s[0]] + rest)[i + 1] == rest[i];
      [s[0]] + rest
  }

  /** A path without a run of slashes is left as it is; so collapsing twice is collapsing once. */
  lemma {:induction false} CollapseIdentity(s: string)
    requires !HasDoubleSlash(s)
    ensures CollapseSlashes(s) == s
  {
    if |s| >= 2 {
      forall i | 0 <= i < |s| - 2
        ensures !(s[1..][i] == '/' && s[1..][i + 1] == '/')
      {
        assert s[1..][i] == s[i + 1] && s[1..][i + 1] == s[i + 2];
      }
      CollapseIdentity(s[1..]);
      assert !(s[0] == '/' && s[1] == '/');
    }
  }

  lemma CollapseIdempotent(s: string)
    ensures CollapseSlashes(CollapseSlashes(s)) == CollapseSlashes(s)
  {
    CollapseIdentity(CollapseSlashes(s));
  }

  /**
   * The collapse read left to right: appending a character other than `/`
   * appends it, and appending `/` appends it unless the result already ends
   * in `/`.
   */
  lemma {:induction false} CollapseSnoc(s: string, c: char)
    ensures CollapseSlashes(s + [c]) == if c == '/' && s != [] && s[|s| - 1] == '/'
      then CollapseSlashes(s) else CollapseSlashes(s) + [c]
  {
    if |s| == 0 {
    } else if |s| == 1 {
      assert s + [c] == [s[0], c];
      assert [s[0], c][1..] == [c];
    } else {
      assert (s + [c])[1..] == s[1..] + [c];
      CollapseSnoc(s[1..], c);
    }
  }

  /** `Class.workdir(p)` of the older generation, as a value: the new working directory. */
  function LegacyWorkdir(current: string, p: string): (r: string)
    ensures !HasDoubleSlash(r)
    ensures StartsWith(p, "/") && p != "/" && EndsWith(p, "/") ==> r == CollapseSlashes(p[..|p| - 1])
    ensures StartsWith(p, "/") && !(p != "/" && EndsWith(p, "/")) ==> r == CollapseSlashes(p)
    ensures !StartsWith(p, "/") ==>
      r == CollapseSlashes(current + "/" + (if EndsWith(p, "/") then p[..|p| - 1] else p))
  {
    var stripped := if EndsWith(p, "/") && |p| > 1 then p[..|p| - 1] else p;
    var joined := if StartsWith(stripped, "/") then stripped else current + "/" + stripped;
    assert StartsWith(p, "/") && |p| > 1 ==> stripped[..1] == p[..1];
    CollapseSlashes(joined)
  }

  /** Collapsing a longer path extends the collapse of its beginning. */
  lemma {:induction false} CollapsePrefix(s: string, t: string)
    ensures StartsWith(CollapseSlashes(s + t), CollapseSlashes(s))
  {
    if t == [] {
      assert s + t == s;
    } else {
      var init := t[..|t| - 1];
      CollapsePrefix(s, init);
      assert s + t == (s + init) + [t[|t| - 1]];
      CollapseSnoc(s + init, t[|t| - 1]);
      var a := CollapseSlashes(s + init);
      var b := CollapseSlashes(s + t);
      var k := |CollapseSlashes(s)|;
      assert b == a || b == a + [t[|t| - 1]];
      assert b[..k] == a[..k];
    }
  }

  /** A relative step keeps the (collapsed) current directory as the beginning of the new one. */
  lemma RelativeWorkdirExtends(current: string, p: string)
    requires !StartsWith(p, "/")
    ensures StartsWith(LegacyWorkdir(current, p), CollapseSlashes(current))
  {
    var stripped := if EndsWith(p, "/") && |p| > 1 then p[..|p| - 1] else p;
    if |p| > 1 {
      assert stripped[..1] == p[..1];
    }
    assert current + "/" + stripped == current + ("/" + stripped);
    CollapsePrefix(current, "/" + stripped);
  }
}

=== FILE: Persistence.dfy ===
/**
 * The lock file's JSON document and how a service entity's attributes are
 * written to it (`update_lockfile`) and read back (`__init__`).
 */
module Persistence {
  import opened Common
  import opened Text

  datatype Json =
    | JNull
    | JBool(b: bool)
    | JInt(i: int)
    | JStr(s: string)
    | JList(items: seq<Json>)
    | JObject(fields: map<string, Json>)

  /** What `getattr(self, attr)` yields for one name listed by `dir(self)`. */
  datatype AttrValue = Plain(value: Json) | Callable | Unserializable

  datatype SaveError = NameError

  /** An attribute the lock file is meant to keep: not callable, not a dunder name, and JSON-serialisable. */
  predicate Persistable(name: string, v: AttrValue)
  {
    v.Plain? && !StartsWith(name, "__")
  }

  /**
   * The attribute loop of `update_lockfile` as written: its skip condition
   * ends in `or attr`, which every non-empty name satisfies, so the document
   * goes back unchanged. Only a non-callable attribute named `""` gets past
   * it, to `json.dumps(x)` with `x` undefined: a `NameError` nothing catches.
   */
  function SaveAsWritten(data: map<string, Json>, attrs: map<string, AttrValue>): (r: Result<map<string, Json>, SaveError>)
    ensures r.Ok? ==> r.value == data
    ensures r.Err? <==> "" in attrs && !attrs[""].Callable?
  {
    if "" in attrs && !attrs[""].Callable? then Err(NameError) else Ok(data)
  }

  /**
   * `update_lockfile` as intended: every persistable attribute is stored
   * under its name, over whatever the document held; other entries stay.
   */
  function Save(data: map<string, Json>, attrs: map<string, AttrValue>): (r: map<string, Json>)
    ensures forall a :: a in attrs && Persistable(a, attrs[a]) ==> a in r && r[a] == attrs[a].value
    ensures forall a :: a in data && !(a in attrs && Persistable(a, attrs[a])) ==> a in r && r[a] == data[a]
    ensures forall a :: a in r ==> a in data || (a in attrs && Persistable(a, attrs[a]))
  {
    map a | a in data.Keys + attrs.Keys && (a in data || Persistable(a, attrs[a]))
      :: if a in attrs && Persistable(a, attrs[a]) then attrs[a].value else data[a]
  }

  /** `for key in data: setattr(self, key, data[key])`: the attributes after loading a document. */
  function Load(doc: map<string, Json>, attrs: map<string, AttrValue>): (r: map<string, AttrValue>)
    ensures forall a :: a in doc ==> a in r && r[a] == Plain(doc[a])
    ensures forall a :: a in attrs && a !in doc ==> a in r && r[a] == attrs[a]
    ensures r.Keys == attrs.Keys + doc.Keys
  {
    map a | a in attrs.Keys + doc.Keys :: if a in doc then Plain(doc[a]) else attrs[a]
  }

  /** Saving then loading restores every persistable attribute, whatever the fresh entity held. */
  lemma SaveLoadRoundTrip(data: map<string, Json>, attrs: map<string, AttrValue>, initial: map<string, AttrValue>, a: string)
    requires a in attrs && Persistable(a, attrs[a])
    ensures a in Load(Save(data, attrs), initial) && Load(Save(data, attrs), initial)[a] == attrs[a]
  {
  }

  /** Saving twice with the same attributes is saving once. */
  lemma SaveIdempotent(data: map<string, Json>, attrs: map<string, AttrValue>)
    ensures Save(Save(data, attrs), attrs) == Save(data, attrs)
  {
    var once := Save(data, attrs);
    var twice := Save(once, attrs);
    assert twice.Keys == once.Keys;
    forall a | a in once
      ensures twice[a] == once[a]
    {
    }
  }

  /**
   * As written, nothing survives: an entity with a working directory saves a
   * document without it, and a fresh entity loading it does not get it back.
   */
  lemma AsWrittenLosesAttributes(data: map<string, Json>, attrs: map<string, AttrValue>)
    requires data == map[]
    requires attrs == map["workdir" := Plain(JStr("/srv"))]
    ensures SaveAsWritten(data, attrs) == Ok(map[])
    ensures "workdir" !in Load(SaveAsWritten(data, attrs).value, map[])
    ensures "workdir" in Load(Save(data, attrs), map[])
  {
    assert "" !in attrs;
    assert "workdir"[..2] == "wo";
    assert Persistable("workdir", attrs["workdir"]);
  }
}

=== FILE: QuoteSplit.dfy ===
/**
 * The quote-aware splitter `split_string_by_char` (and `split_by_char`).
 *
 * The source splits with `re.split` on the pattern
 * `((?:[^<sep>"']|"[^"]*"|'[^']*')+)`, whose single capture group makes
 * `re.split` return every gap between two matches AND every match, in
 * order, and then drops the pieces equal to `""` or to the separator alone.
 *
 * A match is a maximal run of "atoms"; an atom is either one character that
 * is neither the separator nor a quote, or a complete quoted segment
 * (a quote, the characters up to the next identical quote, that quote).
 * The model spells out that matcher on positions of the string.
 */
module QuoteSplit {
  import opened Common
  import opened Text

  predicate IsQuote(c: char) { c == '"' || c == '\'' }

  /**
   * A separator that `\<sep>` inside a character class denotes literally:
   * for an ASCII letter or digit the escape means something else to `re`.
   */
  predicate LiteralSeparator(sep: char)
  {
    !IsAsciiLetter(sep) && !('0' <= sep <= '9')
  }

  /** The first index at or after `i` that holds `c`. */
  function NextIndex(s: string, c: char, i: nat): (r: Option<nat>)
    requires i <= |s|
    ensures r.Some? ==> i <= r.value < |s| && s[r.value] == c
    ensures r.Some? ==> forall k :: i <= k < r.value ==> s[k] != c
    ensures r.None? ==> forall k :: i <= k < |s| ==> s[k] != c
    decreases |s| - i
  {
    if i == |s| then None
    else if s[i] == c then Some(i)
    else NextIndex(s, c, i + 1)
  }

  /** The end of the atom that starts at `i`, or `i` itself when no atom starts there. */
  function AtomEnd(s: string, sep: char, i: nat): (e: nat)
    requires i < |s|
    ensures e == i || i < e <= |s|
    ensures e == i <==> (s[i] == sep && !IsQuote(s[i])) || (IsQuote(s[i]) && NextIndex(s, s[i], i + 1).None?)
  {
    if IsQuote(s[i]) then
      match NextIndex(s, s[i], i + 1)
      case Some(j) => j + 1
      case None => i
    else if s[i] != sep then i + 1
    else i
  }

  /** The end of the match that starts at `i`: atoms are taken while one starts. */
  function TokenEnd(s: string, sep: char, i: nat): (e: nat)
    requires i <= |s|
    ensures i <= e <= |s|
    ensures e == i <==> i == |s| || AtomEnd(s, sep, i) == i
    ensures e < |s| ==> AtomEnd(s, sep, e) == e
    decreases |s| - i
  {
    if i == |s| || AtomEnd(s, sep, i) == i then i
    else TokenEnd(s, sep, AtomEnd(s, sep, i))
  }

  /** Where `re.search` finds the next match when it starts looking at `i` (`|s|`: none). */
  function MatchStart(s: string, sep: char, i: nat): (p: nat)
    requires i <= |s|
    ensures i <= p <= |s|
    ensures p < |s| ==> AtomEnd(s, sep, p) > p
    ensures forall k :: i <= k < p ==> AtomEnd(s, sep, k) == k
    decreases |s| - i
  {
    if i == |s| || AtomEnd(s, sep, i) > i then i else MatchStart(s, sep, i + 1)
  }

  /** `re.split(pattern, s[i..])`: gap, match, gap, match, ..., gap. */
  function PiecesFrom(s: string, sep: char, i: nat): (r: seq<string>)
    requires i <= |s|
    ensures |r| % 2 == 1
    decreases |s| - i
  {
    var p := MatchStart(s, sep, i);
    if p == |s| then [s[i..]]
    else
      var e := TokenEnd(s, sep, p);
      [s[i..p], s[p..e]] + PiecesFrom(s, sep, e)
  }

  function Pieces(s: string, sep: char): seq<string>
  {
    PiecesFrom(s, sep, 0)
  }

  /** The positions where `re.split` cuts `s[i..]`: piece `k` runs from `c[k]` to `c[k + 1]`. */
  function Cuts(s: string, sep: char, i: nat): (c: seq<nat>)
    requires i <= |s|
    ensures |c| == |PiecesFrom(s, sep, i)| + 1
    ensures c[0] == i
    decreases |s| - i
  {
    var p := MatchStart(s, sep, i);
    if p == |s| then [i, |s|]
    else [i, p] + Cuts(s, sep, TokenEnd(s, sep, p))
  }

  /** Where the matcher looks next after `i`: past the atom that starts there, or one character on. */
  function Step(s: string, sep: char, i: nat): (j: nat)
    requires i < |s|
    ensures i < j <= |s|
  {
    if AtomEnd(s, sep, i) == i then i + 1 else AtomEnd(s, sep, i)
  }

  /** Scanning from `i`, the matcher lands on `q`: an atom starting at `q` is read as one. */
  predicate Reaches(s: string, sep: char, i: nat, q: nat)
    requires i <= q <= |s|
    decreases q - i
  {
    q == i || (Step(s, sep, i) <= q && Reaches(s, sep, Step(s, sep, i), q))
  }

  /**
   * Every character of `s[a..b]` is the separator, or a quote with no
   * identical quote anywhere after it in the input.
   */
  predicate GapWithin(s: string, sep: char, a: nat, b: nat)
    requires a <= b <= |s|
  {
    forall m :: a <= m < b ==> s[m] == sep || (IsQuote(s[m]) && s[m] !in s[m + 1..])
  }

  /** The comprehension `[_ for _ in pieces if _ not in ['', sep]]`. */
  function Keep(pieces: seq<string>, sep: char): (r: seq<string>)
    ensures forall k :: 0 <= k < |r| ==> r[k] != "" && r[k] != [sep]
  {
    if pieces == [] then []
    else if pieces[0] == "" || pieces[0] == [sep] then Keep(pieces[1..], sep)
    else [pieces[0]] + Keep(pieces[1..], sep)
  }

  /** The filter keeps exactly the pieces that are neither empty nor the separator alone. */
  lemma {:induction false} KeepMembers(pieces: seq<string>, sep: char)
    ensures forall x :: x in Keep(pieces, sep) <==> x in pieces && x != "" && x != [sep]
  {
    if pieces != [] {
      KeepMembers(pieces[1..], sep);
      assert pieces == [pieces[0]] + pieces[1..];
    }
  }

  /** `split_string_by_char(s, sep)`. */
  function SplitByChar(s: string, sep: char): (r: seq<string>)
    requires LiteralSeparator(sep)
    ensures forall k :: 0 <= k < |r| ==> r[k] != "" && r[k] != [sep]
  {
    Keep(Pieces(s, sep), sep)
  }

  /** A match of the pattern, on its own: atoms from its first character to its last. */
  predicate IsToken(t: string, sep: char)
  {
    t != [] && TokenEnd(t, sep, 0) == |t|
  }

  /** A gap between matches: every character is the separator or a quote never closed later. */
  predicate IsGap(g: string, sep: char)
  {
    forall k :: 0 <= k < |g| ==> g[k] == sep || (IsQuote(g[k]) && g[k] !in g[k + 1..])
  }

  function Concat(xs: seq<string>): string
  {
    if xs == [] then "" else xs[0] + Concat(xs[1..])
  }

  lemma {:induction false} ConcatAppend(xs: seq<string>, ys: seq<string>)
    ensures Concat(xs + ys) == Concat(xs) + Concat(ys)
  {
    if xs != [] {
      assert (xs + ys)[1..] == xs[1..] + ys;
      ConcatAppend(xs[1..], ys);
    } else {
      assert xs + ys == ys;
    }
  }

  lemma ConcatPair(a: string, b: string, rest: seq<string>)
    ensures Concat([a, b] + rest) == a + b + Concat(rest)
  {
    assert ([a, b] + rest)[1..] == [b] + rest;
    assert ([b] + rest)[1..] == rest;
  }

  lemma SliceSplit(s: string, i: nat, p: nat, e: nat)
    requires i <= p <= e <= |s|
    ensures s[i..] == s[i..p] + s[p..e] + s[e..]
  {
  }

  /** Splitting loses nothing: the pieces of `re.split` put back together give the input. */
  lemma {:induction false} PiecesConcat(s: string, sep: char, i: nat)
    requires i <= |s|
    ensures Concat(PiecesFrom(s, sep, i)) == s[i..]
    decreases |s| - i
  {
    var p := MatchStart(s, sep, i);
    if p == |s| {
      assert Concat([s[i..]]) == s[i..] + Concat([]);
    } else {
      var e := TokenEnd(s, sep, p);
      var rest := PiecesFrom(s, sep, e);
      assert PiecesFrom(s, sep, i) == [s[i..p], s[p..e]] + rest;
      PiecesConcat(s, sep, e);
      ConcatPair(s[i..p], s[p..e], rest);
      SliceSplit(s, i, p, e);
    }
  }

  /** An atom read inside a slice that contains it ends where it ends in the whole string. */
  lemma AtomEndInSlice(s: string, sep: char, p: nat, e: nat, q: nat)
    requires p <= q < e <= |s|
    requires AtomEnd(s, sep, q) <= e
    ensures AtomEnd(s[p..e], sep, q - p) == (if AtomEnd(s, sep, q) == q then q - p else AtomEnd(s, sep, q) - p)
  {
    var u := s[p..e];
    assert u[q - p] == s[q];
    if IsQuote(s[q]) {
      var c := s[q];
      match NextIndex(s, c, q + 1)
      case Some(j) =>
        assert u[j - p] == c;
        assert forall k :: q + 1 - p <= k < j - p ==> u[k] == s[k + p];
      case None =>
        assert forall k :: q + 1 - p <= k < |u| ==> u[k] == s[k + p];
    }
  }

  lemma {:induction false} TokenInSlice(s: string, sep: char, p: nat, e: nat, q: nat)
    requires p <= q <= e <= |s|
    requires TokenEnd(s, sep, q) == e
    ensures TokenEnd(s[p..e], sep, q - p) == e - p
    decreases e - q
  {
    if q < e {
      var a := AtomEnd(s, sep, q);
      AtomEndInSlice(s, sep, p, e, q);
      TokenInSlice(s, sep, p, e, a);
    }
  }

  lemma GapInSlice(s: string, sep: char, i: nat, p: nat)
    requires i <= p <= |s|
    requires forall k :: i <= k < p ==> AtomEnd(s, sep, k) == k
    ensures IsGap(s[i..p], sep)
  {
    var g := s[i..p];
    forall k | 0 <= k < |g|
      ensures g[k] == sep || (IsQuote(g[k]) && g[k] !in g[k + 1..])
    {
      assert g[k] == s[i + k];
      assert AtomEnd(s, sep, i + k) == i + k;
      if IsQuote(g[k]) {
        assert forall m :: k + 1 <= m < |g| ==> g[m] == s[i + m];
      }
    }
  }

  /** Gaps at even positions, matches at odd positions. */
  predicate Alternates(r: seq<string>, sep: char)
  {
    forall k :: 0 <= k < |r| ==> if k % 2 == 0 then IsGap(r[k], sep) else IsToken(r[k], sep)
  }

  lemma AlternatesPrepend(g: string, t: string, rest: seq<string>, sep: char)
    requires IsGap(g, sep) && IsToken(t, sep) && Alternates(rest, sep)
    ensures Alternates([g, t] + rest, sep)
  {
    var r := [g, t] + rest;
    forall k | 0 <= k < |r|
      ensures if k % 2 == 0 then IsGap(r[k], sep) else IsToken(r[k], sep)
    {
      if k >= 2 {
        assert r[k] == rest[k - 2];
      }
    }
  }

  /** Where no atom starts, each character is the separator or a quote never closed later in the input. */
  lemma GapChars(s: string, sep: char, i: nat, p: nat)
    requires i <= p <= |s|
    requires forall k :: i <= k < p ==> AtomEnd(s, sep, k) == k
    ensures GapWithin(s, sep, i, p)
  {
    forall m | i <= m < p
      ensures s[m] == sep || (IsQuote(s[m]) && s[m] !in s[m + 1..])
    {
      assert AtomEnd(s, sep, m) == m;
    }
  }

  /** The cuts `c` read as gaps at even positions of the input. */
  predicate GapsAt(s: string, sep: char, c: seq<nat>)
  {
    forall k :: 0 <= k < |c| - 1 && k % 2 == 0 ==> c[k] <= c[k + 1] <= |s| && GapWithin(s, sep, c[k], c[k + 1])
  }

  /** The cuts `c` read as maximal runs of atoms at odd positions of the input. */
  predicate MatchesAt(s: string, sep: char, c: seq<nat>)
  {
    forall k :: 0 <= k < |c| - 1 && k % 2 == 1 ==> c[k] < c[k + 1] <= |s| && TokenEnd(s, sep, c[k]) == c[k + 1]
  }

  lemma GapsPrepend(s: string, sep: char, i: nat, p: nat, c: seq<nat>)
    requires i <= p <= |s| && GapWithin(s, sep, i, p) && GapsAt(s, sep, c)
    ensures GapsAt(s, sep, [i, p] + c)
  {
    var d := [i, p] + c;
    forall k | 0 <= k < |d| - 1 && k % 2 == 0
      ensures d[k] <= d[k + 1] <= |s| && GapWithin(s, sep, d[k], d[k + 1])
    {
      if k >= 2 {
        assert d[k] == c[k - 2] && d[k + 1] == c[k - 1];
      }
    }
  }

  lemma MatchesPrepend(s: string, sep: char, i: nat, p: nat, c: seq<nat>)
    requires p < |s| && c != [] && p < c[0] <= |s| && TokenEnd(s, sep, p) == c[0] && MatchesAt(s, sep, c)
    ensures MatchesAt(s, sep, [i, p] + c)
  {
    var d := [i, p] + c;
    forall k | 0 <= k < |d| - 1 && k % 2 == 1
      ensures d[k] < d[k + 1] <= |s| && TokenEnd(s, sep, d[k]) == d[k + 1]
    {
      if k >= 2 {
        assert d[k] == c[k - 2] && d[k + 1] == c[k - 1];
      }
    }
  }

  /**
   * The pieces alternate, gaps at even positions and matches at odd ones,
   * each read on its own and each read in place in the input: a gap holds
   * only separators and quotes never closed later in the input, and a
   * match is a maximal run of atoms from its cut to the next.
   */
  lemma {:induction false} PiecesAlternate(s: string, sep: char, i: nat)
    requires i <= |s|
    ensures Alternates(PiecesFrom(s, sep, i), sep)
    ensures GapsAt(s, sep, Cuts(s, sep, i)) && MatchesAt(s, sep, Cuts(s, sep, i))
    decreases |s| - i
  {
    var p := MatchStart(s, sep, i);
    GapInSlice(s, sep, i, p);
    GapChars(s, sep, i, p);
    if p == |s| {
      assert s[i..p] == s[i..];
      assert Cuts(s, sep, i) == [i, |s|];
    } else {
      var e := TokenEnd(s, sep, p);
      TokenInSlice(s, sep, p, e, p);
      assert s[p..e] != [];
      PiecesAlternate(s, sep, e);
      AlternatesPrepend(s[i..p], s[p..e], PiecesFrom(s, sep, e), sep);
      GapsPrepend(s, sep, i, p, Cuts(s, sep, e));
      MatchesPrepend(s, sep, i, p, Cuts(s, sep, e));
    }
  }

  /** Piece `k` of `ps` is the input from cut `c[k]` to cut `c[k + 1]`. */
  predicate SliceAt(s: string, c: seq<nat>, ps: seq<string>, k: nat)
    requires k < |ps| && |c| == |ps| + 1
  {
    c[k] <= c[k + 1] <= |s| && ps[k] == s[c[k]..c[k + 1]]
  }

  /** The cuts `c` are in order, from `i` to the end of `s`, and piece `k` of `ps` runs from `c[k]` to `c[k + 1]`. */
  predicate SlicesAt(s: string, c: seq<nat>, ps: seq<string>)
  {
    |c| == |ps| + 1 && c[|c| - 1] == |s| && forall k :: 0 <= k < |ps| ==> SliceAt(s, c, ps, k)
  }

  lemma SlicesPrepend(s: string, i: nat, p: nat, e: nat, c: seq<nat>, ps: seq<string>, d: seq<nat>, qs: seq<string>)
    requires i <= p <= e <= |s| && c != [] && c[0] == e && SlicesAt(s, c, ps)
    requires d == [i, p] + c && qs == [s[i..p], s[p..e]] + ps
    ensures SlicesAt(s, d, qs)
  {
    forall k | 0 <= k < |qs|
      ensures SliceAt(s, d, qs, k)
    {
      if k >= 2 {
        assert SliceAt(s, c, ps, k - 2);
        assert d[k] == c[k - 2] && d[k + 1] == c[k - 1] && qs[k] == ps[k - 2];
      }
    }
    assert d[|d| - 1] == c[|c| - 1];
  }

  /** Piece `k` is the slice of the input between the `k`-th cut and the next. */
  lemma {:induction false} CutsSlices(s: string, sep: char, i: nat)
    requires i <= |s|
    ensures SlicesAt(s, Cuts(s, sep, i), PiecesFrom(s, sep, i))
    decreases |s| - i
  {
    var p := MatchStart(s, sep, i);
    if p == |s| {
      assert Cuts(s, sep, i) == [i, |s|] && PiecesFrom(s, sep, i) == [s[i..]];
    } else {
      var e := TokenEnd(s, sep, p);
      CutsSlices(s, sep, e);
      assert Cuts(s, sep, i) == [i, p] + Cuts(s, sep, e);
      assert PiecesFrom(s, sep, i) == [s[i..p], s[p..e]] + PiecesFrom(s, sep, e);
      SlicesPrepend(s, i, p, e, Cuts(s, sep, e), PiecesFrom(s, sep, e), Cuts(s, sep, i), PiecesFrom(s, sep, i));
    }
  }

  /** A position the scan lands on lies in the gap before the next match, or the scan lands on that match's start too. */
  lemma {:induction false} GapReaches(s: string, sep: char, i: nat, q: nat)
    requires i <= q <= |s| && Reaches(s, sep, i, q)
    ensures q < MatchStart(s, sep, i) || Reaches(s, sep, MatchStart(s, sep, i), q)
    decreases q - i
  {
    var p := MatchStart(s, sep, i);
    if q != i && p != i {
      assert AtomEnd(s, sep, i) == i && Step(s, sep, i) == i + 1;
      assert MatchStart(s, sep, i + 1) == p;
      GapReaches(s, sep, i + 1, q);
    }
  }

  /**
   * Within a match, the scan lands only on atom starts, each atom ending
   * inside the match; past the match it goes on from the match's end.
   */
  lemma {:induction false} TokenReaches(s: string, sep: char, a: nat, q: nat)
    requires a <= q <= |s| && Reaches(s, sep, a, q)
    ensures q < TokenEnd(s, sep, a) ==> q < |s| && q < AtomEnd(s, sep, q) <= TokenEnd(s, sep, a)
    ensures TokenEnd(s, sep, a) <= q ==> Reaches(s, sep, TokenEnd(s, sep, a), q)
    decreases q - a
  {
    if q == a {
      if q < TokenEnd(s, sep, a) {
        assert TokenEnd(s, sep, a) == TokenEnd(s, sep, AtomEnd(s, sep, a));
      }
    } else if AtomEnd(s, sep, a) != a {
      var next := AtomEnd(s, sep, a);
      assert Step(s, sep, a) == next;
      assert TokenEnd(s, sep, a) == TokenEnd(s, sep, next);
      TokenReaches(s, sep, next, q);
    }
  }

  /** Some match, between cuts `c[k]` and `c[k + 1]` for an odd `k`, covers positions `q` through `j`. */
  predicate InOneMatch(c: seq<nat>, q: nat, j: nat)
  {
    exists k :: 0 <= k < |c| - 1 && k % 2 == 1 && c[k] <= q && j < c[k + 1]
  }

  lemma InOneMatchPrepend(i: nat, p: nat, c: seq<nat>, q: nat, j: nat)
    requires InOneMatch(c, q, j)
    ensures InOneMatch([i, p] + c, q, j)
  {
    var k :| 0 <= k < |c| - 1 && k % 2 == 1 && c[k] <= q && j < c[k + 1];
    var d := [i, p] + c;
    assert d[k + 2] == c[k] && d[k + 3] == c[k + 1];
  }

  /**
   * A quote the scan reads as opening a segment, and that is closed later,
   * lies in one match together with its closing quote: the split never
   * cuts a closed quoted segment.
   */
  lemma {:induction false} QuotedSegmentInOneMatch(s: string, sep: char, i: nat, q: nat)
    requires i <= q < |s| && Reaches(s, sep, i, q)
    requires IsQuote(s[q]) && NextIndex(s, s[q], q + 1).Some?
    ensures InOneMatch(Cuts(s, sep, i), q, NextIndex(s, s[q], q + 1).value)
    decreases |s| - i
  {
    var j := NextIndex(s, s[q], q + 1).value;
    var p := MatchStart(s, sep, i);
    assert AtomEnd(s, sep, q) == j + 1;
    assert p <= q;
    GapReaches(s, sep, i, q);
    var e := TokenEnd(s, sep, p);
    TokenReaches(s, sep, p, q);
    assert Cuts(s, sep, i) == [i, p] + Cuts(s, sep, e);
    if q < e {
      var c := Cuts(s, sep, i);
      assert c[1] == p && c[2] == e;
    } else {
      QuotedSegmentInOneMatch(s, sep, e, q);
      InOneMatchPrepend(i, p, Cuts(s, sep, e), q, j);
    }
  }

  /** A match covering `q` through `j`, when every match is kept, puts a slice of the input covering them among the kept elements. */
  lemma KeptSlice(s: string, c: seq<nat>, ps: seq<string>, kept: seq<string>, q: nat, j: nat)
    requires q <= j && SlicesAt(s, c, ps) && InOneMatch(c, q, j)
    requires forall k :: 0 <= k < |ps| && k % 2 == 1 ==> ps[k] in kept
    ensures exists a, b :: 0 <= a <= q && j < b <= |s| && s[a..b] in kept
  {
    var k :| 0 <= k < |c| - 1 && k % 2 == 1 && c[k] <= q && j < c[k + 1];
    assert SliceAt(s, c, ps, k);
  }

  /** The quoted segment at `q` lies inside one element of the split, a slice of the input. */
  lemma QuotedSegmentKept(s: string, sep: char, q: nat)
    requires LiteralSeparator(sep)
    requires q < |s| && Reaches(s, sep, 0, q) && IsQuote(s[q]) && NextIndex(s, s[q], q + 1).Some?
    requires forall k :: 0 <= k < |Pieces(s, sep)| && k % 2 == 1 ==> Pieces(s, sep)[k] in SplitByChar(s, sep)
    ensures exists a, b :: 0 <= a <= q && NextIndex(s, s[q], q + 1).value < b <= |s| && s[a..b] in SplitByChar(s, sep)
  {
    QuotedSegmentInOneMatch(s, sep, 0, q);
    CutsSlices(s, sep, 0);
    KeptSlice(s, Cuts(s, sep, 0), Pieces(s, sep), SplitByChar(s, sep), q, NextIndex(s, s[q], q + 1).value);
  }

  /**
   * What `split_string_by_char` returns: the input's matches, and only those
   * gaps that are more than one lone separator (a doubled separator or an
   * unclosed quote survives), in their order of appearance. A quoted
   * segment the scan opens and the input closes is never cut: it lies, with
   * its closing quote, inside one element, which is a slice of the input.
   */
  lemma SplitPiecesCharacterised(s: string, sep: char)
    requires LiteralSeparator(sep)
    ensures Concat(Pieces(s, sep)) == s
    ensures forall k :: 0 <= k < |Pieces(s, sep)| && k % 2 == 1 ==> Pieces(s, sep)[k] in SplitByChar(s, sep)
    ensures forall x :: x in SplitByChar(s, sep) ==> IsToken(x, sep) || (IsGap(x, sep) && x != "" && x != [sep])
    ensures forall q :: 0 <= q < |s| && Reaches(s, sep, 0, q) && IsQuote(s[q]) && NextIndex(s, s[q], q + 1).Some? ==>
      exists a, b :: 0 <= a <= q && NextIndex(s, s[q], q + 1).value < b <= |s| && s[a..b] in SplitByChar(s, sep)
  {
    PiecesConcat(s, sep, 0);
    PiecesAlternate(s, sep, 0);
    KeepMembers(Pieces(s, sep), sep);
    var ps := Pieces(s, sep);
    forall k | 0 <= k < |ps| && k % 2 == 1
      ensures ps[k] in SplitByChar(s, sep)
    {
      assert IsToken(ps[k], sep);
    }
    forall x | x in SplitByChar(s, sep)
      ensures IsToken(x, sep) || (IsGap(x, sep) && x != "" && x != [sep])
    {
      var k :| 0 <= k < |ps| && ps[k] == x;
    }
    forall q | 0 <= q < |s| && Reaches(s, sep, 0, q) && IsQuote(s[q]) && NextIndex(s, s[q], q + 1).Some?
      ensures exists a, b :: 0 <= a <= q && NextIndex(s, s[q], q + 1).value < b <= |s| && s[a..b] in SplitByChar(s, sep)
    {
      QuotedSegmentKept(s, sep, q);
    }
  }

  lemma DoubledSeparatorSurvives()
    ensures SplitByChar("a::b", ':') == ["a", "::", "b"]
  {
    var s := "a::b";
    assert MatchStart(s, ':', 4) == 4;
    assert s[4..] == "";
    assert PiecesFrom(s, ':', 4) == [""];
    assert MatchStart(s, ':', 1) == 3;
    assert TokenEnd(s, ':', 3) == 4;
    assert s[1..3] == "::" && s[3..4] == "b";
    assert PiecesFrom(s, ':', 1) == ["::", "b", ""];
    assert MatchStart(s, ':', 0) == 0;
    assert TokenEnd(s, ':', 0) == 1;
    assert s[0..0] == "" && s[0..1] == "a";
    assert Pieces(s, ':') == ["", "a", "::", "b", ""];
  }

  lemma QuotedExamplePieces(s: string)
    requires s == "a:'b:c':d"
    ensures Pieces(s, ':') == ["", "a", ":", "'b:c'", ":", "d", ""]
  {
    assert s[9..] == "";
    assert MatchStart(s, ':', 9) == 9;
    assert PiecesFrom(s, ':', 9) == [""];
    assert MatchStart(s, ':', 7) == 8;
    assert TokenEnd(s, ':', 8) == 9;
    assert s[7..8] == ":" && s[8..9] == "d";
    assert PiecesFrom(s, ':', 7) == [":", "d", ""];
    assert NextIndex(s, '\'', 6) == Some(6);
    assert NextIndex(s, '\'', 4) == Some(6);
    assert NextIndex(s, '\'', 3) == Some(6);
    assert AtomEnd(s, ':', 2) == 7;
    assert MatchStart(s, ':', 1) == 2;
    assert TokenEnd(s, ':', 7) == 7;
    assert TokenEnd(s, ':', 2) == 7;
    assert s[1..2] == ":" && s[2..7] == "'b:c'";
    assert PiecesFrom(s, ':', 1) == [":", "'b:c'", ":", "d", ""];
    assert MatchStart(s, ':', 0) == 0;
    assert TokenEnd(s, ':', 0) == 1;
    assert s[0..0] == "" && s[0..1] == "a";
  }

  lemma QuotedSegmentKeptWhole(s: string)
    requires s == "a:'b:c':d"
    ensures SplitByChar(s, ':') == ["a", "'b:c'", "d"]
  {
    QuotedExamplePieces(s);
    var ps: seq<string> := ["", "a", ":", "'b:c'", ":", "d", ""];
    assert Keep(ps, ':') == ["a", "'b:c'", "d"] by {
      assert Keep(ps[6..], ':') == [];
      assert Keep(ps[5..], ':') == ["d"];
      assert Keep(ps[4..], ':') == ["d"];
      assert ps[3] != "" && ps[3] != [':'];
      assert Keep(ps[3..], ':') == ["'b:c'", "d"];
      assert Keep(ps[2..], ':') == ["'b:c'", "d"];
      assert Keep(ps[1..], ':') == ["a", "'b:c'", "d"];
    }
  }
}

=== FILE: Roots.dfy ===
/**
 * Where the services of one type live, and which of them exist:
 * `get_value` and `get_root_directory` (older module), `default_value`
 * (oldest module), `_get_root` and `get_all_items` (newest module).
 * The environment is a parameter (a map from variable to value).
 */
module Roots {
  import opened Common
  import opened Text
  import opened Sorting

  /** Python truthiness of a string or list argument that may be `None`. */
  predicate Falsy<T>(variable: Option<seq<T>>)
  {
    variable.None? || variable.value == []
  }

  /** `get_value(variable, default)`: the variable itself unless it is falsy. */
  function GetValue<T>(variable: Option<seq<T>>, default: seq<T>): (r: seq<T>)
    ensures Falsy(variable) ==> r == default
    ensures !Falsy(variable) ==> r == variable.value && r != []
  {
    if Falsy(variable) then default else variable.value
  }

  /** `default_value(variable, value, default)`: the third argument is the fallback, the second the normal result. */
  function DefaultValue<T, U>(variable: Option<seq<T>>, value: U, default: U): (r: U)
    ensures Falsy(variable) ==> r == default
    ensures !Falsy(variable) ==> r == value
  {
    if Falsy(variable) then default else value
  }

  /** The oldest helper generalises the older one: passing the variable itself as the value gives `get_value`. */
  lemma DefaultValueGeneralisesGetValue<T>(variable: Option<seq<T>>, default: seq<T>)
    ensures !Falsy(variable) ==> DefaultValue(variable, variable.value, default) == GetValue(variable, default)
    ensures Falsy(variable) ==> DefaultValue(variable, [], default) == GetValue(variable, default)
  {
  }

  /** `s.rstrip('/')`: the longest beginning of `s` that does not end in `/`; only `/` characters go. */
  function StripTrailingSlashes(s: string): (r: string)
    ensures r == [] || r[|r| - 1] != '/'
    ensures |r| <= |s| && r == s[..|r|]
    ensures forall k :: |r| <= k < |s| ==> s[k] == '/'
  {
    if s != [] && s[|s| - 1] == '/' then StripTrailingSlashes(s[..|s| - 1]) else s
  }

  /**
   * POSIX `os.path.expanduser` for a leading `~` alone or followed by `/`,
   * with `home` the value of `HOME`.
   */
  function ExpandUser(p: string, home: string): (r: string)
    ensures !StartsWith(p, "~") ==> r == p
    ensures StartsWith(p, "~") && p != "~" && !StartsWith(p, "~/") ==> r == p
    ensures p == "~" || StartsWith(p, "~/") ==>
      r != [] && EndsWith(r, p[1..]) && StartsWith(r, StripTrailingSlashes(home)) &&
      (|r| == |StripTrailingSlashes(home)| + |p| - 1 || (r == "/" && StripTrailingSlashes(home) + p[1..] == ""))
  {
    if p == "~" || StartsWith(p, "~/") then
      var prefix := StripTrailingSlashes(home);
      if prefix + p[1..] == "" then "/" else prefix + p[1..]
    else p
  }

  /** The name of the variable that overrides the root of `className` services. */
  function RootVariable(className: string): string
  {
    UpperString(className) + "_ROOT"
  }

  /** The default root of `className` services: `$HOME/<Classname>s`. */
  function DefaultRoot(className: string, home: string): string
  {
    home + "/" + Title(className) + "s"
  }

  datatype RootError = HomeUnset

  /**
   * `get_root_directory(class_name, root_variable, default_value)`.
   * The f-string that reads `HOME` is evaluated before `get_value` is called,
   * so a missing `HOME` raises `KeyError` even when a default is supplied.
   */
  function RootDirectory(className: string, rootVariable: Option<string>, defaultValue: Option<string>,
                         env: map<string, string>): (r: Result<string, RootError>)
    ensures r.Err? <==> "HOME" !in env
  {
    if "HOME" !in env then Err(HomeUnset)
    else
      var variable := GetValue(rootVariable, RootVariable(className));
      var fallback := GetValue(defaultValue, DefaultRoot(className, env["HOME"]));
      Ok(ExpandUser(if variable in env then env[variable] else fallback, env["HOME"]))
  }

  /**
   * With the default arguments the root is `<CLASS>_ROOT` from the
   * environment when that variable is set (to anything, even empty), and
   * `$HOME/<Class>s` otherwise.
   */
  lemma RootResolution(className: string, env: map<string, string>)
    requires "HOME" in env
    ensures RootVariable(className) in env ==>
      RootDirectory(className, None, None, env) == Ok(ExpandUser(env[RootVariable(className)], env["HOME"]))
    ensures RootVariable(className) !in env && !StartsWith(env["HOME"], "~") ==>
      RootDirectory(className, None, None, env) == Ok(DefaultRoot(className, env["HOME"]))
  {
    var d := DefaultRoot(className, env["HOME"]);
    var home := env["HOME"];
    if !StartsWith(home, "~") {
      if home != "" {
        assert d[0] == home[0] && home[..1] == [home[0]];
      } else {
        assert d[0] == '/';
      }
      assert !StartsWith(d, "~");
    }
  }

  /** `_get_root()` of the newest module: the cached class attribute, else `~/<Classname>s`. */
  function GetRoot(cached: Option<string>, home: string, className: string): (root: string)
    ensures cached.Some? ==> root == cached.value
    ensures cached.None? ==> root == PathJoin(ExpandUser("~", home), Title(className) + "s")
  {
    if cached.Some? then cached.value else PathJoin(ExpandUser("~", home), Title(className) + "s")
  }

  // ---------------------------------------------------------------- listing

  predicate IsHidden(entry: string)
  {
    StartsWith(entry, ".")
  }

  /** The comprehension `[_ for _ in entries if not _.startswith('.')]`. */
  function DropHidden(entries: seq<string>): (r: seq<string>)
    ensures forall k :: 0 <= k < |r| ==> !IsHidden(r[k])
  {
    if entries == [] then []
    else if IsHidden(entries[0]) then DropHidden(entries[1..])
    else [entries[0]] + DropHidden(entries[1..])
  }

  lemma {:induction false} DropHiddenCounts(entries: seq<string>)
    ensures forall x :: multiset(DropHidden(entries))[x] == if IsHidden(x) then 0 else multiset(entries)[x]
  {
    if entries != [] {
      DropHiddenCounts(entries[1..]);
      assert entries == [entries[0]] + entries[1..];
    }
  }

  lemma {:induction false} DropHiddenSorted(entries: seq<string>)
    requires Sorted(entries)
    ensures Sorted(DropHidden(entries))
  {
    if entries != [] {
      DropHiddenSorted(entries[1..]);
      if !IsHidden(entries[0]) {
        var rest := DropHidden(entries[1..]);
        DropHiddenCounts(entries[1..]);
        var t := [entries[0]] + rest;
        forall i, j | 0 <= i < j < |t|
          ensures StrLessEq(t[i], t[j])
        {
          if i == 0 {
            var y := rest[j - 1];
            assert y in multiset(rest);
            assert y in multiset(entries[1..]);
            var k :| 0 <= k < |entries[1..]| && entries[1..][k] == y;
            assert entries[k + 1] == y;
          } else {
            assert t[i] == rest[i - 1] && t[j] == rest[j - 1];
          }
        }
      }
    }
  }

  /**
   * `get_all_items()`: the root listing sorted, without the entries that
   * start with `.` (disabled-service markers and other hidden files).
   */
  function AllItems(listing: seq<string>): (r: seq<string>)
    ensures Sorted(r)
    ensures forall x :: multiset(r)[x] == if IsHidden(x) then 0 else multiset(listing)[x]
  {
    var sorted := Sort(listing);
    DropHiddenSorted(sorted);
    DropHiddenCounts(sorted);
    DropHidden(sorted)
  }
}

=== FILE: Sorting.dfy ===
/**
 * Python's `sorted()` on a list of strings: strings compare code point by
 * code point, and a proper prefix comes first.
 */
module Sorting {

  /** Python's `a <= b` on `str`. */
  predicate StrLessEq(a: string, b: string)
    decreases |a|
  {
    a == [] || (b != [] && (a[0] < b[0] || (a[0] == b[0] && StrLessEq(a[1..], b[1..]))))
  }

  lemma {:induction false} StrLessEqTotal(a: string, b: string)
    ensures StrLessEq(a, b) || StrLessEq(b, a)
    decreases |a|
  {
    if a != [] && b != [] && a[0] == b[0] {
      StrLessEqTotal(a[1..], b[1..]);
    }
  }

  lemma {:induction false} StrLessEqTransitive(a: string, b: string, c: string)
    requires StrLessEq(a, b) && StrLessEq(b, c)
    ensures StrLessEq(a, c)
    decreases |a|
  {
    if a != [] && a[0] == b[0] && b[0] == c[0] {
      StrLessEqTransitive(a[1..], b[1..], c[1..]);
    }
  }

  lemma {:induction false} StrLessEqAntisymmetric(a: string, b: string)
    requires StrLessEq(a, b) && StrLessEq(b, a)
    ensures a == b
    decreases |a|
  {
    if a != [] {
      StrLessEqAntisymmetric(a[1..], b[1..]);
      assert a == [a[0]] + a[1..] && b == [b[0]] + b[1..];
    }
  }

  predicate Sorted(s: seq<string>)
  {
    forall i, j :: 0 <= i < j < |s| ==> StrLessEq(s[i], s[j])
  }

  /** Inserts `x` into a sorted sequence after every element smaller than it. */
  function Insert(x: string, s: seq<string>): (r: seq<string>)
    requires Sorted(s)
    ensures Sorted(r)
    ensures multiset(r) == multiset(s) + multiset{x}
  {
    if s == [] then [x]
    else if StrLessEq(x, s[0]) then
      InsertFrontSorted(x, s);
      [x] + s
    else
      StrLessEqTotal(x, s[0]);
      var rest := Insert(x, s[1..]);
      assert s == [s[0]] + s[1..];
      InsertBehindSorted(s[0], x, s[1..], rest);
      [s[0]] + rest
  }

  lemma InsertFrontSorted(x: string, s: seq<string>)
    requires Sorted(s) && s != [] && StrLessEq(x, s[0])
    ensures Sorted([x] + s)
  {
    var t := [x] + s;
    forall i, j | 0 <= i < j < |t|
      ensures StrLessEq(t[i], t[j])
    {
      if i == 0 && j > 1 {
        StrLessEqTransitive(x, s[0], s[j - 1]);
      }
    }
  }

  lemma InsertBehindSorted(head: string, x: string, tail: seq<string>, rest: seq<string>)
    requires Sorted([head] + tail) && StrLessEq(head, x)
    requires Sorted(rest) && multiset(rest) == multiset(tail) + multiset{x}
    ensures Sorted([head] + rest)
  {
    var t := [head] + rest;
    forall i, j | 0 <= i < j < |t|
      ensures StrLessEq(t[i], t[j])
    {
      if i == 0 {
        var y := rest[j - 1];
        assert y in multiset(rest);
        if y != x {
          assert y in multiset(tail);
          var k :| 0 <= k < |tail| && tail[k] == y;
          assert ([head] + tail)[0] == head && ([head] + tail)[k + 1] == y;
        }
      } else {
        assert t[i] == rest[i - 1] && t[j] == rest[j - 1];
      }
    }
  }

  /** `sorted(s)`. */
  function Sort(s: seq<string>): (r: seq<string>)
    ensures Sorted(r)
    ensures multiset(r) == multiset(s)
  {
    if s == [] then []
    else
      assert s == [s[0]] + s[1..];
      Insert(s[0], Sort(s[1..]))
  }
}

=== FILE: Text.dfy ===
/**
 * String helpers used throughout the supervisor: prefix tests, ASCII case
 * mapping (`str.upper`, `str.title`), whitespace tests (`str.strip`),
 * character replacement (`str.replace`), joining (`str.join`) and POSIX
 * `os.path.join` for two components.
 */
module Text {

  predicate StartsWith(s: string, prefix: string)
  {
    |prefix| <= |s| && s[..|prefix|] == prefix
  }

  predicate EndsWith(s: string, suffix: string)
  {
    |suffix| <= |s| && s[|s| - |suffix|..] == suffix
  }

  predicate IsAsciiUpper(c: char) { 'A' <= c <= 'Z' }

  predicate IsAsciiLower(c: char) { 'a' <= c <= 'z' }

  predicate IsAsciiLetter(c: char) { IsAsciiUpper(c) || IsAsciiLower(c) }

  function Upper(c: char): (r: char)
    ensures IsAsciiLower(c) ==> IsAsciiUpper(r) && Lower(r) == c
    ensures !IsAsciiLower(c) ==> r == c
  {
    if IsAsciiLower(c) then (c as int - 'a' as int + 'A' as int) as char else c
  }

  function Lower(c: char): (r: char)
    ensures IsAsciiUpper(c) ==> IsAsciiLower(r) && r as int - c as int == 'a' as int - 'A' as int
    ensures !IsAsciiUpper(c) ==> r == c
  {
    if IsAsciiUpper(c) then (c as int - 'A' as int + 'a' as int) as char else c
  }

  /**
   * `s.upper()` restricted to ASCII letters: every lower-case letter becomes
   * its upper-case form and every other character stays.
   */
  function UpperString(s: string): (r: string)
    ensures |r| == |s|
    ensures forall i :: 0 <= i < |s| && IsAsciiLower(s[i]) ==> IsAsciiUpper(r[i]) && Lower(r[i]) == s[i]
    ensures forall i :: 0 <= i < |s| && !IsAsciiLower(s[i]) ==> r[i] == s[i]
  {
    seq(|s|, i requires 0 <= i < |s| => Upper(s[i]))
  }

  /**
   * `s.title()` restricted to ASCII letters: a letter that follows a letter
   * is lowered, every other letter is raised.
   */
  function Title(s: string): (r: string)
    ensures |r| == |s|
    ensures forall i :: 0 <= i < |s| && !IsAsciiLetter(s[i]) ==> r[i] == s[i]
    ensures forall i :: 0 <= i < |s| && IsAsciiLetter(s[i]) && (i == 0 || !IsAsciiLetter(s[i - 1])) ==>
      IsAsciiUpper(r[i]) && Lower(r[i]) == Lower(s[i])
    ensures forall i :: 0 < i < |s| && IsAsciiLetter(s[i]) && IsAsciiLetter(s[i - 1]) ==>
      IsAsciiLower(r[i]) && Upper(r[i]) == Upper(s[i])
  {
    seq(|s|, i requires 0 <= i < |s| => TitleAt(s, i))
  }

  /** Character `i` of `s.title()`, as the characters before it decide. */
  function TitleAt(s: string, i: nat): (r: char)
    requires i < |s|
    ensures !IsAsciiLetter(s[i]) ==> r == s[i]
    ensures IsAsciiLetter(s[i]) && (i == 0 || !IsAsciiLetter(s[i - 1])) ==> IsAsciiUpper(r) && Lower(r) == Lower(s[i])
    ensures IsAsciiLetter(s[i]) && i > 0 && IsAsciiLetter(s[i - 1]) ==> IsAsciiLower(r) && Upper(r) == Upper(s[i])
  {
    TitleChar(i > 0 && IsAsciiLetter(s[i - 1]), s[i])
  }

  /** One character of `str.title()`: lowered right after a letter, raised anywhere else. */
  function TitleChar(afterLetter: bool, c: char): (r: char)
    ensures !IsAsciiLetter(c) ==> r == c
    ensures IsAsciiLetter(c) && !afterLetter ==> IsAsciiUpper(r) && Lower(r) == Lower(c)
    ensures IsAsciiLetter(c) && afterLetter ==> IsAsciiLower(r) && Upper(r) == Upper(c)
  {
    if afterLetter then Lower(c) else Upper(c)
  }

  /**
   * The whitespace that `str.strip()` removes (`str.isspace`): the ASCII
   * controls 0x09-0x0D and 0x1C-0x1F, the space, and the Unicode spaces and
   * line and paragraph separators.
   */
  predicate IsWhitespace(c: char)
  {
    '\t' <= c <= '\r' || '\U{1C}' <= c <= ' ' || c == '\U{85}' || c == '\U{A0}' || c == '\U{1680}' ||
    '\U{2000}' <= c <= '\U{200A}' || c == '\U{2028}' || c == '\U{2029}' || c == '\U{202F}' ||
    c == '\U{205F}' || c == '\U{3000}'
  }

  /** `s.strip() == ""`. */
  predicate IsBlank(s: string)
  {
    forall i :: 0 <= i < |s| ==> IsWhitespace(s[i])
  }

  /** `s.replace(a, b)` for one-character `a` and `b`. */
  function ReplaceChar(s: string, a: char, b: char): (r: string)
    ensures |r| == |s|
    ensures forall i :: 0 <= i < |s| ==> r[i] == (if s[i] == a then b else s[i])
  {
    if s == [] then [] else [if s[0] == a then b else s[0]] + ReplaceChar(s[1..], a, b)
  }

  /** `sep.join(xs)`. */
  function Join(sep: string, xs: seq<string>): (r: string)
    ensures xs == [] ==> r == ""
    ensures |xs| == 1 ==> r == xs[0]
  {
    if xs == [] then "" else if |xs| == 1 then xs[0] else xs[0] + sep + Join(sep, xs[1..])
  }

  lemma {:induction false} JoinSnoc(sep: string, xs: seq<string>, x: string)
    requires xs != []
    ensures Join(sep, xs + [x]) == Join(sep, xs) + sep + x
  {
    if |xs| == 1 {
      assert xs + [x] == [xs[0], x];
    } else {
      assert (xs + [x])[1..] == xs[1..] + [x];
      JoinSnoc(sep, xs[1..], x);
    }
  }

  /** POSIX `os.path.join(a, b)`: an absolute `b` replaces `a`, otherwise `b` is appended after one `/`. */
  function PathJoin(a: string, b: string): (r: string)
    ensures StartsWith(b, "/") ==> r == b
    ensures !StartsWith(b, "/") ==> StartsWith(r, a) && |r| - |a| - |b| in {0, 1}
  {
    if StartsWith(b, "/") then b
    else if a == "" || EndsWith(a, "/") then a + b
    else a + "/" + b
  }

  /** Whatever `a` is, the joined path ends with the component joined on. */
  lemma PathJoinEnds(a: string, b: string)
    ensures EndsWith(PathJoin(a, b), b)
  {
    var r := PathJoin(a, b);
    if !StartsWith(b, "/") {
      assert r[|r| - |b|..] == b;
    }
  }

  /** The separator `os.path.join` puts after `a` before a relative component. */
  function Connector(a: string): string
  {
    if a == "" || EndsWith(a, "/") then "" else "/"
  }

  lemma PathJoinRelative(a: string, b: string)
    requires !StartsWith(b, "/")
    ensures PathJoin(a, b) == a + Connector(a) + b
  {
  }

  lemma ConnectorOfJoin(a: string, b: string)
    requires b != [] && !StartsWith(b, "/")
    ensures Connector(a + Connector(a) + b) == Connector(b)
  {
    var ab := a + Connector(a) + b;
    assert ab[|ab| - |b|..] == b;
    assert ab[|ab| - 1] == b[|b| - 1];
    assert EndsWith(ab, "/") <==> EndsWith(b, "/");
  }

  /** Joining in two steps is joining the joined tail: `join(join(a, b), c) == join(a, join(b, c))`. */
  lemma PathJoinAssociative(a: string, b: string, c: string)
    ensures PathJoin(PathJoin(a, b), c) == PathJoin(a, PathJoin(b, c))
  {
    if StartsWith(c, "/") {
    } else if StartsWith(b, "/") {
      AbsoluteJoin(b, c);
    } else if b == [] {
      EmptyMiddleJoin(a, c);
    } else {
      RelativeJoins(a, b, c);
    }
  }

  lemma AbsoluteJoin(b: string, c: string)
    requires StartsWith(b, "/")
    ensures StartsWith(PathJoin(b, c), "/")
  {
    var bc := PathJoin(b, c);
    if !StartsWith(c, "/") {
      assert bc[..|b|] == b;
      assert bc[..1] == b[..1];
    }
  }

  lemma EmptyMiddleJoin(a: string, c: string)
    requires !StartsWith(c, "/")
    ensures PathJoin(PathJoin(a, ""), c) == PathJoin(a, PathJoin("", c))
  {
    PathJoinRelative(a, "");
    PathJoinRelative("", c);
    PathJoinRelative(a, c);
    var ab := PathJoin(a, "");
    PathJoinRelative(ab, c);
    if Connector(a) == "/" {
      assert ab == a + "/";
      assert EndsWith(ab, "/");
    } else {
      assert ab == a;
    }
  }

  lemma RelativeJoins(a: string, b: string, c: string)
    requires !StartsWith(c, "/") && !StartsWith(b, "/") && b != []
    ensures PathJoin(PathJoin(a, b), c) == PathJoin(a, PathJoin(b, c))
  {
    PathJoinRelative(a, b);
    PathJoinRelative(b, c);
    var bc := PathJoin(b, c);
    assert !StartsWith(bc, "/") by {
      assert bc[..|b|] == b;
      assert bc[0] == b[0];
    }
    PathJoinRelative(a, bc);
    PathJoinRelative(PathJoin(a, b), c);
    ConnectorOfJoin(a, b);
    assert a + Connector(a) + b + Connector(b) + c == a + Connector(a) + (b + Connector(b) + c);
  }

  /** `'; '.join([f"export {_}" for _ in env_list])`: a shell prefix that exports every variable. */
  function EnvListToString(envs: seq<string>): (r: string)
    ensures envs == [] ==> r == ""
    ensures |envs| == 1 ==> r == "export " + envs[0]
    ensures envs != [] ==> StartsWith(r, "export " + envs[0])
  {
    Join("; ", Exports(envs))
  }

  function Exports(envs: seq<string>): (r: seq<string>)
    ensures |r| == |envs|
    ensures forall i :: 0 <= i < |envs| ==> r[i] == "export " + envs[i]
  {
    if envs == [] then [] else ["export " + envs[0]] + Exports(envs[1..])
  }

  /** `string + f"; export {env_var}"`: one more variable exported after an existing prefix. */
  function AddEnvironmentVariable(s: string, env: string): (r: string)
    ensures StartsWith(r, s) && EndsWith(r, "export " + env)
    ensures |r| == |s| + |"; export "| + |env|
  {
    s + "; export " + env
  }

  /** The two generations build the same prefix: adding a variable to the prefix of a non-empty list is the prefix of the longer list. */
  lemma EnvGenerationsAgree(envs: seq<string>, env: string)
    requires envs != []
    ensures AddEnvironmentVariable(EnvListToString(envs), env) == EnvListToString(envs + [env])
  {
    assert Exports(envs + [env]) == Exports(envs) + ["export " + env];
    JoinSnoc("; ", Exports(envs), "export " + env);
  }
}
